=== FILE: README.md ===
# A Dafny model of `az containerapp up` planning and the data-collection-rule helpers

This project models two parts of the Azure CLI extensions as pure functions
over immutable data, and proves what they promise.

- **`az containerapp up` planning** (`azext_containerapp/_up_utils.py`). This covers:
  - the resource descriptors: resource group, extension, custom location,
    environment and container app;
  - the lookups that resolve an app, an environment or a custom location
    from what the subscription already holds;
  - `_set_up_defaults`, which settles the resource group, environment,
    custom location and extension before anything is created;
  - the part of `urllib.parse.urlparse` the registry helpers rely on;
  - the registry helpers: registry name from a server or image, default
    registry name, credential lookup, ACR creation request and build tag;
  - argument checks, service-principal scopes, the app URL, the token choice,
    and the location helpers.
- **The argument validators** of `azext_containerapp/_validators.py`:
  memory, CPU, the registry triple, target port and ingress, and the
  expansion of environment and custom-location names into resource ids.
- **The data collection rule helpers** of `azext_amcs/custom.py`:
  - the six `KEY=VALUE` shorthand parsers of `rule update`;
  - the per-section `*_list` and `*_show` selectors over a fetched rule;
  - the choice of association listing.

The Azure control plane is a value. `Inventory.Cloud` holds the
subscription's resource groups, environments, custom locations, clusters,
registries, apps and GitHub Action configurations. Every call the code makes
to a management client becomes a lookup in it. Effects such as creating a
group, an environment or a registry are not performed. Instead, the
`create_if_needed` members return the descriptor after the call together with
an `Action` (Created, Reused or Skipped). Errors the code raises become `Err`
values of `Common.Result`, or `Fail` values of `Common.Outcome`.

Modules:
- `Common`: Option, Result, Outcome and the error kinds.
- `Text`: ASCII string operations, Split/Join and integer parsing.
- `Seqs`: filters and first-match lookups.
- `ResourceIds`: the ARM resource-id grammar, with its parse/format round trip.
- `Inventory`: the cloud's records and the client lookups.
- `Locations`, `Descriptors`, `Registry`, `UpHelpers`, `Resolver`, `Planner` and `Validators`: the Container Apps code.
- `DcrShorthand` and `DcrQueries`: the data collection rule helpers.

## Model

| member | source | states |
|---|---|---|
| Descriptors.NewResourceGroup | src/containerapp/azext_containerapp/_up_utils.py:76-84 | The group keeps its name and exists exactly when the subscription has it. Its location is never the staging region: that region becomes the fallback region, and any other location is kept. |
| Descriptors.GroupCreateIfNeeded | src/containerapp/azext_containerapp/_up_utils.py:109-116 | An existing group is reused under its own name. A missing one is created, under a random name when it has none. Either way the group then exists with its location unchanged. |
| Descriptors.GroupCreateIdempotent | src/containerapp/azext_containerapp/_up_utils.py:109-116 | Once the group has been created, running the step again reuses it and changes nothing. |
| Descriptors.ExtensionCreateIfNeeded | src/containerapp/azext_containerapp/_up_utils.py:189-200 | An unnamed extension is skipped. A named one exists afterwards, and it is created exactly when it did not exist before. |
| Descriptors.ExtensionRid | src/containerapp/azext_containerapp/_up_utils.py:205-209 | A name that is already a resource id is its own id. Otherwise the id is exactly the cluster id, then the extension path, then the name: it starts with the first, ends with the other two, and has their combined length. |
| Descriptors.ExtensionRidName | src/containerapp/azext_containerapp/_up_utils.py:205-209 | The last `/`-segment of a built extension id is the extension name. |
| Descriptors.NewCustomLocation | src/containerapp/azext_containerapp/_up_utils.py:213-238 | A resource-id name is split into its name and group and marks the custom location as existing. A plain name keeps the given group and existence flag. |
| Descriptors.CustomLocationSetName | src/containerapp/azext_containerapp/_up_utils.py:270-277 | A resource id sets both the name and the group from its parts. A plain name sets only the name. |
| Descriptors.CustomLocationRidRoundTrip | src/containerapp/azext_containerapp/_up_utils.py:270-289 | Naming a custom location by an id spelled as `get_rid` spells it (`customlocations`) and asking for its id gives back exactly that id. |
| Descriptors.CustomLocationRidMatches | src/containerapp/azext_containerapp/_up_utils.py:270-289 | For an id with any spelling of the namespace and type, such as `customLocations`, the round trip gives the id back equal up to case. This is the comparison the planner makes. |
| Descriptors.CustomLocationRid | src/containerapp/azext_containerapp/_up_utils.py:280-289 | A name that is already a resource id is kept. A bare name in a named group gives the id of that group under `Microsoft.ExtendedLocation/customlocations`. |
| Descriptors.CustomLocationCreateIfNeeded | src/containerapp/azext_containerapp/_up_utils.py:254-265 | An unnamed custom location is skipped. A named one exists afterwards and is created exactly when it was missing. |
| Descriptors.VariantOf | src/containerapp/azext_containerapp/_up_utils.py:293-326 | A parsed environment type selects the connected variant exactly when it matches `connectedEnvironments` ignoring case. Any other type selects the managed variant. |
| Descriptors.NewEnvironment | src/containerapp/azext_containerapp/_up_utils.py:293-326 | An id name gives the environment its name, its own resource group and its type from the id. A plain name keeps the planner's group. It is then connected when so typed, or when untyped but given a custom location or cluster. |
| Descriptors.EnvironmentFromIdMatchesParts | src/containerapp/azext_containerapp/_up_utils.py:293-326 | Building an environment from its resource id agrees with building it from the id's parts on the name, the group and whether it is connected. |
| Descriptors.EnvSetName | src/containerapp/azext_containerapp/_up_utils.py:328-342 | An id sets the name, the group and the raw type from its parts and leaves everything else alone. When the group is the same, the planner's group is kept shared. A plain name changes only the name. |
| Descriptors.EnvRidParses | src/containerapp/azext_containerapp/_up_utils.py:395-405 | The environment's id parses back into its subscription, group, `Microsoft.App`, its type (managed by default) and its name. |
| Descriptors.EnvRid | src/containerapp/azext_containerapp/_up_utils.py:395-405 | A name that is already a resource id is kept. A bare name in a named group gives the id under `Microsoft.App` with the environment's type, or the managed type when it has none. |
| Descriptors.EnvCreateIfNeeded | src/containerapp/azext_containerapp/_up_utils.py:358-393 | An existing environment is reused. Otherwise creation succeeds exactly when the location is allowed. The result exists, has the allowed location and keeps its type and custom location. An unnamed environment is named `<app>-env`. |
| Locations.FormatLocation | src/containerapp/azext_containerapp/_up_utils.py:1187-1190 | `None` and the empty string are returned unchanged. Any other location comes back in normal form: no upper-case letter, space or parenthesis. |
| Locations.FormatLocationIdempotent | src/containerapp/azext_containerapp/_up_utils.py:1187-1190 | Formatting a formatted location changes nothing. |
| Locations.FormatTextIsFilter | src/containerapp/azext_containerapp/_up_utils.py:1187-1190 | Formatting keeps exactly the lower-cased characters that are not a space or a parenthesis, in order. |
| Locations.EnvironmentLocations | src/containerapp/azext_containerapp/_up_utils.py:1138-1149 | The result is the non-blank locations of the last entry of the requested type, in their order, each lower-cased with spaces and brackets removed. Every non-blank listed location appears in normal form, and every result comes from a listed one. The type `None` lists nothing. |
| Locations.LastTypeLocationsAt | src/containerapp/azext_containerapp/_up_utils.py:1142-1145 | When several provider entries have the requested type, the last one's locations are used. |
| Locations.ValidateEnvironmentLocation | src/containerapp/azext_containerapp/_up_utils.py:1123-1136 | A given location passes exactly when it is allowed, and is returned as written. Without a location, the provider's first location is returned, which fails when the list is empty. |
| Urls.UrlSplit | src/containerapp/azext_containerapp/_up_utils.py:893 | `urlsplit` fails only with the ValueError for an unmatched bracket, and on success its scheme is the one read from the cleaned URL. |
| Urls.SplitNetlocShape | src/containerapp/azext_containerapp/_up_utils.py:893 | After the scheme, a leading `//` starts a network location that runs to the first `/`, `?` or `#`. The path then runs to the first `?` or `#`, and starts with `/` when there is a network location. The two together are the longest such prefix. The split fails only when a bracket is present, and always succeeds without one. |
| Urls.UrlSplitFaults | src/containerapp/azext_containerapp/_up_utils.py:893 | `urlsplit` raises only for a URL holding `[` or `]`, and never for one without. |
| Urls.UrlSplitShape | src/containerapp/azext_containerapp/_up_utils.py:893 | The network location and path of a successful `urlsplit` are the ones `SplitNetlocShape` describes, cut from the text after the scheme. |
| Urls.PathBeforeParams | src/containerapp/azext_containerapp/_up_utils.py:893-894 | The path kept is a prefix of the path. It is the whole path exactly when the part after the last `/` has no `;`. Otherwise it stops at the first `;` after the last `/`. |
| Urls.UrlHost | src/containerapp/azext_containerapp/_up_utils.py:893-894 | `urlparse` fails exactly when `urlsplit` does. With a scheme the host is the network location, and without one it is the path less its parameters. |
| Urls.PlainPath | src/containerapp/azext_containerapp/_up_utils.py:893-894 | A bare login server such as `NAME.azurecr.io` is read whole as the path. |
| Urls.HttpsHost | src/containerapp/azext_containerapp/_up_utils.py:893-894 | `https://HOST/` has the network location HOST. |
| Urls.NetlocWithoutScheme | src/containerapp/azext_containerapp/_up_utils.py:893-894 | A scheme-less `//HOST/PATH` has HOST as its network location, and `urlparse` reports `/PATH`, not HOST. |
| Urls.UnmatchedBracketFaults | src/containerapp/azext_containerapp/_up_utils.py:893 | `//[HOST` raises `ValueError: Invalid IPv6 URL`. |
| Urls.ParamsCut | src/containerapp/azext_containerapp/_up_utils.py:893-894 | A scheme-less `NAME;PARAMS` is reported as NAME. |
| Registry.RegistryNameOf | src/containerapp/azext_containerapp/_up_utils.py:893-894 | The name fails exactly when `urlparse` raises, and that happens only for a URL with a bracket. A name has no `.` and is a prefix of the host `urlparse` reports. |
| Registry.RegistryNameOfServer | src/containerapp/azext_containerapp/_up_utils.py:893-894 | The registry name parsed from `NAME.azurecr.io` is NAME. |
| Registry.RegistryNameOfUrl | src/containerapp/azext_containerapp/_up_utils.py:893-894 | The registry name parsed from `https://NAME.azurecr.io/` is NAME, because the host is taken when a scheme is present. |
| Registry.RegistryNameOfNetlocOnly | src/containerapp/azext_containerapp/_up_utils.py:893-894 | The registry name parsed from `//NAME.azurecr.io` is empty, because without a scheme the path is taken, and the path is empty. |
| Registry.RegistryNameOfNetlocImage | src/containerapp/azext_containerapp/_up_utils.py:812-813 | The registry name parsed from an image `//NAME.azurecr.io/REPO` is `/REPO`. |
| Registry.RegistryNameOfBracket | src/containerapp/azext_containerapp/_up_utils.py:893-894 | A server `//[NAME.azurecr.io` makes the name lookup fail with `ValueError: Invalid IPv6 URL`. |
| Registry.NameBeforeSuffix | src/containerapp/azext_containerapp/_up_utils.py:852-853 | Slicing at the last `.azurecr.io` succeeds exactly when the suffix occurs. The result followed by the suffix is a prefix of the server. The cut is at the last occurrence: the suffix occurs nowhere after the result. |
| Registry.NameBeforeSuffixRoundTrip | src/containerapp/azext_containerapp/_up_utils.py:852-853 | Cutting the suffix from `name + ".azurecr.io"` gives back the name. |
| Registry.DefaultRegistryName | src/containerapp/azext_containerapp/_up_utils.py:862-869 | The name has 15 characters: `ca`, the first ten hex digits of the hash of `subscription/group/env`, then `acr`. It uses only lower-case letters and digits. |
| Registry.AcrGroup | src/containerapp/azext_containerapp/_up_utils.py:852-859 | The group returned is that of the registry named before the suffix, and a group is found whenever that registry exists. |
| Registry.FindExistingAcr | src/containerapp/azext_containerapp/_up_utils.py:1107-1120 | A registry under the default name is found exactly when one exists. Finding it returns its name and group and clears the app's create-registry flag. Otherwise the app is unchanged. |
| Registry.SetAcrCreds | src/containerapp/azext_containerapp/_up_utils.py:872-882 | Succeeds exactly when the credentials can be read. It then sets the app's user and password to them and returns the registry's group. |
| Registry.RegistryDetailsGiven | src/containerapp/azext_containerapp/_up_utils.py:885-898 | A non-Azure server with `--source` is rejected. Otherwise the registry is named from the server, and a `urlparse` ValueError is passed on. With a credential missing, the step succeeds exactly when the registry has credentials, and the app gets them and the registry's group. With both given, it succeeds exactly when the registry named before `.azurecr.io` exists, and the app gains only the registry in that group. |
| Registry.RegistryDetailsDefault | src/containerapp/azext_containerapp/_up_utils.py:899-912 | With no server, an existing default-named registry is used with its credentials. Otherwise a new registry under the default name is planned in the app's group, with the create flag set. |
| Registry.GetRegistryDetails | src/containerapp/azext_containerapp/_up_utils.py:885-913 | On success the app has a server and a planned registry. A given server is kept, the create flag is untouched, and the registry is named from the server. Without a server, both are the default name. It can fail only with a given server or an existing default-named registry. An Azure server that `urlparse` rejects fails with its ValueError. |
| Registry.PlannedRegistryNameRecovered | src/containerapp/azext_containerapp/_up_utils.py:482-485 | When a registry is planned, the name `create_acr` cuts from the server is the planned registry's name. |
| Registry.AcrFromImage | src/containerapp/azext_containerapp/_up_utils.py:807-834 | An image outside `azurecr.io` leaves the app unchanged. An image that `urlparse` rejects fails with its ValueError. Otherwise the server is the image's first path segment and the registry is named from the image. With a credential missing, the step succeeds exactly when the registry has credentials, and the app gets them and the registry's group. With both given, it succeeds exactly when the registry named by the server exists, and the app gains that registry. |
| Registry.ImageServer | src/containerapp/azext_containerapp/_up_utils.py:845-846 | A server is found exactly when some container has the app's name, ignoring case. It is the part before the first `/` of the image of the first such container. |
| Registry.RegistryFromApp | src/containerapp/azext_containerapp/_up_utils.py:837-849 | No app, or no registry, leaves the app unchanged, and a single registry becomes the server. With several, the image's server is used if it is one of them. A missing container is a fault. With `--source` only ACR registries count. |
| Registry.AcrLocation | src/containerapp/azext_containerapp/_up_utils.py:486-488 | The registry goes to the environment's location unless that is absent or the staging region. It is never the staging region. |
| Registry.AcrCreateRequest | src/containerapp/azext_containerapp/_up_utils.py:474-499 | No registry is created unless flagged. A flagged creation uses the name before the suffix, the app's group and the chosen location, and fails when the suffix is missing. |
| Registry.BuildImageName | src/containerapp/azext_containerapp/_up_utils.py:501-512 | The built image is `server/image:tag`, with the app name standing in for a missing image. |
| Registry.BuildTag | src/containerapp/azext_containerapp/_up_utils.py:506-509 | The tag is exactly the timestamp with every space, dash, dot and colon removed, and every other character kept in order. |
| Registry.BuildTagIdempotent | src/containerapp/azext_containerapp/_up_utils.py:506-509 | Cleaning a cleaned tag changes nothing. |
| UpHelpers.ValidateContainerAppName | src/containerapp/azext_containerapp/_up_utils.py:915-924 | A name passes exactly when it has at most 32 characters, all lower-case letters, digits or dashes, no `--`, and a letter as its first non-dash character. |
| UpHelpers.AppNameCheckIff | src/containerapp/azext_containerapp/_up_utils.py:915-924 | The code's sequence of tests decides exactly that characterisation. |
| UpHelpers.AppNameTooLongRejected | src/containerapp/azext_containerapp/_up_utils.py:918 | A 33-character name is rejected. |
| UpHelpers.AppNameTrailingDash | src/containerapp/azext_containerapp/_up_utils.py:915-924 | `a-` passes although the message says a name must end with an alphanumeric character. |
| UpHelpers.ScanFile | src/containerapp/azext_containerapp/_up_utils.py:610-631 | The port found in a Dockerfile comes from the last line that yields one. In a line, it follows the last `EXPOSE` token that has an integer after it. Comment lines are ignored. |
| UpHelpers.IngressAndTargetPort | src/containerapp/azext_containerapp/_up_utils.py:609-633 | With no port, no ingress and a Dockerfile that exposes a port, that port is used with external ingress. A given port with no ingress gets external ingress. Otherwise the arguments are unchanged. |
| UpHelpers.ExposeExample | src/containerapp/azext_containerapp/_up_utils.py:610-631 | In `# EXPOSE 1`, `EXPOSE 80`, `expose 8080`, the comment is skipped and the last port, 8080, wins. |
| UpHelpers.ValidateUpArgs | src/containerapp/azext_containerapp/_up_utils.py:636-657 | Passes exactly when: no output flag is given; some source, image or repo is given; source and repo are not both given; and, with a repo and an ACR server, `urlparse` accepts the server and the name it gives is at most 20 characters. Each failure raises the code's error kind, and a `urlparse` ValueError is passed on. |
| UpHelpers.RepoNameTooLongFails | src/containerapp/azext_containerapp/_up_utils.py:652-657 | With no output flag and no source, a repo deployment whose ACR name is over the limit fails with the registry-name error. |
| UpHelpers.RepoLongServerFails | src/containerapp/azext_containerapp/_up_utils.py:652-657 | A repo deployment to `NAME.azurecr.io` with NAME over 20 characters fails with the registry-name error. |
| UpHelpers.RepoNetlocServerPasses | src/containerapp/azext_containerapp/_up_utils.py:652-657 | A repo deployment to `//NAME.azurecr.io` passes whatever the length of NAME, because the name `urlparse` yields is empty. |
| UpHelpers.ReformatImage | src/containerapp/azext_containerapp/_up_utils.py:668-672 | With a source and an image or repo, the result is the image's last `/`-segment with every `:` removed, so it holds neither. A missing image is an error. Without these the image is kept. |
| UpHelpers.ReformatImageIdempotent | src/containerapp/azext_containerapp/_up_utils.py:668-672 | Reformatting a reformatted image changes nothing. |
| UpHelpers.ServicePrincipalScopes | src/containerapp/azext_containerapp/_up_utils.py:524-537 | The scopes are the app's group, plus the environment's group when it is given and different. |
| UpHelpers.ServicePrincipalScopesDistinct | src/containerapp/azext_containerapp/_up_utils.py:530-537 | The two scopes, when there are two, name different groups. |
| UpHelpers.GetOrCreateSp | src/containerapp/azext_containerapp/_up_utils.py:545-578 | A new service principal is created exactly when the three credentials are not all given and no GitHub Action exists for the app. Given credentials are used as they are. |
| UpHelpers.UpOutputUrl | src/containerapp/azext_containerapp/_up_utils.py:1084-1093 | A URL exists exactly when the app has an FQDN. An FQDN starting with `http` is kept, and any other is prefixed with `http://`. |
| UpHelpers.UpOutputUrlIdempotent | src/containerapp/azext_containerapp/_up_utils.py:1092-1093 | Prefixing an already prefixed URL changes nothing. |
| UpHelpers.GetToken | src/containerapp/azext_containerapp/_up_utils.py:1193-1201 | Without a repo there is no token. A given token wins; otherwise the cached one, and otherwise the OAuth one. |
| Resolver.MatchedApps | src/containerapp/azext_containerapp/_up_utils.py:699-734 | The filter chain keeps exactly the apps passing every test the user's arguments impose. It faults exactly when a cluster is given and an app surviving the earlier filters has no custom location. |
| Resolver.MatchedAppsOneFilter | src/containerapp/azext_containerapp/_up_utils.py:703-713 | Applying the filters one after another equals one filter by their conjunction. |
| Resolver.AdoptApp | src/containerapp/azext_containerapp/_up_utils.py:714-720 | The matched app gives the planner its group and the environment its name, group and type. A connected environment takes the app's custom location, which faults when the app has none. |
| Resolver.AppEnvAndGroup | src/containerapp/azext_containerapp/_up_utils.py:699-725 | Runs only without a named or existing group. One match is adopted, several are an error, and none changes nothing. |
| Resolver.LogsFiltersOneFilter | src/containerapp/azext_containerapp/_up_utils.py:753-767 | The Log Analytics and location filters together are one filter by both conditions. |
| Resolver.EnvFromLogAnalytics | src/containerapp/azext_containerapp/_up_utils.py:737-772 | With an unnamed environment and a group that is not given or exists, the first managed environment with that workspace and location is adopted. Otherwise nothing changes. |
| Resolver.AdoptExtension | src/containerapp/azext_containerapp/_up_utils.py:788-804 | The cluster's Container Apps extension is adopted, and so is the first custom location on that cluster bound to it in its namespace, with that location's name, group and region. |
| Resolver.CustomLocationFromCluster | src/containerapp/azext_containerapp/_up_utils.py:775-804 | A named custom location is left alone. Otherwise a cluster is required and must exist: it gives the location, and its first Container Apps extension is adopted. |
| Resolver.TargetOf | src/containerapp/azext_containerapp/_up_utils.py:1152-1162 | An id names the environment and group and says whether it is connected. Otherwise a custom location or cluster makes it connected. |
| Resolver.TargetAgreesWithDescriptor | src/containerapp/azext_containerapp/_up_utils.py:1152-1162 | The check and the environment descriptor built from the same arguments agree on the name, the group and the connected type. |
| Resolver.ExistingEnv | src/containerapp/azext_containerapp/_up_utils.py:1166-1174 | The connected or managed environment is found exactly when it exists. A managed one has no custom location. |
| Resolver.CheckExisting | src/containerapp/azext_containerapp/_up_utils.py:1175-1184 | Passes exactly when the existing environment agrees on the location, the custom location and the hosting cluster. A custom location without a host is a fault. |
| Resolver.CheckEnvNameOnRg | src/containerapp/azext_containerapp/_up_utils.py:1152-1184 | Passes exactly when the location is allowed, and an existing environment of that name and group agrees with the arguments. |
| Planner.ManagedByName | src/containerapp/azext_containerapp/_up_utils.py:953-965 | One managed environment with the name (and location) gives the group and makes the environment managed. Several are an error; none changes nothing. |
| Planner.ManagedByNameUnique | src/containerapp/azext_containerapp/_up_utils.py:953-960 | When exactly one environment matches, its group is adopted. |
| Planner.ManagedByNameAmbiguous | src/containerapp/azext_containerapp/_up_utils.py:961-965 | Two matching environments make the step fail. |
| Planner.SelectConnected | src/containerapp/azext_containerapp/_up_utils.py:976-987 | The loop keeps exactly the connected environments matching the name, location, custom location and hosting cluster, in order. |
| Planner.ChooseConnected | src/containerapp/azext_containerapp/_up_utils.py:989-1002 | One match is adopted. Several are an error when the environment is named, and otherwise the first is adopted. |
| Planner.AdoptConnected | src/containerapp/azext_containerapp/_up_utils.py:989-992 | The chosen environment gives the group, the environment's name and type from its id, and its custom location. |
| Planner.FreshCustomLocationRid | src/containerapp/azext_containerapp/_up_utils.py:1014-1016 | The id given to a new custom location parses back into its subscription, group and name. |
| Planner.DefaultExtension | src/containerapp/azext_containerapp/_up_utils.py:1018-1025 | A missing extension gets the default name and namespace and the logs group and location. The custom location takes the namespace and the extension's id. |
| Planner.FreshConnected | src/containerapp/azext_containerapp/_up_utils.py:1005-1025 | An existing custom location only gives the environment its id. Otherwise a group or custom-location name the user gave is kept, and a missing one gets the generated name. The custom location goes in the group, the environment gets a default name when unnamed and the custom location's id, and a missing extension gets the defaults. |
| Planner.ConnectedDefaults | src/containerapp/azext_containerapp/_up_utils.py:1005-1025 | Only a missing connected environment is touched. It stays connected, always gets a custom location, and fails exactly when the cluster lookup fails. |
| Planner.SettledEnvironment | src/containerapp/azext_containerapp/_up_utils.py:940-1002 | Chains the app lookup, the log-analytics lookup for a non-connected environment, the managed block and the connected block. A failing app lookup fails it, and it fails only with a validation error or a fault. |
| Planner.SettleEnvironment | src/containerapp/azext_containerapp/_up_utils.py:940-1002 | The method, whose connected block is a loop, gives exactly `SettledEnvironment`. |
| Planner.PlanOf | src/containerapp/azext_containerapp/_up_utils.py:928-1027 | The plan's group, environment, custom location and extension are the connected defaults applied to the settled group and environment. Its app is the result of the image lookup, and either lookup failing fails it. |
| Planner.PlanAdoptsManagedByName | src/containerapp/azext_containerapp/_up_utils.py:940-965 | When the app and log-analytics lookups leave the group unnamed and exactly one managed environment has the name, the plan uses that environment's group, marks it managed, and leaves the custom location and extension alone. |
| Planner.SetUpDefaults | src/containerapp/azext_containerapp/_up_utils.py:928-1027 | The result is exactly the step-by-step chain `PlanOf`. Also, a failing app lookup or image lookup fails the whole step, a managed result keeps the custom location and extension, and a connected environment that does not exist always gets a custom location id. |
| Validators.WithMemoryUnit | src/containerapp/azext_containerapp/_validators.py:31-33 | The memory ends with `Gi`. A value already ending so is unchanged; otherwise it is the right-stripped value followed by `Gi`. |
| Validators.ValidateMemory | src/containerapp/azext_containerapp/_validators.py:27-38 | No memory passes. Otherwise it passes, with `Gi` appended, exactly when the part before `Gi` is a number. |
| Validators.ValidateMemoryIdempotent | src/containerapp/azext_containerapp/_validators.py:27-38 | Validating a validated memory value gives it back. |
| Validators.ValidateCpu | src/containerapp/azext_containerapp/_validators.py:41-47 | Fails exactly when a non-empty CPU value is not a number. |
| Validators.ValidateRegistryServer | src/containerapp/azext_containerapp/_validators.py:108-113 | On create, a server missing a user or a password is rejected unless it is an ACR server. |
| Validators.ValidateRegistryUser | src/containerapp/azext_containerapp/_validators.py:116-120 | On create, a user needs a server, and a password unless the server is ACR. |
| Validators.ValidateRegistryPass | src/containerapp/azext_containerapp/_validators.py:123-127 | On create, a password needs a server, and a user unless the server is ACR. |
| Validators.RegistryValidatorsTogether | src/containerapp/azext_containerapp/_validators.py:108-127 | All three pass exactly when nothing is given, or a server is given with both credentials or is ACR. |
| Validators.ValidateTargetPort | src/containerapp/azext_containerapp/_validators.py:130-134 | On create, a non-zero target port without ingress is rejected. |
| Validators.ValidateIngress | src/containerapp/azext_containerapp/_validators.py:137-141 | On create, ingress without a non-zero target port is rejected. |
| Validators.PortAndIngressTogether | src/containerapp/azext_containerapp/_validators.py:130-141 | Both pass exactly when the port and the ingress are given together or not at all. |
| Validators.OnlyCreateValidated | src/containerapp/azext_containerapp/_validators.py:108-141 | A command without `create` in its name passes every registry, port and ingress check. |
| Validators.EnvironmentTypeOf | src/containerapp/azext_containerapp/_validators.py:57-69 | A custom location or cluster means connected. Otherwise `managedEnvironments` in the name means managed, then `connectedEnvironments` means connected, and only then does the given type decide. |
| Validators.ValidateEnvNameOrId | src/containerapp/azext_containerapp/_validators.py:50-88 | With a name and a group, a plain name of known type is expanded to a connected or managed environment id. Ids, unknown types and missing arguments are kept. |
| Validators.EnvNameExpansion | src/containerapp/azext_containerapp/_validators.py:70-88 | The expanded id parses back into the subscription, group, `Microsoft.App`, type and name, and validating it again keeps it. |
| Validators.ValidateCustomLocationNameOrId | src/containerapp/azext_containerapp/_validators.py:91-105 | With a group, a plain name is expanded to a custom location id. Ids and missing arguments are kept. |
| Validators.CustomLocationNameExpansion | src/containerapp/azext_containerapp/_validators.py:91-105 | The expanded id parses back into its parts, and validating it again keeps it. |
| DcrShorthand.SplitToken | src/monitor-control-service/azext_amcs/custom.py:143-145 | A token splits exactly when it holds `=`. The key holds no `=`, and key, `=` and value rejoin to the token. |
| DcrShorthand.Pairs | src/monitor-control-service/azext_amcs/custom.py:141-147 | Any token without `=` rejects the flag with its format message. Otherwise the pairs are the present tokens, split, in order. |
| DcrShorthand.Group | src/monitor-control-service/azext_amcs/custom.py:140-149 | One group per key, in order of first appearance, each holding all of that key's values in input order. |
| DcrShorthand.Emit | src/monitor-control-service/azext_amcs/custom.py:180-193 | Fails exactly when a known key's value is not an integer where one is required. The record holds only table fields: a field is present exactly when a key lower-casing to it was given, and the last such key decides its value. |
| DcrShorthand.EmitFromPairs | src/monitor-control-service/azext_amcs/custom.py:180-193 | Over the grouped pairs, the record is built whenever no key of an integer field is given. A field is set exactly when some pair's key lower-cases to it. |
| DcrShorthand.ParseRecord | src/monitor-control-service/azext_amcs/custom.py:168-194 | A token without `=` fails with the flag's format message. If every token holds `=` and no key of an integer field is given, or the table has no integer field, the call succeeds. The record holds only table fields: a field is present exactly when some key lower-cases to it, and an integer field holds a number. |
| DcrShorthand.Append | src/monitor-control-service/azext_amcs/custom.py:168-194 | No flag leaves the list unchanged. Otherwise the call fails exactly when `ParseRecord` does, a malformed token fails with the format message, and on success exactly `ParseRecord`'s record is appended after the earlier ones. |
| DcrShorthand.ProcessDataFlows | src/monitor-control-service/azext_amcs/custom.py:137-157 | No flag leaves the list unchanged. Otherwise the call fails exactly when `ParseRecord` fails on the `--data-flows` table, and a token without `=` fails with the `--data-flows` message. When every token holds `=` it succeeds and appends exactly that record, which has at most `streams` and `destinations`. |
| DcrShorthand.ProcessPerformanceCounters | src/monitor-control-service/azext_amcs/custom.py:168-194 | No flag leaves the list unchanged. Otherwise the call fails exactly when `ParseRecord` fails on the `--performance-counters` table, and then appends exactly that record. It succeeds when every token holds `=` and no key lower-cases to `sampling-frequency`. The record has at most streams, sampling frequency, counter specifiers and name, and the sampling frequency is always an integer. |
| DcrShorthand.ProcessSyslog | src/monitor-control-service/azext_amcs/custom.py:197-220 | No flag leaves the list unchanged. Otherwise the call fails exactly when `ParseRecord` fails on the `--syslog` table, which happens exactly when a token lacks `=`. On success it appends exactly that record, with at most streams, facility names, log levels and name. |
| DcrShorthand.ProcessWindowsEventLogs | src/monitor-control-service/azext_amcs/custom.py:223-244 | No flag leaves the list unchanged. Otherwise the call fails exactly when `ParseRecord` fails on the `--windows-event-logs` table, which happens exactly when a token lacks `=`. On success it appends exactly that record, with at most streams, XPath queries and name. |
| DcrShorthand.ProcessLogAnalytics | src/monitor-control-service/azext_amcs/custom.py:247-266 | No flag leaves the list unchanged. Otherwise the call fails exactly when `ParseRecord` fails on the `--log-analytics` table, which happens exactly when a token lacks `=`. On success it appends exactly that record, with at most the workspace resource id and name. |
| DcrShorthand.ProcessMonitorMetrics | src/monitor-control-service/azext_amcs/custom.py:269-286 | No flag keeps the destination. Otherwise the destination is replaced by `ParseRecord` on the `--monitor-metrics` table, which succeeds exactly when every token holds `=`. The new record holds at most a name. |
| DcrShorthand.FieldFromValues | src/monitor-control-service/azext_amcs/custom.py:171-193 | When a key is spelled one way, its field is present exactly when values were given. The field is computed from all of them in input order: the list, the first, or the first as an integer. |
| DcrShorthand.EmptyFlagAddsEmptyRecord | src/monitor-control-service/azext_amcs/custom.py:168-194 | A flag given with no tokens still appends an empty record. |
| DcrShorthand.MalformedTokenRejects | src/monitor-control-service/azext_amcs/custom.py:172-178 | A single token without `=` rejects the whole flag. |
| DcrQueries.ListOr | src/monitor-control-service/azext_amcs/custom.py:395-400 | A missing section lists nothing, and a present one lists its items. |
| DcrQueries.SyslogList | src/monitor-control-service/azext_amcs/custom.py:455-460 | The rule's `syslog` data sources, or nothing when the rule has no such section. |
| DcrQueries.WindowsEventLogsList | src/monitor-control-service/azext_amcs/custom.py:435-440 | The rule's `windowsEventLogs` data sources, or nothing when the rule has no such section. |
| DcrQueries.PerformanceCountersList | src/monitor-control-service/azext_amcs/custom.py:415-420 | The rule's `performanceCounters` data sources, or nothing when the rule has no such section. |
| DcrQueries.LogAnalyticsList | src/monitor-control-service/azext_amcs/custom.py:395-400 | The rule's `logAnalytics` destinations, or nothing when the rule has no such section. |
| DcrQueries.ShowByName | src/monitor-control-service/azext_amcs/custom.py:403-412 | Returns the first item with that name. Returns `{}` exactly when every item is named and none matches. Faults exactly when an unnamed item comes before any match. |
| DcrQueries.PerformanceCountersShow | src/monitor-control-service/azext_amcs/custom.py:423-432 | Answers as `ShowByName` does over the rule's performance counters: the first item with that name, `{}` exactly when every item is named and none matches, and a fault exactly when an unnamed item comes before any match. |
| DcrQueries.WindowsEventLogsShow | src/monitor-control-service/azext_amcs/custom.py:443-452 | Answers as `ShowByName` does over the rule's Windows event log sources: the first item with that name, `{}` exactly when every item is named and none matches, and a fault exactly when an unnamed item comes before any match. |
| DcrQueries.SyslogShow | src/monitor-control-service/azext_amcs/custom.py:463-472 | Answers as `ShowByName` does over the rule's syslog sources: the first item with that name, `{}` exactly when every item is named and none matches, and a fault exactly when an unnamed item comes before any match. |
| DcrQueries.LogAnalyticsShow | src/monitor-control-service/azext_amcs/custom.py:403-412 | Answers as `ShowByName` does over the rule's Log Analytics destinations: the first item with that name, `{}` exactly when every item is named and none matches, and a fault exactly when an unnamed item comes before any match. |
| DcrQueries.AssociationListAsWritten | src/monitor-control-service/azext_amcs/custom.py:56-71 | Lists by rule when a group and rule are given, and by endpoint when a group and only an endpoint are given. The endpoint listing is then always passed no endpoint name. |
| DcrQueries.AsWrittenLosesEndpoint | src/monitor-control-service/azext_amcs/custom.py:64-69 | Asking for endpoint `e` in group `g` lists an endpoint with no name. |
| DcrQueries.AssociationList | src/monitor-control-service/azext_amcs/custom.py:56-71 | The same dispatch, passing the endpoint name through. |
| DcrQueries.DispatchDiffersOnlyInEndpoint | src/monitor-control-service/azext_amcs/custom.py:56-71 | Both dispatches choose the same listing for every input and differ only in the endpoint name. |

## Left out

- `ContainerApp.create` (`_up_utils.py:448-472`) tests whether the app exists only to choose its log line, and then runs `containerapp_up_logic` either way. Logging and that call are not modelled.
- Effects are not performed. Creating groups, environments, extensions, custom locations, registries and apps, provider registration, ACR builds, GitHub Action creation, and logging are all outside the model. `create_if_needed` returns the resulting descriptor and an `Action` instead.
- Client calls become lookups in `Inventory.Cloud`, and a call that raises is read as "not found". The modules `_constants.py`, `_utils.py`, `_clients.py` and msrestazure are not part of this model. These constants are assumed from the code's use of them:
  - the ACR suffix `.azurecr.io`;
  - a maximum app name length of 32;
  - a maximum secret length of 20;
  - the extension type `microsoft.app.environment`;
  - the providers `Microsoft.App` and `Microsoft.ExtendedLocation`.
- `is_valid_resource_id`, `parse_resource_id` and `resource_id` are modelled by the 9-segment grammar of `ResourceIds`, which has a proved parse/format round trip. Child resources and other id shapes are not modelled.
- `Descriptors.CustomLocationRid`: for an unnamed custom location, the code's `resource_id` call without a name is modelled as the provider prefix. That case never reaches an external call in the code paths modelled.
- `_get_default_containerapps_location` and `_ensure_location_allowed` are not part of this model. The first is taken to keep a given location. The second is taken to accept the formatted location exactly when it is listed for the type.
- Randomness, clocks and hashing are parameters: the random names of `_set_up_defaults` (`Planner.Fresh`), `str(datetime.now())`, and `sha256` (a parameter returning a 64-character hex digest).
- `Planner.FreshConnected`: `get_randomized_name` and `get_randomized_name_with_dash` are in `_utils.py`, which is not part of this model. They are taken to return the `name` they are passed when it is not `None`, and the generated name otherwise.
- `UpHelpers.GetToken`: the token cache and the OAuth flow are parameters, so its contract is the decision among the given, cached and OAuth tokens.
- `UpHelpers.GetOrCreateSp`: creating a service principal calls the Graph API, which is not modelled. The contract states the decision, and the scopes a new principal would get.
- `Urls` follows `urllib.parse` of CPython 3.12. It models leading control stripping, tab and newline removal, the scheme, the `//` network location, the path, the unmatched-bracket ValueError and the `;` parameters of a scheme-less path. Query, fragment, user, password and port are not split out, because the registry helpers never read them. Earlier Pythons, which strip less and do not check brackets, are not modelled.
- `Urls.UrlSplit`: the checks `urlsplit` makes on a network location holding both `[` and `]` are not modelled. These are the IPv6 and IPvFuture address checks of `_check_bracketed_netloc`. The NFKC check `_checknetloc` makes on a non-ASCII network location is not modelled either. Both raise ValueError in Python, and the model returns the split instead.
- `Urls.UrlHost`: inherits the gap of `Urls.UrlSplit`. A network location with matched brackets that is not a valid address, or with non-ASCII text that NFKC turns into a delimiter, makes Python raise ValueError, while the model goes on with the parsed name.
- `Registry.RegistryNameOf`: inherits the same `Urls.UrlSplit` gap, so it goes on where Python raises ValueError for such a network location.
- `Registry.RegistryDetailsGiven`: inherits the same `Urls.UrlSplit` gap, so it goes on where Python raises ValueError for such a network location.
- `Registry.GetRegistryDetails`: inherits the same `Urls.UrlSplit` gap, so it goes on where Python raises ValueError for such a network location.
- `Registry.AcrFromImage`: inherits the same `Urls.UrlSplit` gap, so it goes on where Python raises ValueError for such a network location.
- `UpHelpers.ValidateUpArgs`: inherits the same `Urls.UrlSplit` gap, so it goes on where Python raises ValueError for such a network location.
- Character classes (`isalnum`, `isalpha`, `lower`, `upper`, and the whitespace that `strip` and `rstrip` remove) are ASCII only. Non-ASCII whitespace such as U+0085, U+00A0 or U+2000 to U+200A, which Python's `strip()` also removes, is kept here.
- `Validators.ValidateCpu`: `float()`, used by `_is_number` and `validate_cpu`, is a parameter `isNumber`. The contract states exactly when the value is rejected, in terms of that parameter.
- `DcrShorthand.Convert`: `int()` is modelled as an optional sign followed by ASCII digits. Surrounding whitespace and `_` digit separators, which `int()` also accepts, are rejected here.
- `UpHelpers.ScanFile`: the `EXPOSE` port test uses the same integer test as `DcrShorthand.Convert`, so a token such as `8_080` is skipped here while `int()` would accept it.
- `UpHelpers.ValidateUpArgs`: the custom-location and connected-cluster checks at `_up_utils.py:658-666` are not modelled. They call `_validate_custom_loc_and_location` and `_validate_connected_k8s`, which are not part of this model.
- Error messages are kept where they are fixed text. Messages that interpolate arguments are abbreviated.
- The Dockerfile reading (`_get_dockerfile_content*`), GitHub repository access and `_create_github_action` are not modelled. The scan works on the Dockerfile's lines, given as a value.
- `process_data_source_extension` (JSON or file loading), `RuleCreate.pre_operations` (rule file loading) and the AAZ command classes are not modelled.
- `DcrQueries.DataFlowsList` is the rule's `dataFlows` field as it is, so it has no contract of its own.
- The `*_list` selectors index `dataFlows`, `destinations` and `dataSources` directly. A fetched rule missing one of those keys raises KeyError in the code; the model's `RuleInstance` always has them. Show items are records whose `name` is compared as a string.
- The SSH and exec validators of `_validators.py` are not modelled, because they talk to running replicas.
- `_get_env_and_group_from_log_analytics` adopts the first matching environment, as the code does, not a single match.

## Findings

| source | as written | input that shows it | evidently intended | confidence | as-written member | corrected member |
|---|---|---|---|---|---|---|
| src/monitor-control-service/azext_amcs/custom.py:67 | The endpoint listing is given `data_collection_rule_name` as `data_collection_endpoint_name`. On that branch the rule name is always `None`. | `resource_group_name="g"`, `data_collection_rule_name=None`, `data_collection_endpoint_name="e"` lists the associations of an endpoint with no name. | Pass `data_collection_endpoint_name`, so the associations of endpoint `e` are listed. | high; not executed | DcrQueries.AssociationListAsWritten (shown by DcrQueries.AsWrittenLosesEndpoint) | DcrQueries.AssociationList (related by DcrQueries.DispatchDiffersOnlyInEndpoint) |

=== FILE: common.dfy ===
/** Failure-compatible result types shared by every module of the model.

    The Python code signals user errors by raising one of the Azure CLI
    error classes, and runtime faults (a missing key, an index out of range,
    a `rindex` that finds nothing) by letting a built-in exception escape.
    Both become `Err` values here so that each operation states its error
    cases instead of excluding them by precondition.
 */
module Common {

  /** The kinds of error the modelled code raises. */
  datatype Error =
    | ValidationError(message: string)
    | RequiredArgumentMissing(message: string)
    | MutuallyExclusiveArguments(message: string)
    | ResourceNotFound(message: string)
    /** A Python built-in exception (KeyError, IndexError, ValueError,
        StopIteration, AttributeError) escaping from the code. */
    | RuntimeFault(message: string)

  datatype Option<+T> = None | Some(value: T) {
    function GetOr(default: T): T {
      match this
      case Some(v) => v
      case None => default
    }
  }

  datatype Result<+T> = Ok(value: T) | Err(error: Error) {
    predicate IsFailure() {
      Err?
    }

    function PropagateFailure<U>(): Result<U>
      requires Err?
    {
      Err(error)
    }

    function Extract(): T
      requires Ok?
    {
      value
    }
  }

  /** The outcome of a validator that either passes or raises. */
  datatype Outcome = Pass | Fail(error: Error) {
    predicate IsFailure() {
      Fail?
    }

    function PropagateFailure(): Outcome
      requires Fail?
    {
      this
    }
  }

  /** Python truthiness of an optional string: `None` and `""` are false. */
  predicate Truthy(s: Option<string>) {
    s.Some? && s.value != ""
  }
}

=== FILE: dcr_queries.dfy ===
/** The read-side helpers of `azext_amcs/custom.py`: the per-section
    `data_collection_rules_*_list` and `*_show` selectors over a fetched
    data collection rule, and the choice of association listing made by
    `monitor_data_collection_rule_association_list`.
 */
module DcrQueries {

  import opened Common
  import opened DcrShorthand

  /** The parts of a fetched rule the selectors read: its data flows and its
      `destinations` and `dataSources` objects, each a dict of record lists. */
  datatype RuleInstance = RuleInstance(
    dataFlows: seq<Record>,
    destinations: map<string, seq<Record>>,
    dataSources: map<string, seq<Record>>)

  const NameKey: string := "name"

  /** `section.get(key, [])`. */
  function ListOr(section: map<string, seq<Record>>, key: string): (r: seq<Record>)
    ensures key !in section ==> r == []
    ensures key in section ==> r == section[key]
  {
    if key in section then section[key] else []
  }

  /** `data_collection_rules_*_list`: the data flows of the rule, and the
      named section of its destinations or data sources, empty when the rule
      has no such section. */
  function DataFlowsList(rule: RuleInstance): seq<Record> {
    rule.dataFlows
  }

  function LogAnalyticsList(rule: RuleInstance): (r: seq<Record>)
    ensures "logAnalytics" in rule.destinations ==> r == rule.destinations["logAnalytics"]
    ensures "logAnalytics" !in rule.destinations ==> r == []
  {
    ListOr(rule.destinations, "logAnalytics")
  }

  function PerformanceCountersList(rule: RuleInstance): (r: seq<Record>)
    ensures "performanceCounters" in rule.dataSources ==> r == rule.dataSources["performanceCounters"]
    ensures "performanceCounters" !in rule.dataSources ==> r == []
  {
    ListOr(rule.dataSources, "performanceCounters")
  }

  function WindowsEventLogsList(rule: RuleInstance): (r: seq<Record>)
    ensures "windowsEventLogs" in rule.dataSources ==> r == rule.dataSources["windowsEventLogs"]
    ensures "windowsEventLogs" !in rule.dataSources ==> r == []
  {
    ListOr(rule.dataSources, "windowsEventLogs")
  }

  function SyslogList(rule: RuleInstance): (r: seq<Record>)
    ensures "syslog" in rule.dataSources ==> r == rule.dataSources["syslog"]
    ensures "syslog" !in rule.dataSources ==> r == []
  {
    ListOr(rule.dataSources, "syslog")
  }

  predicate Named(item: Record) {
    NameKey in item
  }

  predicate NameIs(item: Record, name: string) {
    Named(item) && item[NameKey] == Single(name)
  }

  /** What every `*_show` answers for a list: the first item whose name
      equals the query, `{}` when none does; an item without a name reached
      before a match raises KeyError. */
  predicate ShownByName(items: seq<Record>, name: string, r: Result<Record>) {
    && (r.Ok? && r.value != map[] ==>
          exists i | 0 <= i < |items| :: items[i] == r.value && NameIs(items[i], name)
            && forall j | 0 <= j < i :: Named(items[j]) && !NameIs(items[j], name))
    && (r == Ok(map[]) <==> forall i | 0 <= i < |items| :: Named(items[i]) && !NameIs(items[i], name))
    && (r.Err? <==>
          exists i | 0 <= i < |items| :: !Named(items[i]) && forall j | 0 <= j < i :: Named(items[j]) && !NameIs(items[j], name))
    && (r.Err? ==> r.error.RuntimeFault?)
  }

  /** The loop of every `*_show`. */
  method ShowByName(items: seq<Record>, name: string) returns (r: Result<Record>)
    ensures ShownByName(items, name, r)
  {
    var k := 0;
    while k < |items|
      invariant 0 <= k <= |items|
      invariant forall j | 0 <= j < k :: Named(items[j]) && !NameIs(items[j], name)
    {
      if NameKey !in items[k] {
        return Err(RuntimeFault("KeyError: 'name'"));
      }
      if items[k][NameKey] == Single(name) {
        return Ok(items[k]);
      }
      k := k + 1;
    }
    return Ok(map[]);
  }

  /** `data_collection_rules_log_analytics_show`. */
  method LogAnalyticsShow(rule: RuleInstance, name: string) returns (r: Result<Record>)
    ensures ShownByName(LogAnalyticsList(rule), name, r)
  {
    r := ShowByName(LogAnalyticsList(rule), name);
  }

  /** `data_collection_rules_performance_counters_show`. */
  method PerformanceCountersShow(rule: RuleInstance, name: string) returns (r: Result<Record>)
    ensures ShownByName(PerformanceCountersList(rule), name, r)
  {
    r := ShowByName(PerformanceCountersList(rule), name);
  }

  /** `data_collection_rules_windows_event_logs_show`. */
  method WindowsEventLogsShow(rule: RuleInstance, name: string) returns (r: Result<Record>)
    ensures ShownByName(WindowsEventLogsList(rule), name, r)
  {
    r := ShowByName(WindowsEventLogsList(rule), name);
  }

  /** `data_collection_rules_syslog_show`. */
  method SyslogShow(rule: RuleInstance, name: string) returns (r: Result<Record>)
    ensures ShownByName(SyslogList(rule), name, r)
  {
    r := ShowByName(SyslogList(rule), name);
  }

  // ---------------------------------------------------------------- association listing

  /** Which association listing is called, with the arguments it is given. */
  datatype AssociationQuery =
    | ByRule(group: string, rule: string)
    | ByEndpoint(group: string, endpoint: Option<string>)
    | ByResource(uri: Option<string>)

  /** `monitor_data_collection_rule_association_list` as written: the
      endpoint listing is passed the rule name as the endpoint name. */
  function AssociationListAsWritten(group: Option<string>, rule: Option<string>, endpoint: Option<string>,
                                    uri: Option<string>): (q: AssociationQuery)
    ensures q.ByRule? <==> Truthy(group) && rule.Some?
    ensures q.ByEndpoint? <==> Truthy(group) && rule.None? && endpoint.Some?
    ensures q.ByEndpoint? ==> q.endpoint.None?
  {
    if Truthy(group) && rule.Some? then ByRule(group.value, rule.value)
    else if Truthy(group) && endpoint.Some? then ByEndpoint(group.value, rule)
    else ByResource(uri)
  }

  /** Asking for the associations of endpoint "e" in group "g" lists those
      of an endpoint with no name. */
  lemma AsWrittenLosesEndpoint()
    ensures AssociationListAsWritten(Some("g"), None, Some("e"), None) == ByEndpoint("g", None)
  {
  }

  /** The dispatch with the endpoint name passed through. */
  function AssociationList(group: Option<string>, rule: Option<string>, endpoint: Option<string>,
                           uri: Option<string>): (q: AssociationQuery)
    ensures q.ByRule? <==> Truthy(group) && rule.Some?
    ensures q.ByRule? ==> q == ByRule(group.value, rule.value)
    ensures q.ByEndpoint? <==> Truthy(group) && rule.None? && endpoint.Some?
    ensures q.ByEndpoint? ==> q == ByEndpoint(group.value, endpoint)
    ensures q.ByResource? ==> q == ByResource(uri)
  {
    if Truthy(group) && rule.Some? then ByRule(group.value, rule.value)
    else if Truthy(group) && endpoint.Some? then ByEndpoint(group.value, endpoint)
    else ByResource(uri)
  }

  /** The two dispatches choose the same listing for every input and differ
      only in the endpoint name, which the corrected one always supplies. */
  lemma DispatchDiffersOnlyInEndpoint(group: Option<string>, rule: Option<string>, endpoint: Option<string>,
                                      uri: Option<string>)
    ensures var written := AssociationListAsWritten(group, rule, endpoint, uri);
      var fixed := AssociationList(group, rule, endpoint, uri);
      && (written.ByEndpoint? <==> fixed.ByEndpoint?)
      && (!written.ByEndpoint? ==> written == fixed)
      && (written.ByEndpoint? ==> written.group == fixed.group && written.endpoint.None? && fixed.endpoint.Some?)
  {
  }
}

=== FILE: dcr_shorthand.dfy ===
/** The KEY=VALUE shorthand parsers of `az monitor data-collection rule
    update` (`process_*` in `azext_amcs/custom.py`).

    Each parser reads the tokens of one flag, splits each on its first '=',
    collects the values of every key in token order, maps the keys it knows
    case-insensitively onto record fields and drops the rest, and emits one
    record. The six parsers differ only in their flag and their field table,
    so the field table is data here and the parsing is written once.
 */
module DcrShorthand {

  import opened Common
  import opened Text

  /** A field value of an emitted record: a list of strings, one string, or
      an integer. */
  datatype Value = Strings(items: seq<string>) | Single(text: string) | Number(n: int)

  /** A record as the parsers build it: a dict from field names to values. */
  type Record = map<string, Value>

  /** How a field takes the values collected for its key: all of them, the
      first one, or the first one read as an integer. */
  datatype Kind = AllValues | FirstValue | FirstInt

  /** A row of a parser's if/elif chain: the lower-case key it tests, the
      record field it sets, and how. */
  datatype Field = Field(key: string, name: string, kind: Kind)

  datatype Parser = Parser(flag: string, fields: seq<Field>)

  /** A parser whose table never tests one key twice or sets one field twice,
      as every table of the six parsers is written. */
  type Table = p: Parser | UniqueFields(p.fields) witness Parser("", [])

  const DataFlows: Table := Parser("--data-flows", [
    Field("streams", "streams", AllValues),
    Field("destinations", "destinations", AllValues)])

  const PerformanceCounters: Table := Parser("--performance-counters", [
    Field("streams", "streams", AllValues),
    Field("sampling-frequency", "sampling_frequency_in_seconds", FirstInt),
    Field("counter-specifiers", "counter_specifiers", AllValues),
    Field("name", "name", FirstValue)])

  const Syslog: Table := Parser("--syslog", [
    Field("streams", "streams", AllValues),
    Field("facility-names", "facility_names", AllValues),
    Field("log-levels", "log_levels", AllValues),
    Field("name", "name", FirstValue)])

  const WindowsEventLogs: Table := Parser("--windows-event-logs", [
    Field("streams", "streams", AllValues),
    Field("x-path-queries", "x_path_queries", AllValues),
    Field("name", "name", FirstValue)])

  const LogAnalytics: Table := Parser("--log-analytics", [
    Field("resource-id", "workspace_resource_id", FirstValue),
    Field("name", "name", FirstValue)])

  const MonitorMetrics: Table := Parser("--monitor-metrics", [
    Field("name", "name", FirstValue)])

  function FormatMessage(flag: string): string {
    flag + " format: [KEY=VALUE ...]"
  }

  /** No two rows of a table test the same key or set the same field. */
  predicate UniqueFields(fields: seq<Field>) {
    forall i, j | 0 <= i < j < |fields| :: fields[i].key != fields[j].key && fields[i].name != fields[j].name
  }

  // ---------------------------------------------------------------- tokens

  type Pair = (string, string)

  /** `token.split('=', 1)` for a token holding '='. */
  function SplitToken(token: string): (r: Option<Pair>)
    ensures r.None? <==> '=' !in token
    ensures r.Some? ==> token == r.value.0 + "=" + r.value.1 && '=' !in r.value.0
  {
    if '=' in token then Some(SplitOnce(token, '=')) else None
  }

  /** A token that has a value but no '='. */
  predicate Malformed(token: Option<string>) {
    token.Some? && '=' !in token.value
  }

  /** The tokens that have a value, in order. */
  function Present(tokens: seq<Option<string>>): seq<string>
    decreases |tokens|
  {
    if tokens == [] then []
    else Present(tokens[..|tokens| - 1]) + (if tokens[|tokens| - 1].Some? then [tokens[|tokens| - 1].value] else [])
  }

  /** The token loop: tokens without a value are skipped, a token without
      '=' is rejected with the flag's format message. */
  function Pairs(tokens: seq<Option<string>>, flag: string): (r: Result<seq<Pair>>)
    ensures r.Err? <==> exists i | 0 <= i < |tokens| :: Malformed(tokens[i])
    ensures r.Err? ==> r.error == ValidationError(FormatMessage(flag))
    ensures r.Ok? ==> |r.value| == |Present(tokens)|
    ensures r.Ok? ==> forall i | 0 <= i < |r.value| ::
      Present(tokens)[i] == r.value[i].0 + "=" + r.value[i].1 && '=' !in r.value[i].0
    decreases |tokens|
  {
    if tokens == [] then Ok([])
    else
      var prefix := tokens[..|tokens| - 1];
      assert forall i | 0 <= i < |prefix| :: prefix[i] == tokens[i];
      var rest :- Pairs(prefix, flag);
      match tokens[|tokens| - 1]
      case None => Ok(rest)
      case Some(t) =>
        match SplitToken(t)
        case None => Err(ValidationError(FormatMessage(flag)))
        case Some(kv) => Ok(rest + [kv])
  }

  // ---------------------------------------------------------------- grouping

  /** The `defaultdict(list)` after the token loop, as its items in insertion
      order. */
  type Groups = seq<(string, seq<string>)>

  /** The values of the pairs with key `k`, in order. */
  function ValuesFor(pairs: seq<Pair>, k: string): seq<string>
    decreases |pairs|
  {
    if pairs == [] then []
    else ValuesFor(pairs[..|pairs| - 1], k) + (if pairs[|pairs| - 1].0 == k then [pairs[|pairs| - 1].1] else [])
  }

  /** The index of the first pair with key `k`, or `|pairs|` when there is none. */
  function FirstPos(pairs: seq<Pair>, k: string): (i: nat)
    ensures i <= |pairs|
    ensures i < |pairs| ==> pairs[i].0 == k
    ensures forall j | 0 <= j < i :: pairs[j].0 != k
    decreases |pairs|
  {
    if pairs == [] then 0
    else
      var p := FirstPos(pairs[..|pairs| - 1], k);
      if p < |pairs| - 1 then p
      else if pairs[|pairs| - 1].0 == k then |pairs| - 1
      else |pairs|
  }

  predicate DistinctKeys(g: Groups) {
    forall i, j | 0 <= i < j < |g| :: g[i].0 != g[j].0
  }

  /** Where `k` sits among the groups, if it does. */
  function KeyIndex(g: Groups, k: string): (r: Option<nat>)
    ensures r.Some? ==> r.value < |g| && g[r.value].0 == k
    ensures r.None? ==> forall i | 0 <= i < |g| :: g[i].0 != k
    decreases |g|
  {
    if g == [] then None
    else if g[|g| - 1].0 == k then Some(|g| - 1)
    else KeyIndex(g[..|g| - 1], k)
  }

  /** `properties[k].append(v)`. */
  function AddValue(g: Groups, k: string, v: string): Groups {
    match KeyIndex(g, k)
    case Some(i) => g[i := (k, g[i].1 + [v])]
    case None => g + [(k, [v])]
  }

  /** The grouped values: one group per key, keys in order of first
      appearance, each holding every value given for its key in input order. */
  function Group(pairs: seq<Pair>): (g: Groups)
    ensures GroupsOf(pairs, g)
    decreases |pairs|
  {
    if pairs == [] then []
    else
      var prefix := pairs[..|pairs| - 1];
      var (k, v) := pairs[|pairs| - 1];
      var g0 := Group(prefix);
      assert pairs == prefix + [(k, v)];
      AddValueValues(prefix, k, v, g0);
      AddValueCovers(prefix, k, v, g0);
      AddValueOrder(prefix, k, v, g0);
      AddValue(g0, k, v)
  }

  /** A key no pair has collects no values. */
  lemma {:induction false} ValuesForAbsent(pairs: seq<Pair>, k: string)
    requires forall i | 0 <= i < |pairs| :: pairs[i].0 != k
    ensures ValuesFor(pairs, k) == []
    decreases |pairs|
  {
    if pairs != [] {
      ValuesForAbsent(pairs[..|pairs| - 1], k);
    }
  }

  /** Each group holds, in order, the values given for its key. */
  predicate GroupValues(pairs: seq<Pair>, g: Groups) {
    forall i | 0 <= i < |g| :: g[i].1 == ValuesFor(pairs, g[i].0) && g[i].1 != []
  }

  /** Every key given has a group. */
  predicate GroupCovers(pairs: seq<Pair>, g: Groups) {
    forall i | 0 <= i < |pairs| :: KeyIndex(g, pairs[i].0).Some?
  }

  /** Groups are in order of their key's first appearance. */
  predicate GroupOrder(pairs: seq<Pair>, g: Groups) {
    forall i, j | 0 <= i < j < |g| :: FirstPos(pairs, g[i].0) < FirstPos(pairs, g[j].0) < |pairs|
  }

  /** What `Group` promises of its groups for the pairs read so far. */
  predicate GroupsOf(pairs: seq<Pair>, g: Groups) {
    DistinctKeys(g) && GroupValues(pairs, g) && GroupCovers(pairs, g) && GroupOrder(pairs, g)
  }

  /** One more pair extends the values of its own key only, and moves no
      first position that was already taken. */
  lemma SnocPair(prefix: seq<Pair>, k: string, v: string, x: string)
    ensures ValuesFor(prefix + [(k, v)], x) == ValuesFor(prefix, x) + (if k == x then [v] else [])
    ensures FirstPos(prefix, x) < |prefix| ==> FirstPos(prefix + [(k, v)], x) == FirstPos(prefix, x)
    ensures FirstPos(prefix, x) == |prefix| && k == x ==> FirstPos(prefix + [(k, v)], x) == |prefix|
  {
    assert (prefix + [(k, v)])[..|prefix|] == prefix;
  }

  /** A key already grouped has values, so it sits before the new pair. */
  lemma GroupedKeyPos(prefix: seq<Pair>, g0: Groups, i: nat, k: string, v: string)
    requires GroupValues(prefix, g0)
    requires i < |g0|
    ensures FirstPos(prefix, g0[i].0) < |prefix|
    ensures FirstPos(prefix + [(k, v)], g0[i].0) == FirstPos(prefix, g0[i].0)
  {
    if FirstPos(prefix, g0[i].0) == |prefix| {
      ValuesForAbsent(prefix, g0[i].0);
      assert false;
    }
    SnocPair(prefix, k, v, g0[i].0);
  }

  /** The groups after one more pair, with their values. */
  lemma AddValueValues(prefix: seq<Pair>, k: string, v: string, g0: Groups)
    requires DistinctKeys(g0) && GroupValues(prefix, g0) && GroupCovers(prefix, g0)
    ensures DistinctKeys(AddValue(g0, k, v)) && GroupValues(prefix + [(k, v)], AddValue(g0, k, v))
  {
    var g := AddValue(g0, k, v);
    AddValueShape(g0, k, v);
    AddValueContents(g0, k, v);
    if KeyIndex(g0, k).None? {
      assert forall i | 0 <= i < |prefix| :: prefix[i].0 != k;
      ValuesForAbsent(prefix, k);
    }
    forall i | 0 <= i < |g|
      ensures g[i].1 == ValuesFor(prefix + [(k, v)], g[i].0) && g[i].1 != []
    {
      SnocPair(prefix, k, v, g[i].0);
      if i < |g0| {
        assert g[i].0 == g0[i].0;
      }
    }
  }

  /** Adding a value extends the values of its own key's group only. */
  lemma AddValueContents(g0: Groups, k: string, v: string)
    requires DistinctKeys(g0)
    ensures var g := AddValue(g0, k, v);
      && DistinctKeys(g)
      && (forall i | 0 <= i < |g0| :: g[i].1 == g0[i].1 + (if g0[i].0 == k then [v] else []))
      && (|g| > |g0| ==> g[|g0|].1 == [v])
  {
  }

  /** Every key read so far, the new one included, has a group. */
  lemma AddValueCovers(prefix: seq<Pair>, k: string, v: string, g0: Groups)
    requires GroupCovers(prefix, g0)
    ensures GroupCovers(prefix + [(k, v)], AddValue(g0, k, v))
  {
    var pairs := prefix + [(k, v)];
    var g := AddValue(g0, k, v);
    forall i | 0 <= i < |pairs|
      ensures KeyIndex(g, pairs[i].0).Some?
    {
      var m := if i < |prefix| then KeyIndex(g0, prefix[i].0).value
               else if KeyIndex(g0, k).Some? then KeyIndex(g0, k).value else |g0|;
      assert g[m].0 == pairs[i].0;
    }
  }

  /** Adding a value keeps every existing key in place and appends a group
      only for a new key. */
  lemma AddValueShape(g0: Groups, k: string, v: string)
    ensures var g := AddValue(g0, k, v);
      && (KeyIndex(g0, k).Some? ==> |g| == |g0|)
      && (KeyIndex(g0, k).None? ==> |g| == |g0| + 1 && g[|g0|].0 == k)
      && forall i | 0 <= i < |g0| :: g[i].0 == g0[i].0
  {
  }

  /** The groups stay in order of first appearance. */
  lemma AddValueOrder(prefix: seq<Pair>, k: string, v: string, g0: Groups)
    requires GroupValues(prefix, g0) && GroupCovers(prefix, g0) && GroupOrder(prefix, g0)
    ensures GroupOrder(prefix + [(k, v)], AddValue(g0, k, v))
  {
    var pairs := prefix + [(k, v)];
    var g := AddValue(g0, k, v);
    AddValueShape(g0, k, v);
    if KeyIndex(g0, k).None? {
      assert forall i | 0 <= i < |prefix| :: prefix[i].0 != k;
      assert FirstPos(prefix, k) == |prefix|;
      SnocPair(prefix, k, v, k);
    }
    forall i, j | 0 <= i < j < |g|
      ensures FirstPos(pairs, g[i].0) < FirstPos(pairs, g[j].0) < |pairs|
    {
      GroupedKeyPos(prefix, g0, i, k, v);
      assert g[i].0 == g0[i].0;
      if j < |g0| {
        GroupedKeyPos(prefix, g0, j, k, v);
        assert g[j].0 == g0[j].0;
      } else {
        assert g[j].0 == k;
      }
    }
  }

  // ---------------------------------------------------------------- records

  /** The row of the if/elif chain that a key reaches after `k.lower()`. */
  function FieldFor(fields: seq<Field>, k: string): (r: Option<Field>)
    ensures r.Some? ==> r.value in fields && r.value.key == Lower(k)
    ensures r.None? ==> forall f | f in fields :: f.key != Lower(k)
    decreases |fields|
  {
    if fields == [] then None
    else if fields[0].key == Lower(k) then Some(fields[0])
    else FieldFor(fields[1..], k)
  }

  /** The field's value from the collected values; `int()` of a non-integer
      is rejected. */
  function Convert(f: Field, values: seq<string>): (r: Result<Value>)
    requires values != []
    ensures f.kind == AllValues ==> r == Ok(Strings(values))
    ensures f.kind == FirstValue ==> r == Ok(Single(values[0]))
    ensures f.kind == FirstInt ==> (r.Ok? <==> IsInt(values[0]))
    ensures f.kind == FirstInt && r.Ok? ==> r.value == Number(ParseInt(values[0]).value)
    ensures f.kind == FirstInt && r.Err? ==> r.error.ValidationError?
  {
    match f.kind
    case AllValues => Ok(Strings(values))
    case FirstValue => Ok(Single(values[0]))
    case FirstInt =>
      match ParseInt(values[0])
      case Some(n) => Ok(Number(n))
      case None => Err(ValidationError("invalid " + f.key + "=" + values[0]))
  }

  /** A group whose key reaches an integer field with a non-integer value. */
  predicate Rejects(fields: seq<Field>, group: (string, seq<string>)) {
    && group.1 != []
    && FieldFor(fields, group.0).Some?
    && Convert(FieldFor(fields, group.0).value, group.1).Err?
  }

  /** The values of the last group whose key lower-cases to `key`: the one
      whose assignment the record keeps. */
  function LastFor(g: Groups, key: string): (r: Option<seq<string>>)
    ensures r.Some? ==> exists i | 0 <= i < |g| :: Lower(g[i].0) == key && g[i].1 == r.value
    ensures r.None? ==> forall i | 0 <= i < |g| :: Lower(g[i].0) != key
    decreases |g|
  {
    if g == [] then None
    else if Lower(g[|g| - 1].0) == key then Some(g[|g| - 1].1)
    else LastFor(g[..|g| - 1], key)
  }

  /** The dict-building loop over the groups. */
  function Emit(g: Groups, fields: seq<Field>): (r: Result<Record>)
    requires forall i | 0 <= i < |g| :: g[i].1 != []
    requires UniqueFields(fields)
    ensures r.Err? <==> exists i | 0 <= i < |g| :: Rejects(fields, g[i])
    ensures r.Ok? ==> forall n | n in r.value :: exists f | f in fields :: f.name == n
    ensures r.Ok? ==> forall f | f in fields :: f.name in r.value <==> LastFor(g, f.key).Some?
    ensures r.Ok? ==> forall f | f in fields && LastFor(g, f.key).Some? ::
      LastFor(g, f.key).value != [] && Convert(f, LastFor(g, f.key).value) == Ok(r.value[f.name])
    decreases |g|
  {
    if g == [] then Ok(map[])
    else
      var prefix := g[..|g| - 1];
      assert forall i | 0 <= i < |prefix| :: prefix[i] == g[i];
      var rec :- Emit(prefix, fields);
      var (k, values) := g[|g| - 1];
      match FieldFor(fields, k)
      case None => Ok(rec)
      case Some(f) =>
        var v :- Convert(f, values);
        Ok(rec[f.name := v])
  }

  /** The record fields a table can set. */
  function FieldNames(fields: seq<Field>): (names: set<string>)
    ensures forall f | f in fields :: f.name in names
    ensures forall n | n in names :: exists f | f in fields :: f.name == n
  {
    set f | f in fields :: f.name
  }

  /** Some pair's key lower-cases to `key`. */
  predicate KeyGiven(pairs: seq<Pair>, key: string) {
    exists i | 0 <= i < |pairs| :: Lower(pairs[i].0) == key
  }

  /** The groups have a key lower-casing to `key` exactly when the pairs do. */
  lemma GroupedKeyGiven(pairs: seq<Pair>, g: Groups)
    requires GroupsOf(pairs, g)
    ensures forall key :: LastFor(g, key).Some? <==> KeyGiven(pairs, key)
  {
    forall key: string
      ensures LastFor(g, key).Some? <==> KeyGiven(pairs, key)
    {
      if LastFor(g, key).Some? {
        var i :| 0 <= i < |g| && Lower(g[i].0) == key && g[i].1 == LastFor(g, key).value;
        ValuesForPresent(pairs, g[i].0);
        var j :| 0 <= j < |pairs| && pairs[j].0 == g[i].0;
        assert Lower(pairs[j].0) == key;
      }
      if KeyGiven(pairs, key) {
        var j :| 0 <= j < |pairs| && Lower(pairs[j].0) == key;
        var n := KeyIndex(g, pairs[j].0).value;
        assert Lower(g[n].0) == key;
      }
    }
  }

  /** A value can only be rejected through a key given for an integer field. */
  lemma UnreadIntsAccepted(pairs: seq<Pair>, g: Groups, fields: seq<Field>)
    requires GroupsOf(pairs, g)
    ensures (forall f | f in fields && f.kind == FirstInt :: !KeyGiven(pairs, f.key)) ==>
      forall i | 0 <= i < |g| :: !Rejects(fields, g[i])
  {
    GroupedKeyGiven(pairs, g);
  }

  /** `Emit` over the grouped pairs succeeds when no key of an integer field
      is given, and sets a field exactly when a key lower-casing to it is
      given. */
  lemma EmitFromPairs(pairs: seq<Pair>, fields: seq<Field>)
    requires UniqueFields(fields)
    ensures (forall f | f in fields && f.kind == FirstInt :: !KeyGiven(pairs, f.key)) ==> Emit(Group(pairs), fields).Ok?
    ensures Emit(Group(pairs), fields).Ok? ==> forall f | f in fields ::
      f.name in Emit(Group(pairs), fields).value <==> KeyGiven(pairs, f.key)
  {
    var g := Group(pairs);
    GroupedKeyGiven(pairs, g);
    UnreadIntsAccepted(pairs, g, fields);
  }

  /** No row of the table reads an integer, so no value can be rejected. */
  predicate NoIntFields(fields: seq<Field>) {
    forall f | f in fields :: f.kind != FirstInt
  }

  /** One call's record from the flag's tokens. */
  function ParseRecord(p: Parser, tokens: seq<Option<string>>): (r: Result<Record>)
    requires UniqueFields(p.fields)
    ensures (exists i | 0 <= i < |tokens| :: Malformed(tokens[i])) ==> r == Err(ValidationError(FormatMessage(p.flag)))
    ensures (forall i | 0 <= i < |tokens| :: !Malformed(tokens[i])) && NoIntFields(p.fields) ==> r.Ok?
    ensures (forall i | 0 <= i < |tokens| :: !Malformed(tokens[i])) ==>
      (forall f | f in p.fields && f.kind == FirstInt :: !KeyGiven(Pairs(tokens, p.flag).value, f.key)) ==> r.Ok?
    ensures r.Ok? ==> r.value.Keys <= FieldNames(p.fields)
    ensures r.Ok? ==> Pairs(tokens, p.flag).Ok? && forall f | f in p.fields ::
      f.name in r.value <==> KeyGiven(Pairs(tokens, p.flag).value, f.key)
    ensures r.Ok? ==> forall f | f in p.fields && f.name in r.value && f.kind == FirstInt :: r.value[f.name].Number?
  {
    var pairs :- Pairs(tokens, p.flag);
    EmitFromPairs(pairs, p.fields);
    Emit(Group(pairs), p.fields)
  }

  /** A list-valued destination or data source after one parser has run:
      unchanged when the flag has no value, otherwise with exactly one new
      record at the end. */
  function Append(p: Parser, arg: Option<seq<Option<string>>>, existing: seq<Record>): (r: Result<seq<Record>>)
    requires UniqueFields(p.fields)
    ensures arg.None? ==> r == Ok(existing)
    ensures arg.Some? ==> (r.Err? <==> ParseRecord(p, arg.value).Err?)
    ensures r.Ok? ==> |r.value| == |existing| + (if arg.Some? then 1 else 0) && r.value[..|existing|] == existing
    ensures r.Ok? && arg.Some? ==> r.value[|existing|] == ParseRecord(p, arg.value).value
    ensures arg.Some? && (exists i | 0 <= i < |arg.value| :: Malformed(arg.value[i])) ==>
      r == Err(ValidationError(FormatMessage(p.flag)))
  {
    match arg
    case None => Ok(existing)
    case Some(tokens) =>
      var rec :- ParseRecord(p, tokens);
      Ok(existing + [rec])
  }

  lemma DataFlowsTable()
    ensures UniqueFields(DataFlows.fields)
    ensures FieldNames(DataFlows.fields) <= {"streams", "destinations"}
    ensures NoIntFields(DataFlows.fields)
  {
  }

  lemma PerformanceCountersTable()
    ensures UniqueFields(PerformanceCounters.fields)
    ensures FieldNames(PerformanceCounters.fields) <= {"streams", "sampling_frequency_in_seconds", "counter_specifiers", "name"}
  {
  }

  /** The sampling frequency is the table's one integer field. */
  lemma SamplingFrequencyIsInt()
    ensures forall f | f in PerformanceCounters.fields && f.name == "sampling_frequency_in_seconds" :: f.kind == FirstInt
    ensures forall f | f in PerformanceCounters.fields && f.kind == FirstInt :: f.key == "sampling-frequency"
  {
  }

  lemma SyslogTable()
    ensures UniqueFields(Syslog.fields)
    ensures FieldNames(Syslog.fields) <= {"streams", "facility_names", "log_levels", "name"}
    ensures NoIntFields(Syslog.fields)
  {
  }

  lemma WindowsEventLogsTable()
    ensures UniqueFields(WindowsEventLogs.fields)
    ensures FieldNames(WindowsEventLogs.fields) <= {"streams", "x_path_queries", "name"}
    ensures NoIntFields(WindowsEventLogs.fields)
  {
  }

  lemma LogAnalyticsTable()
    ensures UniqueFields(LogAnalytics.fields)
    ensures FieldNames(LogAnalytics.fields) <= {"workspace_resource_id", "name"}
    ensures NoIntFields(LogAnalytics.fields)
  {
  }

  lemma MonitorMetricsTable()
    ensures UniqueFields(MonitorMetrics.fields)
    ensures FieldNames(MonitorMetrics.fields) <= {"name"}
    ensures NoIntFields(MonitorMetrics.fields)
  {
  }

  /** `process_data_flows_remain`. */
  function ProcessDataFlows(arg: Option<seq<Option<string>>>, dataFlows: seq<Record>): (r: Result<seq<Record>>)
    ensures arg.None? ==> r == Ok(dataFlows)
    ensures arg.Some? && (exists i | 0 <= i < |arg.value| :: Malformed(arg.value[i])) ==>
      r == Err(ValidationError("--data-flows" + " format: [KEY=VALUE ...]"))
    ensures r.Ok? && arg.Some? ==>
      && |r.value| == |dataFlows| + 1 && r.value[..|dataFlows|] == dataFlows
      && r.value[|dataFlows|].Keys <= {"streams", "destinations"}
    ensures arg.Some? ==> (r.Err? <==> ParseRecord(DataFlows, arg.value).Err?)
    ensures r.Ok? && arg.Some? ==> r.value[|dataFlows|] == ParseRecord(DataFlows, arg.value).value
    ensures arg.Some? && (forall i | 0 <= i < |arg.value| :: !Malformed(arg.value[i])) ==> r.Ok?
  {
    DataFlowsTable();
    Append(DataFlows, arg, dataFlows)
  }

  /** `process_data_source_performance_counters`. */
  function ProcessPerformanceCounters(arg: Option<seq<Option<string>>>, counters: seq<Record>): (r: Result<seq<Record>>)
    ensures arg.None? ==> r == Ok(counters)
    ensures arg.Some? && (exists i | 0 <= i < |arg.value| :: Malformed(arg.value[i])) ==>
      r == Err(ValidationError("--performance-counters" + " format: [KEY=VALUE ...]"))
    ensures r.Ok? && arg.Some? ==>
      && |r.value| == |counters| + 1 && r.value[..|counters|] == counters
      && r.value[|counters|].Keys <= {"streams", "sampling_frequency_in_seconds", "counter_specifiers", "name"}
    ensures r.Ok? && arg.Some? && "sampling_frequency_in_seconds" in r.value[|counters|] ==> r.value[|counters|]["sampling_frequency_in_seconds"].Number?
    ensures arg.Some? ==> (r.Err? <==> ParseRecord(PerformanceCounters, arg.value).Err?)
    ensures r.Ok? && arg.Some? ==> r.value[|counters|] == ParseRecord(PerformanceCounters, arg.value).value
    ensures arg.Some? && (forall i | 0 <= i < |arg.value| :: !Malformed(arg.value[i])) ==>
      !KeyGiven(Pairs(arg.value, PerformanceCounters.flag).value, "sampling-frequency") ==> r.Ok?
  {
    PerformanceCountersTable();
    SamplingFrequencyIsInt();
    Append(PerformanceCounters, arg, counters)
  }

  /** `process_data_source_syslog`. */
  function ProcessSyslog(arg: Option<seq<Option<string>>>, syslog: seq<Record>): (r: Result<seq<Record>>)
    ensures arg.None? ==> r == Ok(syslog)
    ensures arg.Some? && (exists i | 0 <= i < |arg.value| :: Malformed(arg.value[i])) ==>
      r == Err(ValidationError("--syslog" + " format: [KEY=VALUE ...]"))
    ensures r.Ok? && arg.Some? ==>
      && |r.value| == |syslog| + 1 && r.value[..|syslog|] == syslog
      && r.value[|syslog|].Keys <= {"streams", "facility_names", "log_levels", "name"}
    ensures arg.Some? ==> (r.Err? <==> ParseRecord(Syslog, arg.value).Err?)
    ensures r.Ok? && arg.Some? ==> r.value[|syslog|] == ParseRecord(Syslog, arg.value).value
    ensures arg.Some? && (forall i | 0 <= i < |arg.value| :: !Malformed(arg.value[i])) ==> r.Ok?
  {
    SyslogTable();
    Append(Syslog, arg, syslog)
  }

  /** `process_data_source_windows_event_logs`. */
  function ProcessWindowsEventLogs(arg: Option<seq<Option<string>>>, logs: seq<Record>): (r: Result<seq<Record>>)
    ensures arg.None? ==> r == Ok(logs)
    ensures arg.Some? && (exists i | 0 <= i < |arg.value| :: Malformed(arg.value[i])) ==>
      r == Err(ValidationError("--windows-event-logs" + " format: [KEY=VALUE ...]"))
    ensures r.Ok? && arg.Some? ==>
      && |r.value| == |logs| + 1 && r.value[..|logs|] == logs
      && r.value[|logs|].Keys <= {"streams", "x_path_queries", "name"}
    ensures arg.Some? ==> (r.Err? <==> ParseRecord(WindowsEventLogs, arg.value).Err?)
    ensures r.Ok? && arg.Some? ==> r.value[|logs|] == ParseRecord(WindowsEventLogs, arg.value).value
    ensures arg.Some? && (forall i | 0 <= i < |arg.value| :: !Malformed(arg.value[i])) ==> r.Ok?
  {
    WindowsEventLogsTable();
    Append(WindowsEventLogs, arg, logs)
  }

  /** `process_destination_log_analytics`. */
  function ProcessLogAnalytics(arg: Option<seq<Option<string>>>, destinations: seq<Record>): (r: Result<seq<Record>>)
    ensures arg.None? ==> r == Ok(destinations)
    ensures arg.Some? && (exists i | 0 <= i < |arg.value| :: Malformed(arg.value[i])) ==>
      r == Err(ValidationError("--log-analytics" + " format: [KEY=VALUE ...]"))
    ensures r.Ok? && arg.Some? ==>
      && |r.value| == |destinations| + 1 && r.value[..|destinations|] == destinations
      && r.value[|destinations|].Keys <= {"workspace_resource_id", "name"}
    ensures arg.Some? ==> (r.Err? <==> ParseRecord(LogAnalytics, arg.value).Err?)
    ensures r.Ok? && arg.Some? ==> r.value[|destinations|] == ParseRecord(LogAnalytics, arg.value).value
    ensures arg.Some? && (forall i | 0 <= i < |arg.value| :: !Malformed(arg.value[i])) ==> r.Ok?
  {
    LogAnalyticsTable();
    Append(LogAnalytics, arg, destinations)
  }

  /** `process_destination_monitor_metrics`: the one destination is replaced,
      not appended to. */
  function ProcessMonitorMetrics(arg: Option<seq<Option<string>>>, current: Record): (r: Result<Record>)
    ensures arg.None? ==> r == Ok(current)
    ensures arg.Some? && (exists i | 0 <= i < |arg.value| :: Malformed(arg.value[i])) ==>
      r == Err(ValidationError("--monitor-metrics" + " format: [KEY=VALUE ...]"))
    ensures r.Ok? && arg.Some? ==> r.value.Keys <= {"name"}
    ensures arg.Some? ==> r == ParseRecord(MonitorMetrics, arg.value)
    ensures arg.Some? && (forall i | 0 <= i < |arg.value| :: !Malformed(arg.value[i])) ==> r.Ok?
  {
    MonitorMetricsTable();
    match arg
    case None => Ok(current)
    case Some(tokens) => ParseRecord(MonitorMetrics, tokens)
  }

  // ---------------------------------------------------------------- properties

  /** A key with values occurs among the pairs. */
  lemma ValuesForPresent(pairs: seq<Pair>, k: string)
    requires ValuesFor(pairs, k) != []
    ensures exists i | 0 <= i < |pairs| :: pairs[i].0 == k
  {
    if forall i | 0 <= i < |pairs| :: pairs[i].0 != k {
      ValuesForAbsent(pairs, k);
    }
  }

  /** When a field's key is always written the same way, the field holds
      exactly the values given for it, in input order (or the first of
      them, or its integer), and is absent when the key is never given. */
  lemma FieldFromValues(p: Parser, tokens: seq<Option<string>>, f: Field, spelling: string)
    requires UniqueFields(p.fields) && f in p.fields
    requires ParseRecord(p, tokens).Ok?
    requires Lower(spelling) == f.key
    requires forall i | 0 <= i < |Pairs(tokens, p.flag).value| ::
      Lower(Pairs(tokens, p.flag).value[i].0) == f.key ==> Pairs(tokens, p.flag).value[i].0 == spelling
    ensures var pairs := Pairs(tokens, p.flag).value;
      var rec := ParseRecord(p, tokens).value;
      && (f.name in rec <==> ValuesFor(pairs, spelling) != [])
      && (ValuesFor(pairs, spelling) != [] ==> Convert(f, ValuesFor(pairs, spelling)) == Ok(rec[f.name]))
  {
    var pairs := Pairs(tokens, p.flag).value;
    var g := Group(pairs);
    forall i | 0 <= i < |g| && Lower(g[i].0) == f.key
      ensures g[i].0 == spelling
    {
      ValuesForPresent(pairs, g[i].0);
    }
    LastForSpelling(g, f.key, spelling);
    match KeyIndex(g, spelling)
    case None =>
      assert ValuesFor(pairs, spelling) == [] by {
        if ValuesFor(pairs, spelling) != [] {
          ValuesForPresent(pairs, spelling);
          assert false;
        }
      }
    case Some(n) =>
  }

  /** When every group whose key lower-cases to `key` is spelled `spelling`,
      the last such group is the one group spelled that way. */
  lemma LastForSpelling(g: Groups, key: string, spelling: string)
    requires DistinctKeys(g)
    requires forall i | 0 <= i < |g| && Lower(g[i].0) == key :: g[i].0 == spelling
    requires Lower(spelling) == key
    ensures KeyIndex(g, spelling).None? ==> LastFor(g, key).None?
    ensures KeyIndex(g, spelling).Some? ==> LastFor(g, key) == Some(g[KeyIndex(g, spelling).value].1)
  {
    if KeyIndex(g, spelling).Some? {
      assert Lower(g[KeyIndex(g, spelling).value].0) == key;
    }
  }

  /** An empty flag still adds one, empty, record. */
  lemma EmptyFlagAddsEmptyRecord(p: Parser, existing: seq<Record>)
    requires UniqueFields(p.fields)
    ensures Append(p, Some([]), existing) == Ok(existing + [map[]])
  {
    assert Group([]) == [];
  }

  /** A token without '=' rejects the whole flag with its format message,
      whatever the other tokens hold. */
  lemma MalformedTokenRejects(p: Parser, tokens: seq<Option<string>>, i: nat, existing: seq<Record>)
    requires UniqueFields(p.fields)
    requires i < |tokens| && Malformed(tokens[i])
    ensures Append(p, Some(tokens), existing) == Err(ValidationError(FormatMessage(p.flag)))
  {
  }
}

=== FILE: descriptors.dfy ===
/** The resource descriptors of `_up_utils.py`: `ResourceGroup`, `Extension`,
    `CustomLocation`, `ContainerAppEnvironment` and `ContainerApp`.

    Each Python class is an immutable datatype here; a method that mutates
    `self` is a function returning the updated copy. `create_if_needed`
    returns the updated descriptor together with the `Action` it took; the
    create calls themselves are effects on the cloud that are not modelled.
 */
module Descriptors {

  import opened Common
  import opened Text
  import opened ResourceIds
  import opened Inventory
  import opened Locations

  const StagingRegion: string := "northcentralusstage"
  const FallbackRegion: string := "eastus"
  const ContainerAppsRp: string := "Microsoft.App"
  const CustomLocationRp: string := "Microsoft.ExtendedLocation"
  const ManagedEnvironmentType: string := "managedEnvironments"
  const ConnectedEnvironmentType: string := "connectedEnvironments"
  const ExtensionPath: string := "/providers/Microsoft.KubernetesConfiguration/extensions/"

  /** What `create_if_needed` did: created the resource, reused an existing
      one, or did nothing because the descriptor has no name. */
  datatype Action = Created | Reused | Skipped

  /** Python's `str(x)` of an optional string, as used in f-strings. */
  function PyStr(s: Option<string>): string {
    if s.Some? then s.value else "None"
  }

  // ---------------------------------------------------------------- ResourceGroup

  datatype ResourceGroup = ResourceGroup(name: Option<string>, location: string, existing: bool)

  /** `_get_default_containerapps_location` (not part of this model), taken to keep
      a given location and otherwise yield the platform default. */
  function DefaultLocation(cloud: Cloud, location: Option<string>): string {
    if Truthy(location) then location.value else cloud.defaultLocation
  }

  /** `ResourceGroup.check_exists`. */
  predicate GroupExists(cloud: Cloud, name: Option<string>) {
    name.Some? && name.value in cloud.resourceGroups
  }

  /** `ResourceGroup(cmd, name, location)`: the staging region is remapped to
      the fallback region, and existence is looked up at construction. */
  function NewResourceGroup(cloud: Cloud, name: Option<string>, location: Option<string>): (rg: ResourceGroup)
    ensures rg.name == name
    ensures rg.existing <==> GroupExists(cloud, name)
    ensures Lower(rg.location) != StagingRegion
    ensures Lower(DefaultLocation(cloud, location)) != StagingRegion ==> rg.location == DefaultLocation(cloud, location)
    ensures Lower(DefaultLocation(cloud, location)) == StagingRegion ==> rg.location == FallbackRegion
  {
    var loc := DefaultLocation(cloud, location);
    ResourceGroup(name, if Lower(loc) == StagingRegion then FallbackRegion else loc, GroupExists(cloud, name))
  }

  /** `ResourceGroup.create_if_needed`; `randomName` stands for
      `get_randomized_name(get_profile_username())`. */
  function GroupCreateIfNeeded(cloud: Cloud, rg: ResourceGroup, randomName: string): (r: (ResourceGroup, Action))
    ensures r.0.existing && r.0.name.Some? && r.0.location == rg.location
    ensures r.1 == Reused <==> GroupExists(cloud, rg.name)
    ensures r.1 != Skipped
    ensures r.1 == Reused ==> r.0.name == rg.name
    ensures r.1 == Created ==> r.0.name == (if Truthy(rg.name) then rg.name else Some(randomName))
  {
    if GroupExists(cloud, rg.name) then (rg.(existing := true), Reused)
    else
      var name := if Truthy(rg.name) then rg.name else Some(randomName);
      (rg.(name := name, existing := true), Created)
  }

  /** Creating is idempotent in effect: once the group is in the cloud, a second
      `create_if_needed` reuses it and changes nothing. */
  lemma GroupCreateIdempotent(cloud: Cloud, rg: ResourceGroup, randomName: string, randomName': string)
    ensures var (g, _) := GroupCreateIfNeeded(cloud, rg, randomName);
            var cloud' := cloud.(resourceGroups := cloud.resourceGroups + {g.name.value});
            GroupCreateIfNeeded(cloud', g, randomName') == (g, Reused)
  {
  }

  // ---------------------------------------------------------------- Extension

  /** `Extension`; its `exists` is the constructor argument (the existence
      check of the base class is overwritten right after it runs). */
  datatype Extension = Extension(
    name: Option<string>,
    existing: bool,
    namespace: Option<string>,
    logsLocation: Option<string>,
    logsGroup: Option<string>,
    connectedClusterId: Option<string>,
    connectedEnvironmentName: Option<string>)

  /** `Extension.create_if_needed`. */
  function ExtensionCreateIfNeeded(e: Extension): (r: (Extension, Action))
    ensures e.name.None? ==> r == (e, Skipped)
    ensures e.name.Some? ==> r.0 == e.(existing := true) && r.1 != Skipped && (r.1 == Created <==> !e.existing)
  {
    if e.name.None? then (e, Skipped)
    else if !e.existing then (e.(existing := true), Created)
    else (e, Reused)
  }

  /** `Extension.get_rid`: a name that is already an id is kept, otherwise the
      extension path under the connected cluster. */
  function ExtensionRid(e: Extension): (rid: string)
    ensures e.name.Some? && IsValidId(e.name.value) ==> rid == e.name.value
    ensures !(e.name.Some? && IsValidId(e.name.value)) ==>
      IsPrefix(PyStr(e.connectedClusterId), rid) && EndsWith(rid, ExtensionPath + PyStr(e.name))
    ensures !(e.name.Some? && IsValidId(e.name.value)) ==>
      |rid| == |PyStr(e.connectedClusterId)| + |ExtensionPath| + |PyStr(e.name)|
  {
    if e.name.Some? && IsValidId(e.name.value) then e.name.value
    else ExtensionPathUnder(PyStr(e.connectedClusterId), PyStr(e.name))
  }

  /** The extension path for `name` under the cluster id `cluster`. */
  function ExtensionPathUnder(cluster: string, name: string): (rid: string)
    ensures IsPrefix(cluster, rid) && EndsWith(rid, ExtensionPath + name)
    ensures |rid| == |cluster| + |ExtensionPath| + |name|
  {
    var rid := cluster + ExtensionPath + name;
    assert rid[..|cluster|] == cluster;
    assert rid[|rid| - |ExtensionPath + name|..] == ExtensionPath + name;
    rid
  }

  /** The last path segment of a built extension id is the extension's name. */
  lemma ExtensionRidName(e: Extension)
    requires e.name.Some? && Segment(e.name.value)
    ensures AfterLast(ExtensionRid(e), '/') == e.name.value
  {
    SegmentIsNotId(e.name.value);
    var cluster := PyStr(e.connectedClusterId);
    var path := ExtensionPath[..|ExtensionPath| - 1];
    assert ExtensionPath == path + ['/'];
    assert ExtensionPathUnder(cluster, e.name.value) == (cluster + path) + ['/'] + e.name.value;
    AfterLastAppend(cluster + path, '/', e.name.value);
  }

  // ---------------------------------------------------------------- CustomLocation

  /** `CustomLocation`; as for `Extension`, `exists` starts as the argument. */
  datatype CustomLocation = CustomLocation(
    name: Option<string>,
    resourceGroupName: Option<string>,
    existing: bool,
    location: Option<string>,
    namespace: Option<string>,
    clusterExtensionId: Option<string>,
    connectedClusterId: Option<string>)

  predicate IsIdName(name: Option<string>) {
    name.Some? && IsValidId(name.value)
  }

  /** `CustomLocation.__init__`: a resource-id name is split into name and
      group and marks the custom location as existing. */
  function NewCustomLocation(
    name: Option<string>, group: Option<string>, existing: bool, location: Option<string>,
    namespace: Option<string>, clusterExtensionId: Option<string>, connectedClusterId: Option<string>): (c: CustomLocation)
    ensures IsIdName(name) ==>
      && c.name == Some(ParseId(name.value).value.name)
      && c.resourceGroupName == Some(ParseId(name.value).value.resourceGroup)
      && c.existing
    ensures !IsIdName(name) ==> c.name == name && c.resourceGroupName == group && c.existing == existing
    ensures c.connectedClusterId == connectedClusterId && c.location == location
  {
    var c := CustomLocation(name, group, existing, location, namespace, clusterExtensionId, connectedClusterId);
    if IsIdName(name) then
      var id := ParseId(name.value).value;
      c.(name := Some(id.name), resourceGroupName := Some(id.resourceGroup), existing := true)
    else c
  }

  /** `CustomLocation.set_name`. */
  function CustomLocationSetName(c: CustomLocation, nameOrRid: string): (c': CustomLocation)
    ensures IsValidId(nameOrRid) ==>
      c' == c.(name := Some(ParseId(nameOrRid).value.name), resourceGroupName := Some(ParseId(nameOrRid).value.resourceGroup))
    ensures !IsValidId(nameOrRid) ==> c' == c.(name := Some(nameOrRid))
  {
    if IsValidId(nameOrRid) then
      var id := ParseId(nameOrRid).value;
      c.(name := Some(id.name), resourceGroupName := Some(id.resourceGroup))
    else c.(name := Some(nameOrRid))
  }

  /** `CustomLocation.get_rid`: a name that is already an id is kept; a bare
      name in a named group gives the custom-locations id of that group. */
  function CustomLocationRid(subscription: string, c: CustomLocation): (rid: string)
    ensures c.name.Some? && IsValidId(c.name.value) ==> rid == c.name.value
    ensures c.name.Some? && !IsValidId(c.name.value) && c.resourceGroupName.Some? ==>
      rid == FormatId(ResourceId(subscription, c.resourceGroupName.value, CustomLocationRp, "customlocations", c.name.value))
  {
    match c.name
    case None => ProviderPrefix(subscription, c.resourceGroupName, CustomLocationRp)
    case Some(name) =>
      if IsValidId(name) then name
      else BuildId(subscription, c.resourceGroupName, CustomLocationRp, "customlocations", name)
  }

  /** Naming a custom location by the id of an existing one and asking for its
      id back yields that very id when it is spelled as `get_rid` spells it. */
  lemma CustomLocationRidRoundTrip(subscription: string, c: CustomLocation, id: ResourceId)
    requires WellFormed(id) && id.subscription == subscription
    requires id.namespace == CustomLocationRp && id.resourceType == "customlocations"
    ensures CustomLocationRid(subscription, CustomLocationSetName(c, FormatId(id))) == FormatId(id)
  {
    ParseFormat(id);
    SegmentIsNotId(id.name);
  }

  /** The same round trip for any spelling of the namespace and type, as the
      ids the service returns write them (`customLocations`): the id comes
      back equal up to case, which is how the planner compares such ids. */
  lemma {:induction false} CustomLocationRidMatches(subscription: string, c: CustomLocation, id: ResourceId)
    requires WellFormed(id) && id.subscription == subscription
    requires Lower(id.namespace) == Lower(CustomLocationRp) && Lower(id.resourceType) == "customlocations"
    ensures Lower(CustomLocationRid(subscription, CustomLocationSetName(c, FormatId(id)))) == Lower(FormatId(id))
  {
    ParseFormat(id);
    SegmentIsNotId(id.name);
    var built := ResourceId(subscription, id.resourceGroup, CustomLocationRp, "customlocations", id.name);
    assert CustomLocationRid(subscription, CustomLocationSetName(c, FormatId(id))) == FormatId(built);
    assert Lower("customlocations") == "customlocations";
    JoinLowerCongruent(Pieces(built), Pieces(id), '/');
  }

  /** A bare name is never mistaken for a resource id. */
  lemma SegmentIsNotId(s: string)
    requires Segment(s)
    ensures !IsValidId(s)
  {
  }

  /** `CustomLocation.create_if_needed`. */
  function CustomLocationCreateIfNeeded(c: CustomLocation): (r: (CustomLocation, Action))
    ensures c.name.None? ==> r == (c, Skipped)
    ensures c.name.Some? ==> r.0 == c.(existing := true) && r.1 != Skipped && (r.1 == Created <==> !c.existing)
  {
    if c.name.None? then (c, Skipped)
    else if !c.existing then (c.(existing := true), Created)
    else (c, Reused)
  }

  // ---------------------------------------------------------------- ContainerAppEnvironment

  /** The environment's resource group: at first the very object the planner
      holds (`Shared`), replaced by a fresh one (`Own`) when a resource id
      names a different group. */
  datatype EnvGroup = Shared | Own(group: ResourceGroup)

  datatype Environment = Environment(
    name: Option<string>,
    group: EnvGroup,
    existing: bool,
    location: Option<string>,
    resourceType: Option<string>,
    customLocationId: Option<string>)

  /** The resource group an environment refers to, given the planner's group. */
  function GroupOf(env: Environment, rg: ResourceGroup): ResourceGroup {
    match env.group
    case Shared => rg
    case Own(g) => g
  }

  /** `is_connected_environment_type`: an exact, case-sensitive comparison. */
  predicate IsConnected(env: Environment) {
    env.resourceType == Some(ConnectedEnvironmentType)
  }

  /** `Resource.check_exists` for an environment: the show call of its variant
      in its resource group. */
  predicate EnvExists(cloud: Cloud, env: Environment, rg: ResourceGroup) {
    var g := GroupOf(env, rg);
    && env.name.Some? && g.name.Some?
    && (if IsConnected(env) then ConnectedEnvExists(cloud, g.name.value, env.name.value)
        else ManagedEnvExists(cloud, g.name.value, env.name.value))
  }

  /** The variant a parsed id's type selects in `__init__`. */
  function VariantOf(resourceType: string): (t: string)
    ensures t == ConnectedEnvironmentType <==> Lower(resourceType) == Lower(ConnectedEnvironmentType)
    ensures t != ConnectedEnvironmentType ==> t == ManagedEnvironmentType
  {
    if Lower(resourceType) == Lower(ConnectedEnvironmentType) then ConnectedEnvironmentType
    else ManagedEnvironmentType
  }

  /** `ContainerAppEnvironment.__init__`. */
  function NewEnvironment(
    cloud: Cloud, name: Option<string>, rg: ResourceGroup, location: Option<string>,
    resourceType: Option<string>, customLocationId: Option<string>, connectedClusterId: Option<string>): (env: Environment)
    ensures IsIdName(name) ==>
      && env.name == Some(ParseId(name.value).value.name)
      && GroupOf(env, rg).name == Some(ParseId(name.value).value.resourceGroup)
      && (IsConnected(env) <==> Lower(ParseId(name.value).value.resourceType) == Lower(ConnectedEnvironmentType))
      && env.resourceType.Some?
    ensures !IsIdName(name) ==>
      && env.name == name
      && env.group == Shared
      && (IsConnected(env) <==>
            (resourceType == Some(ConnectedEnvironmentType)
             || (resourceType.None? && (Truthy(customLocationId) || Truthy(connectedClusterId)))))
    ensures env.location == location && env.customLocationId == customLocationId
  {
    var existing := EnvExists(cloud, Environment(name, Shared, false, None, resourceType, None), rg);
    var base := Environment(name, Shared, existing, location, resourceType, customLocationId);
    var parsed :=
      if IsIdName(name) then
        var id := ParseId(name.value).value;
        base.(
          name := Some(id.name),
          group := if rg.name != Some(id.resourceGroup) then Own(NewResourceGroup(cloud, Some(id.resourceGroup), location)) else Shared,
          resourceType := Some(VariantOf(id.resourceType)))
      else base;
    if parsed.resourceType.None? && (Truthy(customLocationId) || Truthy(connectedClusterId)) then
      parsed.(resourceType := Some(ConnectedEnvironmentType))
    else parsed
  }

  /** Building an environment from a full resource id gives the same name,
      resource group and variant as building it from the separate parts. */
  lemma EnvironmentFromIdMatchesParts(
    cloud: Cloud, id: ResourceId, location: Option<string>,
    customLocationId: Option<string>, connectedClusterId: Option<string>)
    requires WellFormed(id)
    ensures
      var fromId := NewEnvironment(cloud, Some(FormatId(id)), NewResourceGroup(cloud, None, location),
                                   location, None, customLocationId, connectedClusterId);
      var partsRg := NewResourceGroup(cloud, Some(id.resourceGroup), location);
      var fromParts := NewEnvironment(cloud, Some(id.name), partsRg,
                                      location, Some(VariantOf(id.resourceType)), customLocationId, connectedClusterId);
      && fromId.name == fromParts.name
      && GroupOf(fromId, NewResourceGroup(cloud, None, location)) == GroupOf(fromParts, partsRg)
      && IsConnected(fromId) == IsConnected(fromParts)
  {
    ParseFormat(id);
    SegmentIsNotId(id.name);
  }

  /** `ContainerAppEnvironment.set_name`: the id's type is copied verbatim,
      without the normalisation `__init__` applies. */
  function EnvSetName(cloud: Cloud, env: Environment, rg: ResourceGroup, nameOrRid: string): (env': Environment)
    ensures IsValidId(nameOrRid) ==>
      && env'.name == Some(ParseId(nameOrRid).value.name)
      && GroupOf(env', rg).name == Some(ParseId(nameOrRid).value.resourceGroup)
      && env'.resourceType == Some(ParseId(nameOrRid).value.resourceType)
      && env'.existing == env.existing && env'.location == env.location && env'.customLocationId == env.customLocationId
    ensures IsValidId(nameOrRid) && GroupOf(env, rg).name == Some(ParseId(nameOrRid).value.resourceGroup) ==>
      env'.group == env.group
    ensures !IsValidId(nameOrRid) ==> env' == env.(name := Some(nameOrRid))
  {
    if IsValidId(nameOrRid) then
      var id := ParseId(nameOrRid).value;
      env.(
        name := Some(id.name),
        resourceType := Some(id.resourceType),
        group := if GroupOf(env, rg).name != Some(id.resourceGroup)
                 then Own(NewResourceGroup(cloud, Some(id.resourceGroup), env.location))
                 else env.group)
    else env.(name := Some(nameOrRid))
  }

  /** `ContainerAppEnvironment.get_rid`; every caller has set a name first. A
      name that is already an id is kept; a bare name in a named group gives
      the id under `Microsoft.App` with the environment's type, managed when
      no type is known. */
  function EnvRid(subscription: string, env: Environment, rg: ResourceGroup): (rid: string)
    requires env.name.Some?
    ensures IsValidId(env.name.value) ==> rid == env.name.value
    ensures !IsValidId(env.name.value) && GroupOf(env, rg).name.Some? ==>
      rid == FormatId(ResourceId(subscription, GroupOf(env, rg).name.value, ContainerAppsRp,
                                 if Truthy(env.resourceType) then env.resourceType.value else ManagedEnvironmentType,
                                 env.name.value))
  {
    if IsValidId(env.name.value) then env.name.value
    else BuildId(subscription, GroupOf(env, rg).name, ContainerAppsRp,
                 if Truthy(env.resourceType) then env.resourceType.value else ManagedEnvironmentType,
                 env.name.value)
  }

  /** The id of a named environment in a named group parses back to its parts,
      with the managed type when no type is known. */
  lemma EnvRidParses(subscription: string, env: Environment, rg: ResourceGroup)
    requires env.name.Some? && Segment(env.name.value) && Segment(subscription)
    requires GroupOf(env, rg).name.Some? && Segment(GroupOf(env, rg).name.value)
    requires env.resourceType.Some? ==> Segment(env.resourceType.value)
    ensures ParseId(EnvRid(subscription, env, rg)) == Some(ResourceId(
      subscription, GroupOf(env, rg).name.value, ContainerAppsRp,
      if env.resourceType.Some? then env.resourceType.value else ManagedEnvironmentType,
      env.name.value))
  {
    SegmentIsNotId(env.name.value);
    BuildIdParses(subscription, GroupOf(env, rg).name, ContainerAppsRp,
                  if Truthy(env.resourceType) then env.resourceType.value else ManagedEnvironmentType,
                  env.name.value);
  }

  /** The name `create_if_needed` gives an unnamed environment. */
  function DefaultEnvName(appName: string): (n: string)
    ensures '_' !in n
    ensures |n| == |appName| + 4
  {
    ReplaceChar(appName + "-env", '_', '-')
  }

  /** `ContainerAppEnvironment.create_if_needed` followed by `create`: an
      existing environment is reused; otherwise it gets a default name if it
      has none and a validated location, and is created (as a connected
      environment exactly when it has a custom location id). */
  function EnvCreateIfNeeded(cloud: Cloud, env: Environment, rg: ResourceGroup, appName: string): (r: Result<(Environment, Action)>)
    ensures EnvExists(cloud, env, rg) ==> r == Ok((env.(existing := true), Reused))
    ensures !EnvExists(cloud, env, rg) ==>
      var allowed := ValidateEnvironmentLocation(cloud, env.location, env.resourceType);
      && (r.Ok? <==> allowed.Ok?)
      && (r.Ok? ==>
            && r.value.1 == Created && r.value.0.existing
            && r.value.0.name == (if env.name.None? then Some(DefaultEnvName(appName)) else env.name)
            && r.value.0.location == Some(allowed.value)
            && r.value.0.customLocationId == env.customLocationId
            && r.value.0.resourceType == env.resourceType)
  {
    if EnvExists(cloud, env, rg) then Ok((env.(existing := true), Reused))
    else
      var named := if env.name.None? then env.(name := Some(DefaultEnvName(appName))) else env;
      var location :- ValidateEnvironmentLocation(cloud, named.location, named.resourceType);
      Ok((named.(location := Some(location), existing := true), Created))
  }

  // ---------------------------------------------------------------- ContainerApp

  /** `AzureContainerRegistry`: a registry name and its resource group. */
  datatype Acr = Acr(name: string, group: ResourceGroup)

  /** `ContainerApp`; its resource group is the planner's and its environment
      the planner's environment, so neither is stored here. */
  datatype ContainerApp = ContainerApp(
    name: string,
    image: Option<string>,
    targetPort: Option<string>,
    registryServer: Option<string>,
    registryUser: Option<string>,
    registryPass: Option<string>,
    ingress: Option<string>,
    shouldCreateAcr: bool,
    acr: Option<Acr>)
}

=== FILE: inventory.dfy ===
/** The cloud as the planner sees it: the inventories its list and show calls
    return, replaced by plain input values.

    Every read the code makes of Azure Resource Manager, the container
    registry service, the connected-cluster service and the resource-provider
    registry is a lookup in a `Cloud` value here. Names are compared exactly
    as the lookups below say; the service's own case-insensitivity is not
    modelled.
 */
module Inventory {

  import opened Common
  import opened Text
  import opened ResourceIds
  import opened Seqs

  datatype Container = Container(name: string, image: string)

  /** A container app as `list_containerapp` / `ContainerAppClient.show` return it. */
  datatype AppRecord = AppRecord(
    name: string,
    id: ResourceId,
    location: string,
    environmentId: ResourceId,
    /** `extendedLocation.name`, absent for apps in managed environments. */
    extendedLocation: Option<string>,
    /** `properties.configuration.registries[*].server`. */
    registryServers: seq<string>,
    /** `properties.template.containers`. */
    containers: seq<Container>)

  /** A managed environment as `list_managed_environments` returns it. */
  datatype ManagedEnvRecord = ManagedEnvRecord(
    name: string,
    id: ResourceId,
    location: string,
    /** `properties.appLogsConfiguration.logAnalyticsConfiguration.customerId`. */
    logsCustomerId: Option<string>)

  /** A connected environment as `list_connected_environments` returns it. */
  datatype ConnectedEnvRecord = ConnectedEnvRecord(
    name: string,
    id: ResourceId,
    location: string,
    /** `extendedLocation.name`: the id of the hosting custom location. */
    extendedLocation: string)

  /** A custom location as `get_custom_location` / `list_custom_location` return it. */
  datatype CustomLocationRecord = CustomLocationRecord(
    id: ResourceId,
    hostResourceId: string,
    clusterExtensionIds: seq<string>,
    namespace: string,
    location: string)

  /** A cluster extension as `list_cluster_extensions` returns it. */
  datatype ExtensionRecord = ExtensionRecord(
    id: string,
    name: string,
    extensionType: string,
    releaseNamespace: string)

  /** A connected Kubernetes cluster as `get_connected_k8s` returns it. */
  datatype ClusterRecord = ClusterRecord(
    id: string,
    location: string,
    extensions: seq<ExtensionRecord>)

  /** An Azure Container Registry as `acr_show` / `_get_acr_cred` see it;
      `credentials` is absent when the admin user is disabled. */
  datatype RegistryRecord = RegistryRecord(
    name: string,
    resourceGroup: string,
    credentials: Option<(string, string)>)

  /** One resource type of the Microsoft.App provider and its locations. */
  datatype ProviderResourceType = ProviderResourceType(resourceType: string, locations: seq<string>)

  datatype Cloud = Cloud(
    subscription: string,
    /** What the platform default-region lookup yields when no location is given. */
    defaultLocation: string,
    resourceGroups: set<string>,
    apps: seq<AppRecord>,
    managedEnvironments: seq<ManagedEnvRecord>,
    connectedEnvironments: seq<ConnectedEnvRecord>,
    customLocations: seq<CustomLocationRecord>,
    clusters: seq<ClusterRecord>,
    registries: seq<RegistryRecord>,
    appResourceTypes: seq<ProviderResourceType>,
    /** (resource group, app name) pairs that have a GitHub Actions workflow. */
    githubActions: set<(string, string)>)

  /** `list_managed_environments(resource_group_name=group)`: the whole
      subscription when no group is given. */
  function ListManagedEnvironments(cloud: Cloud, group: Option<string>): (r: seq<ManagedEnvRecord>)
    ensures group.None? ==> r == cloud.managedEnvironments
    ensures forall e | e in r :: e in cloud.managedEnvironments
  {
    if group.None? then cloud.managedEnvironments
    else Filter(cloud.managedEnvironments, (e: ManagedEnvRecord) => e.id.resourceGroup == group.value)
  }

  /** `list_connected_environments(resource_group_name=group)`. */
  function ListConnectedEnvironments(cloud: Cloud, group: Option<string>): (r: seq<ConnectedEnvRecord>)
    ensures group.None? ==> r == cloud.connectedEnvironments
    ensures forall e | e in r :: e in cloud.connectedEnvironments
  {
    if group.None? then cloud.connectedEnvironments
    else Filter(cloud.connectedEnvironments, (e: ConnectedEnvRecord) => e.id.resourceGroup == group.value)
  }

  /** `get_custom_location(custom_location_id=id)`: `None` when it does not exist. */
  function GetCustomLocation(cloud: Cloud, id: string): Option<CustomLocationRecord> {
    FirstWhere(cloud.customLocations, (c: CustomLocationRecord) => Lower(FormatId(c.id)) == Lower(id))
  }

  /** The host cluster of the custom location with the given id, if it exists. */
  function HostOf(cloud: Cloud, customLocationId: string): Option<string> {
    match GetCustomLocation(cloud, customLocationId)
    case None => None
    case Some(c) => Some(c.hostResourceId)
  }

  /** `list_custom_location(connected_cluster_id=cluster)`. */
  function ListCustomLocations(cloud: Cloud, cluster: string): seq<CustomLocationRecord> {
    Filter(cloud.customLocations, (c: CustomLocationRecord) => Lower(c.hostResourceId) == Lower(cluster))
  }

  /** `get_connected_k8s(cluster)`. */
  function GetCluster(cloud: Cloud, cluster: string): Option<ClusterRecord> {
    FirstWhere(cloud.clusters, (k: ClusterRecord) => Lower(k.id) == Lower(cluster))
  }

  /** `acr_show(registry_name=name)`. */
  function GetRegistry(cloud: Cloud, name: string): Option<RegistryRecord> {
    FirstWhere(cloud.registries, (r: RegistryRecord) => r.name == name)
  }

  /** `ContainerAppClient.show(group, name)`, `None` where it raises. */
  function GetApp(cloud: Cloud, group: string, name: string): Option<AppRecord> {
    FirstWhere(cloud.apps, (a: AppRecord) => a.id.resourceGroup == group && a.name == name)
  }

  predicate ManagedEnvExists(cloud: Cloud, group: string, name: string) {
    exists i | 0 <= i < |cloud.managedEnvironments| ::
      cloud.managedEnvironments[i].id.resourceGroup == group && cloud.managedEnvironments[i].name == name
  }

  predicate ConnectedEnvExists(cloud: Cloud, group: string, name: string) {
    exists i | 0 <= i < |cloud.connectedEnvironments| ::
      cloud.connectedEnvironments[i].id.resourceGroup == group && cloud.connectedEnvironments[i].name == name
  }

  /** `ManagedEnvironmentClient.show(group, name)`, `None` where it raises. */
  function GetManagedEnv(cloud: Cloud, group: string, name: string): (r: Option<ManagedEnvRecord>)
    ensures r.Some? <==> ManagedEnvExists(cloud, group, name)
  {
    FirstWhere(cloud.managedEnvironments, (e: ManagedEnvRecord) => e.id.resourceGroup == group && e.name == name)
  }

  /** `ConnectedEnvironmentClient.show(group, name)`, `None` where it raises. */
  function GetConnectedEnv(cloud: Cloud, group: string, name: string): (r: Option<ConnectedEnvRecord>)
    ensures r.Some? <==> ConnectedEnvExists(cloud, group, name)
  {
    FirstWhere(cloud.connectedEnvironments, (e: ConnectedEnvRecord) => e.id.resourceGroup == group && e.name == name)
  }
}

=== FILE: locations.dfy ===
/** Location strings: `format_location`, `list_environment_locations` and
    `validate_environment_location` of `_up_utils.py`. */
module Locations {

  import opened Common
  import opened Text
  import opened Seqs
  import opened Inventory

  /** The characters `format_location` deletes. */
  predicate Dropped(c: char) {
    c == ' ' || c == '(' || c == ')'
  }

  /** The normal form of a location: no upper-case letter, space or parenthesis. */
  predicate Normal(s: string) {
    forall i | 0 <= i < |s| :: !IsUpper(s[i]) && !Dropped(s[i])
  }

  /** `location.lower().replace(" ", "").replace("(", "").replace(")", "")`. */
  function FormatText(s: string): string {
    RemoveChar(RemoveChar(RemoveChar(Lower(s), ' '), '('), ')')
  }

  predicate Kept(c: char) {
    !Dropped(c)
  }

  /** The three removals keep exactly the characters that are not dropped, in order. */
  lemma {:induction false} RemovalsAreFilter(t: string)
    ensures RemoveChar(RemoveChar(RemoveChar(t, ' '), '('), ')') == Filter(t, Kept)
    decreases |t|
  {
    if t != [] {
      RemovalsAreFilter(t[1..]);
    }
  }

  lemma FormatTextIsFilter(s: string)
    ensures FormatText(s) == Filter(Lower(s), Kept)
  {
    RemovalsAreFilter(Lower(s));
  }

  lemma FormatTextNormal(s: string)
    ensures Normal(FormatText(s))
  {
    FormatTextIsFilter(s);
    var r := FormatText(s);
    forall i | 0 <= i < |r|
      ensures !IsUpper(r[i]) && !Dropped(r[i])
    {
      assert r[i] in r;
      var j :| 0 <= j < |s| && Lower(s)[j] == r[i];
    }
  }

  /** A location already in normal form is left as it is. */
  lemma NormalFixed(s: string)
    requires Normal(s)
    ensures FormatText(s) == s
  {
    LowerFixedIff(s);
    FormatTextIsFilter(s);
    FilterAll(s, Kept);
  }

  /** `format_location`: `None` and `""` are returned as they are. */
  function FormatLocation(location: Option<string>): (r: Option<string>)
    ensures location.None? ==> r.None?
    ensures location == Some("") ==> r == Some("")
    ensures location.Some? ==> r.Some? && Normal(r.value)
  {
    if Truthy(location) then FormatTextNormal(location.value); Some(FormatText(location.value))
    else location
  }

  /** `format_location` is idempotent. */
  lemma FormatLocationIdempotent(location: Option<string>)
    ensures FormatLocation(FormatLocation(location)) == FormatLocation(location)
  {
    if Truthy(location) {
      FormatTextNormal(location.value);
      NormalFixed(FormatText(location.value));
    }
  }

  /** The locations of the last resource type named `t`: the loop in the
      source overwrites its result on every match and never breaks. */
  function LastTypeLocations(types: seq<ProviderResourceType>, t: string): seq<string>
    decreases |types|
  {
    if types == [] then []
    else if types[|types| - 1].resourceType == t then types[|types| - 1].locations
    else LastTypeLocations(types[..|types| - 1], t)
  }

  /** Without an entry of type `t` the list is empty. */
  lemma {:induction false} LastTypeLocationsNone(types: seq<ProviderResourceType>, t: string)
    requires forall i | 0 <= i < |types| :: types[i].resourceType != t
    ensures LastTypeLocations(types, t) == []
    decreases |types|
  {
    if types != [] {
      LastTypeLocationsNone(types[..|types| - 1], t);
    }
  }

  /** The last entry of type `t` decides. */
  lemma {:induction false} LastTypeLocationsAt(types: seq<ProviderResourceType>, t: string, i: nat)
    requires i < |types| && types[i].resourceType == t
    requires forall j | i < j < |types| :: types[j].resourceType != t
    ensures LastTypeLocations(types, t) == types[i].locations
    decreases |types|
  {
    if i < |types| - 1 {
      var init := types[..|types| - 1];
      assert init[i] == types[i];
      assert forall j | i < j < |init| :: init[j] == types[j];
      LastTypeLocationsAt(init, t, i);
    }
  }

  predicate NonBlank(s: string) {
    Strip(s) != ""
  }

  /** `list_environment_locations`: the non-blank locations of the last entry of
      the given type, each in normal form; no provider type equals `None`. */
  function EnvironmentLocations(cloud: Cloud, resourceType: Option<string>): (r: seq<string>)
    ensures forall i | 0 <= i < |r| :: Normal(r[i])
    ensures resourceType.None? ==> r == []
    ensures resourceType.Some? ==>
      r == Map(Filter(LastTypeLocations(cloud.appResourceTypes, resourceType.value), NonBlank), FormatText)
    ensures resourceType.Some? ==> forall l | l in LastTypeLocations(cloud.appResourceTypes, resourceType.value) && NonBlank(l) ::
      FormatText(l) in r
    ensures resourceType.Some? ==> forall i | 0 <= i < |r| ::
      exists l | l in LastTypeLocations(cloud.appResourceTypes, resourceType.value) :: NonBlank(l) && r[i] == FormatText(l)
  {
    var found := if resourceType.Some? then LastTypeLocations(cloud.appResourceTypes, resourceType.value) else [];
    var kept := Filter(found, NonBlank);
    var r := Map(kept, FormatText);
    forall i | 0 <= i < |r| ensures Normal(r[i]) {
      FormatTextNormal(kept[i]);
    }
    FormattedKeptCovers(found);
    forall i | 0 <= i < |r| ensures kept[i] in found && NonBlank(kept[i]) && r[i] == FormatText(kept[i]) {
      assert kept[i] in kept;
    }
    r
  }

  /** Every non-blank listed location appears formatted. */
  lemma FormattedKeptCovers(found: seq<string>)
    ensures forall l | l in found && NonBlank(l) :: FormatText(l) in Map(Filter(found, NonBlank), FormatText)
  {
    var kept := Filter(found, NonBlank);
    forall l | l in found && NonBlank(l) ensures FormatText(l) in Map(kept, FormatText) {
      assert l in kept;
      var k :| 0 <= k < |kept| && kept[k] == l;
      assert Map(kept, FormatText)[k] == FormatText(l);
    }
  }

  /** `_ensure_location_allowed` (not part of this model), taken to accept a
      location whose normal form is among the provider's locations. */
  predicate LocationAllowed(cloud: Cloud, location: string, resourceType: Option<string>) {
    FormatText(location) in EnvironmentLocations(cloud, resourceType)
  }

  /** `validate_environment_location`: a given location must be allowed and is
      kept as written; without one the provider's first location is taken. */
  function ValidateEnvironmentLocation(cloud: Cloud, location: Option<string>, resourceType: Option<string>): (r: Result<string>)
    ensures Truthy(location) ==>
      (r.Ok? <==> LocationAllowed(cloud, location.value, resourceType))
      && (r.Ok? ==> r.value == location.value)
      && (r.Err? ==> r.error.ValidationError?)
    ensures !Truthy(location) ==>
      (r.Ok? <==> EnvironmentLocations(cloud, resourceType) != [])
      && (r.Ok? ==> r.value == EnvironmentLocations(cloud, resourceType)[0] && Normal(r.value))
  {
    var allowed := EnvironmentLocations(cloud, resourceType);
    if Truthy(location) then
      if FormatText(location.value) in allowed then Ok(location.value)
      else Err(ValidationError("You cannot create a Containerapp environment in location " + location.value))
    else if allowed == [] then Err(RuntimeFault("IndexError: list index out of range"))
    else Ok(allowed[0])
  }
}

=== FILE: planner.dfy ===
/** `_set_up_defaults` of `_up_utils.py`: the planner that fills in what the
    user left out of `az containerapp up` from what already exists, and
    chooses names for what must be created.

    The random number, the profile user name and the two name generators of
    `_utils.py` (not part of this model) are replaced by the names they
    produce, passed in as `Fresh`.
 */
module Planner {

  import opened Common
  import opened Text
  import opened Seqs
  import opened ResourceIds
  import opened Inventory
  import opened Locations
  import opened Descriptors
  import opened Registry
  import opened Resolver

  /** The names `get_randomized_name` and `get_randomized_name_with_dash`
      generate for the resource group and the custom location; they are used
      only where the user gave no name. */
  datatype Fresh = Fresh(groupName: string, customLocationName: string)

  /** The descriptors the planner fills in. */
  datatype Plan = Plan(rg: ResourceGroup, env: Environment, app: ContainerApp, cl: CustomLocation, ext: Extension)

  const DefaultExtensionName: string := "containerapp-ext"
  const DefaultExtensionNamespace: string := "containerapp-ns"

  const MultipleManagedMessage: string :=
    " on the subscription. Please specify which resource group your Containerapp environment is in."
  const MultipleConnectedMessage: string :=
    " on the subscription. Please specify which resource group your Connected environment is in."

  // ---------------------------------------------------------------- managed environment by name

  /** A managed environment with exactly the given name, in the given location
      when one is given (compared with the normal form of its own). */
  predicate ManagedNameMatch(envName: string, location: Option<string>, e: ManagedEnvRecord) {
    e.name == envName && (Truthy(location) ==> FormatLocation(Some(e.location)) == location)
  }

  function ManagedNameSel(envName: string, location: Option<string>): ManagedEnvRecord -> bool {
    (e: ManagedEnvRecord) => ManagedNameMatch(envName, location, e)
  }

  /** The block that sets the resource group from the environment name: it
      runs for a non-connected environment with a name but no group. */
  predicate ManagedBlockRuns(rg: ResourceGroup, env: Environment) {
    !IsConnected(env) && Truthy(env.name) && !Truthy(rg.name)
  }

  /** The managed-environment block of `_set_up_defaults`: exactly one managed
      environment of that name (and location) gives its group and marks the
      environment managed; several are an error; none changes nothing. */
  function ManagedByName(cloud: Cloud, rg: ResourceGroup, env: Environment, location: Option<string>): (r: Result<(ResourceGroup, Environment)>)
    ensures !ManagedBlockRuns(rg, env) ==> r == Ok((rg, env))
    ensures ManagedBlockRuns(rg, env) ==>
      var found := Filter(cloud.managedEnvironments, ManagedNameSel(env.name.value, location));
      && (|found| == 0 ==> r == Ok((rg, env)))
      && (|found| == 1 ==>
            && found[0] in cloud.managedEnvironments && ManagedNameMatch(env.name.value, location, found[0])
            && r == Ok((rg.(name := Some(found[0].id.resourceGroup)), env.(resourceType := Some(ManagedEnvironmentType)))))
      && (|found| > 1 ==> r.Err? && r.error.ValidationError?)
  {
    if ManagedBlockRuns(rg, env) then
      var found := Filter(cloud.managedEnvironments, ManagedNameSel(env.name.value, location));
      if |found| == 1 then
        assert found[0] in found;
        Ok((rg.(name := Some(found[0].id.resourceGroup)), env.(resourceType := Some(ManagedEnvironmentType))))
      else if |found| > 1 then
        Err(ValidationError("There are multiple environments with name " + env.name.value + MultipleManagedMessage))
      else Ok((rg, env))
    else Ok((rg, env))
  }

  /** The one managed environment of that name is adopted. */
  lemma ManagedByNameUnique(cloud: Cloud, rg: ResourceGroup, env: Environment, location: Option<string>, i: nat)
    requires ManagedBlockRuns(rg, env)
    requires i < |cloud.managedEnvironments| && ManagedNameMatch(env.name.value, location, cloud.managedEnvironments[i])
    requires forall j | 0 <= j < |cloud.managedEnvironments| && j != i ::
      !ManagedNameMatch(env.name.value, location, cloud.managedEnvironments[j])
    ensures ManagedByName(cloud, rg, env, location)
      == Ok((rg.(name := Some(cloud.managedEnvironments[i].id.resourceGroup)), env.(resourceType := Some(ManagedEnvironmentType))))
  {
    FilterSingle(cloud.managedEnvironments, ManagedNameSel(env.name.value, location), i);
  }

  /** Two managed environments of that name are an error. */
  lemma ManagedByNameAmbiguous(cloud: Cloud, rg: ResourceGroup, env: Environment, location: Option<string>, i: nat, j: nat)
    requires ManagedBlockRuns(rg, env)
    requires i < j < |cloud.managedEnvironments|
    requires ManagedNameMatch(env.name.value, location, cloud.managedEnvironments[i])
    requires ManagedNameMatch(env.name.value, location, cloud.managedEnvironments[j])
    ensures ManagedByName(cloud, rg, env, location).Err?
  {
    FilterTwo(cloud.managedEnvironments, ManagedNameSel(env.name.value, location), i, j);
  }

  /** Without a managed environment of that name nothing changes. */
  lemma ManagedByNameAbsent(cloud: Cloud, rg: ResourceGroup, env: Environment, location: Option<string>)
    requires ManagedBlockRuns(rg, env)
    requires forall j | 0 <= j < |cloud.managedEnvironments| ::
      !ManagedNameMatch(env.name.value, location, cloud.managedEnvironments[j])
    ensures ManagedByName(cloud, rg, env, location) == Ok((rg, env))
  {
    FilterNone(cloud.managedEnvironments, ManagedNameSel(env.name.value, location));
  }

  // ---------------------------------------------------------------- connected environment

  /** The connected block runs when the environment's type is unknown, or it
      is connected but its name, group or custom location is still missing. */
  predicate ConnectedBlockRuns(rg: ResourceGroup, env: Environment) {
    || !Truthy(env.resourceType)
    || (IsConnected(env) && (!Truthy(env.name) || !Truthy(rg.name) || !Truthy(env.customLocationId)))
  }

  /** The connected environments the block looks at: those of the planner's
      group when it exists or is unnamed, none otherwise. */
  function ConnectedCandidates(cloud: Cloud, rg: ResourceGroup): seq<ConnectedEnvRecord> {
    if rg.existing || !Truthy(rg.name) then ListConnectedEnvironments(cloud, rg.name) else []
  }

  /** A connected environment that passes every filter the user supplied:
      its name, its location, its custom location, and the cluster hosting
      its custom location. */
  predicate ConnectedMatch(cloud: Cloud, env: Environment, location: Option<string>, cl: CustomLocation, e: ConnectedEnvRecord) {
    && (Truthy(env.name) ==> env.name.value == e.name)
    && (Truthy(location) ==> FormatLocation(Some(e.location)) == location)
    && (Truthy(cl.name) ==> Lower(e.extendedLocation) == Lower(CustomLocationRid(cloud.subscription, cl)))
    && (Truthy(cl.connectedClusterId) ==>
          HostOf(cloud, e.extendedLocation).Some?
          && Lower(cl.connectedClusterId.value) == Lower(HostOf(cloud, e.extendedLocation).value))
  }

  function ConnectedSel(cloud: Cloud, env: Environment, location: Option<string>, cl: CustomLocation): ConnectedEnvRecord -> bool {
    (e: ConnectedEnvRecord) => ConnectedMatch(cloud, env, location, cl, e)
  }

  /** The tests of one loop iteration, each failed test a `continue`. */
  method PassesFilters(cloud: Cloud, env: Environment, location: Option<string>, cl: CustomLocation, rid: string, e: ConnectedEnvRecord)
    returns (keep: bool)
    requires rid == CustomLocationRid(cloud.subscription, cl)
    ensures keep == ConnectedMatch(cloud, env, location, cl, e)
  {
    if Truthy(env.name) && env.name.value != e.name {
      return false;
    }
    if Truthy(location) && FormatLocation(Some(e.location)) != location {
      return false;
    }
    if Truthy(cl.name) && Lower(e.extendedLocation) != Lower(rid) {
      return false;
    }
    if Truthy(cl.connectedClusterId) {
      var host := HostOf(cloud, e.extendedLocation);
      if host.None? || Lower(cl.connectedClusterId.value) != Lower(host.value) {
        return false;
      }
    }
    return true;
  }

  /** The loop over the candidates, keeping those that pass every test. */
  method SelectConnected(cloud: Cloud, env: Environment, location: Option<string>, cl: CustomLocation, candidates: seq<ConnectedEnvRecord>)
    returns (selected: seq<ConnectedEnvRecord>)
    ensures selected == Filter(candidates, ConnectedSel(cloud, env, location, cl))
  {
    selected := [];
    var rid := CustomLocationRid(cloud.subscription, cl);
    var i := 0;
    while i < |candidates|
      invariant 0 <= i <= |candidates|
      invariant selected == Filter(candidates[..i], ConnectedSel(cloud, env, location, cl))
    {
      var e := candidates[i];
      var keep := PassesFilters(cloud, env, location, cl, rid, e);
      FilterPrefixStep(candidates, i, ConnectedSel(cloud, env, location, cl), selected, keep);
      if keep {
        selected := selected + [e];
      }
      i := i + 1;
    }
    assert candidates[..i] == candidates;
  }

  /** Adopting a connected environment: its group, name and custom location. */
  function AdoptConnected(cloud: Cloud, rg: ResourceGroup, env: Environment, e: ConnectedEnvRecord): (r: (ResourceGroup, Environment))
    ensures r.0 == rg.(name := Some(e.id.resourceGroup))
    ensures r.1.customLocationId == Some(e.extendedLocation)
    ensures WellFormed(e.id) ==>
      && r.1.name == Some(e.id.name)
      && GroupOf(r.1, r.0).name == Some(e.id.resourceGroup)
      && r.1.resourceType == Some(e.id.resourceType)
  {
    assert WellFormed(e.id) ==> ParseId(FormatId(e.id)) == Some(e.id) by {
      if WellFormed(e.id) {
        ParseFormat(e.id);
      }
    }
    var rg' := rg.(name := Some(e.id.resourceGroup));
    (rg', EnvSetName(cloud, env, rg', FormatId(e.id)).(customLocationId := Some(e.extendedLocation)))
  }

  /** What the connected block does with the selected environments: one is
      adopted; of several, the first is adopted unless the user named the
      environment, which is then ambiguous; none changes nothing. */
  function ChooseConnected(cloud: Cloud, rg: ResourceGroup, env: Environment, selected: seq<ConnectedEnvRecord>): (r: Result<(ResourceGroup, Environment)>)
    ensures |selected| == 0 ==> r == Ok((rg, env))
    ensures |selected| == 1 ==> r == Ok(AdoptConnected(cloud, rg, env, selected[0]))
    ensures |selected| > 1 && Truthy(env.name) ==> r.Err? && r.error.ValidationError?
    ensures |selected| > 1 && !Truthy(env.name) ==> r == Ok(AdoptConnected(cloud, rg, env, selected[0]))
  {
    if |selected| == 1 || (|selected| > 1 && !Truthy(env.name)) then Ok(AdoptConnected(cloud, rg, env, selected[0]))
    else if |selected| > 1 then Err(ValidationError("There are multiple environments with name " + env.name.value + MultipleConnectedMessage))
    else Ok((rg, env))
  }

  // ---------------------------------------------------------------- a connected environment to create

  /** A custom location with a fresh name in the fresh group: its id names both. */
  lemma FreshCustomLocationRid(subscription: string, cl: CustomLocation, group: string, name: string)
    requires Segment(subscription) && Segment(group) && Segment(name)
    ensures ParseId(CustomLocationRid(subscription, cl.(name := Some(name), resourceGroupName := Some(group))))
      == Some(ResourceId(subscription, group, CustomLocationRp, "customlocations", name))
  {
    SegmentIsNotId(name);
    assert Segment(CustomLocationRp) && Segment("customlocations");
    BuildIdParses(subscription, Some(group), CustomLocationRp, "customlocations", name);
  }

  /** The default extension for a new connected environment, and the custom
      location bound to it. */
  function DefaultExtension(rg: ResourceGroup, env: Environment, cl: CustomLocation, ext: Extension): (r: (CustomLocation, Extension))
    ensures r.1.name == Some(DefaultExtensionName) && r.1.namespace == Some(DefaultExtensionNamespace)
    ensures r.0.namespace == r.1.namespace
    ensures r.1.logsGroup == rg.name && r.1.logsLocation == Some(rg.location)
    ensures r.1.connectedEnvironmentName == env.name
    ensures r.1.existing == ext.existing && r.1.connectedClusterId == ext.connectedClusterId
    ensures r.0.clusterExtensionId == Some(ExtensionRid(r.1))
    ensures r.0 == cl.(namespace := r.0.namespace, clusterExtensionId := r.0.clusterExtensionId)
  {
    var ext' := ext.(
      name := Some(DefaultExtensionName), namespace := Some(DefaultExtensionNamespace),
      logsGroup := rg.name, logsLocation := Some(rg.location), connectedEnvironmentName := env.name);
    (cl.(namespace := Some(DefaultExtensionNamespace), clusterExtensionId := Some(ExtensionRid(ext'))), ext')
  }

  /** The defaults for a connected environment that does not exist yet, once
      the cluster has been searched: an existing custom location is used as
      it is; otherwise the group and custom location keep the names the user
      gave and get fresh names when none was given, the environment gets a
      default name, and a missing extension the default extension name and
      namespace, bound to the custom location. */
  function FreshConnected(cloud: Cloud, appName: string, rg: ResourceGroup, env: Environment,
                          cl: CustomLocation, ext: Extension, names: Fresh): (r: (ResourceGroup, Environment, CustomLocation, Extension))
    ensures r.1 == env.(name := r.1.name, customLocationId := r.1.customLocationId)
    ensures r.1.customLocationId == Some(CustomLocationRid(cloud.subscription, r.2))
    ensures cl.existing ==> r == (rg, env.(customLocationId := Some(CustomLocationRid(cloud.subscription, cl))), cl, ext)
    ensures !cl.existing ==>
      && r.0 == rg.(name := r.0.name)
      && (rg.name.Some? ==> r.0.name == rg.name)
      && (rg.name.None? ==> r.0.name == Some(names.groupName))
      && r.1.name == (if Truthy(env.name) then env.name else Some(DefaultEnvName(appName)))
      && (cl.name.Some? ==> r.2.name == cl.name)
      && (cl.name.None? ==> r.2.name == Some(names.customLocationName))
      && r.2.resourceGroupName == r.0.name
      && (ext.existing ==> r.3 == ext && r.2.namespace == cl.namespace && r.2.clusterExtensionId == cl.clusterExtensionId)
      && (!ext.existing ==> (r.2, r.3) == DefaultExtension(r.0, r.1, cl.(name := r.2.name, resourceGroupName := r.2.resourceGroupName), ext))
  {
    if cl.existing then (rg, env.(customLocationId := Some(CustomLocationRid(cloud.subscription, cl))), cl, ext)
    else
      var rg' := rg.(name := KeepOrFresh(rg.name, names.groupName));
      var cl' := cl.(name := KeepOrFresh(cl.name, names.customLocationName), resourceGroupName := rg'.name);
      var env' := env.(
        name := if Truthy(env.name) then env.name else Some(DefaultEnvName(appName)),
        customLocationId := Some(CustomLocationRid(cloud.subscription, cl')));
      if ext.existing then (rg', env', cl', ext)
      else
        var (cl'', ext') := DefaultExtension(rg', env', cl', ext);
        (rg', env', cl'', ext')
  }

  /** A name generator's answer when passed `name=`: the given name if there
      is one, the generated one otherwise. */
  function KeepOrFresh(given: Option<string>, generated: string): Option<string> {
    if given.Some? then given else Some(generated)
  }

  /** The last planning step for a connected environment that does not
      exist: search the cluster, then fill in the defaults. */
  function ConnectedDefaults(cloud: Cloud, appName: string, rg: ResourceGroup, env: Environment,
                             cl: CustomLocation, ext: Extension, names: Fresh): (r: Result<(ResourceGroup, Environment, CustomLocation, Extension)>)
    ensures !(IsConnected(env) && !EnvExists(cloud, env, rg)) ==> r == Ok((rg, env, cl, ext))
    ensures r.Ok? ==> IsConnected(r.value.1) == IsConnected(env)
    ensures r.Ok? && IsConnected(r.value.1) && !EnvExists(cloud, r.value.1, r.value.0) ==> r.value.1.customLocationId.Some?
    ensures IsConnected(env) && !EnvExists(cloud, env, rg) ==>
      (r.Err? <==> CustomLocationFromCluster(cloud, cl, ext).Err?)
  {
    if IsConnected(env) && !EnvExists(cloud, env, rg) then
      var (cl', ext') :- CustomLocationFromCluster(cloud, cl, ext);
      Ok(FreshConnected(cloud, appName, rg, env, cl', ext', names))
    else Ok((rg, env, cl, ext))
  }

  // ---------------------------------------------------------------- _set_up_defaults

  /** What the first half of `_set_up_defaults` makes of the group and the
      environment, step by step: the app lookup; the log-analytics lookup
      unless the environment is connected; the managed block; and, when it
      runs, the connected block over the candidates that pass its filters. */
  function SettledEnvironment(cloud: Cloud, name: string, groupArg: Option<string>, logsCustomerId: Option<string>,
                              location: Option<string>, rg: ResourceGroup, env: Environment, cl: CustomLocation)
    : (r: Result<(ResourceGroup, Environment)>)
    ensures AppEnvAndGroup(cloud, name, rg, env, location, cl).Err? ==> r.Err?
    ensures r.Err? ==> r.error.ValidationError? || r.error.RuntimeFault?
  {
    var (rg1, env1) :- AppEnvAndGroup(cloud, name, rg, env, location, cl);
    var (env2, rg2) := if !IsConnected(env1) then EnvFromLogAnalytics(cloud, groupArg, env1, rg1, logsCustomerId, location) else (env1, rg1);
    var (rg3, env3) :- ManagedByName(cloud, rg2, env2, location);
    if ConnectedBlockRuns(rg3, env3) then
      ChooseConnected(cloud, rg3, env3, Filter(ConnectedCandidates(cloud, rg3), ConnectedSel(cloud, env3, location, cl)))
    else Ok((rg3, env3))
  }

  /** The whole of `_set_up_defaults`: the settled group and environment,
      the connected-cluster defaults on top of them, and the registry found
      from the image. */
  function PlanOf(cloud: Cloud, name: string, groupArg: Option<string>, logsCustomerId: Option<string>,
                  location: Option<string>, rg: ResourceGroup, env: Environment, app: ContainerApp,
                  cl: CustomLocation, ext: Extension, names: Fresh): (r: Result<Plan>)
    ensures AppEnvAndGroup(cloud, name, rg, env, location, cl).Err? ==> r.Err?
    ensures AcrFromImage(cloud, app).Err? ==> r.Err?
    ensures r.Ok? ==> Ok(r.value.app) == AcrFromImage(cloud, app)
    ensures r.Ok? ==>
      var settled := SettledEnvironment(cloud, name, groupArg, logsCustomerId, location, rg, env, cl);
      && settled.Ok?
      && Ok((r.value.rg, r.value.env, r.value.cl, r.value.ext))
           == ConnectedDefaults(cloud, name, settled.value.0, settled.value.1, cl, ext, names)
  {
    var (rg1, env1) :- SettledEnvironment(cloud, name, groupArg, logsCustomerId, location, rg, env, cl);
    var (rg2, env2, cl2, ext2) :- ConnectedDefaults(cloud, name, rg1, env1, cl, ext, names);
    var app2 :- AcrFromImage(cloud, app);
    Ok(Plan(rg2, env2, app2, cl2, ext2))
  }

  /** A managed environment found by name settles the group, when the app
      lookup and the log-analytics lookup left the group unnamed: the plan
      puts the app in that environment's group and marks it managed. */
  lemma {:induction false} PlanAdoptsManagedByName(
    cloud: Cloud, name: string, groupArg: Option<string>, logsCustomerId: Option<string>,
    location: Option<string>, rg: ResourceGroup, env: Environment, app: ContainerApp,
    cl: CustomLocation, ext: Extension, names: Fresh, i: nat)
    requires AppEnvAndGroup(cloud, name, rg, env, location, cl) == Ok((rg, env))
    requires !IsConnected(env) && !Truthy(rg.name) && Truthy(env.name)
    requires EnvFromLogAnalytics(cloud, groupArg, env, rg, logsCustomerId, location) == (env, rg)
    requires i < |cloud.managedEnvironments| && ManagedNameMatch(env.name.value, location, cloud.managedEnvironments[i])
    requires forall j | 0 <= j < |cloud.managedEnvironments| && j != i ::
      !ManagedNameMatch(env.name.value, location, cloud.managedEnvironments[j])
    requires AcrFromImage(cloud, app).Ok?
    ensures var r := PlanOf(cloud, name, groupArg, logsCustomerId, location, rg, env, app, cl, ext, names);
      && r.Ok?
      && r.value.rg == rg.(name := Some(cloud.managedEnvironments[i].id.resourceGroup))
      && r.value.env == env.(resourceType := Some(ManagedEnvironmentType))
      && r.value.cl == cl && r.value.ext == ext
  {
    ManagedByNameUnique(cloud, rg, env, location, i);
    var env3 := env.(resourceType := Some(ManagedEnvironmentType));
    assert !ConnectedBlockRuns(rg.(name := Some(cloud.managedEnvironments[i].id.resourceGroup)), env3);
    assert SettledEnvironment(cloud, name, groupArg, logsCustomerId, location, rg, env, cl)
      == Ok((rg.(name := Some(cloud.managedEnvironments[i].id.resourceGroup)), env3));
  }

  /** The steps that settle the environment and its group: the app lookup,
      the log-analytics lookup, and the managed and connected blocks. */
  method SettleEnvironment(cloud: Cloud, name: string, groupArg: Option<string>, logsCustomerId: Option<string>,
                           location: Option<string>, rg: ResourceGroup, env: Environment, cl: CustomLocation)
    returns (r: Result<(ResourceGroup, Environment)>)
    ensures r == SettledEnvironment(cloud, name, groupArg, logsCustomerId, location, rg, env, cl)
    ensures AppEnvAndGroup(cloud, name, rg, env, location, cl).Err? ==> r.Err?
    ensures r.Err? ==> r.error.ValidationError? || r.error.RuntimeFault?
  {
    var found := AppEnvAndGroup(cloud, name, rg, env, location, cl);
    if found.Err? {
      return Err(found.error);
    }
    var (rg1, env1) := found.value;
    var (env2, rg2) := if !IsConnected(env1) then EnvFromLogAnalytics(cloud, groupArg, env1, rg1, logsCustomerId, location) else (env1, rg1);
    var managed := ManagedByName(cloud, rg2, env2, location);
    if managed.Err? {
      return Err(managed.error);
    }
    var (rg3, env3) := managed.value;
    if ConnectedBlockRuns(rg3, env3) {
      var selected := SelectConnected(cloud, env3, location, cl, ConnectedCandidates(cloud, rg3));
      r := ChooseConnected(cloud, rg3, env3, selected);
    } else {
      r := Ok((rg3, env3));
    }
  }

  /** `_set_up_defaults`. The app changes only through registry detection
      from the image; the custom location and the extension change only for
      a connected environment; and a connected environment that does not
      exist yet always ends up with a custom location to be created on. */
  method SetUpDefaults(cloud: Cloud, name: string, groupArg: Option<string>, logsCustomerId: Option<string>,
                       location: Option<string>, rg: ResourceGroup, env: Environment, app: ContainerApp,
                       cl: CustomLocation, ext: Extension, names: Fresh)
    returns (r: Result<Plan>)
    ensures r == PlanOf(cloud, name, groupArg, logsCustomerId, location, rg, env, app, cl, ext, names)
    ensures AppEnvAndGroup(cloud, name, rg, env, location, cl).Err? ==> r.Err?
    ensures AcrFromImage(cloud, app).Err? ==> r.Err?
    ensures r.Ok? ==> Ok(r.value.app) == AcrFromImage(cloud, app)
    ensures r.Ok? && !IsConnected(r.value.env) ==> r.value.cl == cl && r.value.ext == ext
    ensures r.Ok? && IsConnected(r.value.env) && !EnvExists(cloud, r.value.env, r.value.rg) ==>
      r.value.env.customLocationId.Some?
  {
    var settled := SettleEnvironment(cloud, name, groupArg, logsCustomerId, location, rg, env, cl);
    if settled.Err? {
      return Err(settled.error);
    }
    var defaults := ConnectedDefaults(cloud, name, settled.value.0, settled.value.1, cl, ext, names);
    if defaults.Err? {
      return Err(defaults.error);
    }
    var app' := AcrFromImage(cloud, app);
    if app'.Err? {
      return Err(app'.error);
    }
    var (rg', env', cl', ext') := defaults.value;
    return Ok(Plan(rg', env', app'.value, cl', ext'));
  }
}

=== FILE: registry.dfy ===
/** Container registry helpers of `_up_utils.py`: registry names from URLs and
    servers, the default registry name, and the choice of registry for an app.

    The registry service is the `registries` inventory of the `Cloud`;
    `_get_acr_cred` and `acr_show` succeed exactly when the registry is in it
    (and, for credentials, has its admin user enabled).
 */
module Registry {

  import opened Common
  import opened Text
  import opened Inventory
  import opened Descriptors
  import opened Seqs
  import opened Urls

  /** `ACR_IMAGE_SUFFIX` (`_constants.py` is not part of this model). */
  const AcrSuffix: string := ".azurecr.io"
  /** The substring the code tests for to recognise an Azure registry. */
  const AcrDomain: string := "azurecr.io"

  // ---------------------------------------------------------------- registry names

  /** `(parsed.netloc if parsed.scheme else parsed.path).split(".")[0]` of
      `parsed = urlparse(url)`: the text before the first '.' of the host a
      URL with a scheme names, or of the path of one without. `urlparse`
      raises ValueError on an unmatched bracket in a network location. */
  function RegistryNameOf(url: string): (r: Result<string>)
    ensures r.Err? <==> UrlSplit(url).Err?
    ensures r.Err? ==> r.error == RuntimeFault("ValueError: Invalid IPv6 URL") && ('[' in url || ']' in url)
    ensures '[' !in url && ']' !in url ==> r.Ok?
    ensures r.Ok? ==> '.' !in r.value && IsPrefix(r.value, UrlHost(url).value)
  {
    UrlSplitFaults(url);
    var host :- UrlHost(url);
    Ok(BeforeFirst(host, '.'))
  }

  /** The registry name of a bare login server is the part before the suffix. */
  lemma RegistryNameOfServer(name: string)
    requires forall i | 0 <= i < |name| :: IsAlnumChar(name[i])
    ensures RegistryNameOf(name + AcrSuffix) == Ok(name)
  {
    ServerChars(name);
    PlainPath(name + AcrSuffix);
    RegistryNameOfServerHost(name);
  }

  /** A login server is made of name characters. */
  lemma ServerChars(name: string)
    requires forall i | 0 <= i < |name| :: IsAlnumChar(name[i])
    ensures forall i | 0 <= i < |name + AcrSuffix| :: IsNameChar((name + AcrSuffix)[i])
  {
    var s := name + AcrSuffix;
    forall i | 0 <= i < |s| ensures IsNameChar(s[i]) {
      if i < |name| {
        assert IsAlnumChar(name[i]);
      } else {
        assert s[i] == AcrSuffix[i - |name|];
      }
    }
  }

  lemma ServerRegroup(name: string)
    ensures "https://" + name + AcrSuffix + "/" == "https://" + (name + AcrSuffix) + "/"
    ensures "//" + name + AcrSuffix == "//" + (name + AcrSuffix) + ""
    ensures "//[" + name + AcrSuffix == "//[" + (name + AcrSuffix)
  {
  }

  /** A text ending in the suffix holds the Azure registry domain. */
  lemma SuffixIsAzure(s: string)
    requires EndsWith(s, AcrSuffix)
    ensures Contains(s, AcrDomain)
  {
    var i := |s| - |AcrDomain|;
    assert s[i..] == AcrDomain;
    ContainsIff(s, AcrDomain);
  }

  /** Login servers, with or without a leading `//`, are Azure registries. */
  lemma ServerIsAzure(name: string)
    ensures Contains(name + AcrSuffix, AcrDomain)
    ensures Contains("//" + name + AcrSuffix, AcrDomain)
  {
    assert EndsWith(name + AcrSuffix, AcrSuffix);
    SuffixIsAzure(name + AcrSuffix);
    assert EndsWith("//" + name + AcrSuffix, AcrSuffix);
    SuffixIsAzure("//" + name + AcrSuffix);
  }

  lemma ImageRegroup(name: string, repo: string)
    ensures "//" + name + AcrSuffix + "/" + repo == "//" + (name + AcrSuffix) + ("/" + repo)
  {
  }

  /** A URL with a scheme takes the registry name from its host. */
  lemma RegistryNameOfUrl(name: string)
    requires forall i | 0 <= i < |name| :: IsAlnumChar(name[i])
    ensures RegistryNameOf("https://" + name + AcrSuffix + "/") == Ok(name)
  {
    ServerChars(name);
    HttpsHost(name + AcrSuffix);
    ServerRegroup(name);
    RegistryNameOfServerHost(name);
  }

  /** A server written `//NAME.azurecr.io` without a scheme is all network
      location and no path, so the registry name is empty. */
  lemma RegistryNameOfNetlocOnly(name: string)
    requires forall i | 0 <= i < |name| :: IsAlnumChar(name[i])
    ensures RegistryNameOf("//" + name + AcrSuffix) == Ok("")
  {
    ServerChars(name);
    ServerRegroup(name);
    NetlocWithoutScheme(name + AcrSuffix, "");
  }

  /** `/REPO` is a path without '.'. */
  lemma RepoPath(repo: string)
    requires forall i | 0 <= i < |repo| :: IsAlnumChar(repo[i])
    ensures PathText("/" + repo) && '.' !in "/" + repo
  {
    var path := "/" + repo;
    forall i | 0 <= i < |path| ensures path[i] == '/' || IsAlnumChar(path[i]) {
      if i > 0 { assert path[i] == repo[i - 1]; }
    }
  }

  /** An image written `//NAME.azurecr.io/REPO` without a scheme is named by
      its path, not by its registry. */
  lemma RegistryNameOfNetlocImage(name: string, repo: string)
    requires forall i | 0 <= i < |name| :: IsAlnumChar(name[i])
    requires forall i | 0 <= i < |repo| :: IsAlnumChar(repo[i])
    ensures RegistryNameOf("//" + name + AcrSuffix + "/" + repo) == Ok("/" + repo)
  {
    ServerChars(name);
    RepoPath(repo);
    ImageRegroup(name, repo);
    NetlocWithoutScheme(name + AcrSuffix, "/" + repo);
  }

  /** A server with an unmatched '[' makes `urlparse` raise ValueError. */
  lemma RegistryNameOfBracket(name: string)
    requires forall i | 0 <= i < |name| :: IsAlnumChar(name[i])
    ensures RegistryNameOf("//[" + name + AcrSuffix) == Err(RuntimeFault("ValueError: Invalid IPv6 URL"))
  {
    ServerChars(name);
    ServerRegroup(name);
    UnmatchedBracketFaults(name + AcrSuffix);
  }

  lemma RegistryNameOfServerHost(name: string)
    requires forall i | 0 <= i < |name| :: IsAlnumChar(name[i])
    ensures BeforeFirst(name + AcrSuffix, '.') == name
  {
    var s := name + AcrSuffix;
    assert s == name + ['.'] + AcrSuffix[1..];
    assert '.' !in name by {
      forall i | 0 <= i < |name| ensures name[i] != '.' {
        assert IsAlnumChar(name[i]);
      }
    }
    FirstIndexAfter(name, '.', AcrSuffix[1..]);
    assert s[..|name|] == name;
  }

  // ---------------------------------------------------------------- rindex

  /** `pat` occurs in `s` starting at `j`. */
  predicate OccursAt(s: string, pat: string, j: int) {
    0 <= j && j + |pat| <= |s| && s[j..j + |pat|] == pat
  }

  /** The start of the last occurrence of `pat` in `s`, as `str.rindex`. */
  function RIndex(s: string, pat: string): (r: Option<nat>)
    requires |pat| > 0
    ensures r.Some? ==> OccursAt(s, pat, r.value)
    ensures r.Some? ==> forall j | r.value < j :: !OccursAt(s, pat, j)
    ensures r.None? ==> forall j :: !OccursAt(s, pat, j)
    decreases |s|
  {
    if |s| < |pat| then None
    else if s[|s| - |pat|..] == pat then Some(|s| - |pat|)
    else
      var r := RIndex(s[..|s| - 1], pat);
      assert forall j | OccursAt(s, pat, j) :: OccursAt(s[..|s| - 1], pat, j) by {
        forall j | OccursAt(s, pat, j) ensures OccursAt(s[..|s| - 1], pat, j) {
          assert j != |s| - |pat|;
          assert s[..|s| - 1][j..j + |pat|] == s[j..j + |pat|];
        }
      }
      assert forall j | OccursAt(s[..|s| - 1], pat, j) :: OccursAt(s, pat, j) by {
        forall j | OccursAt(s[..|s| - 1], pat, j) ensures OccursAt(s, pat, j) {
          assert s[..|s| - 1][j..j + |pat|] == s[j..j + |pat|];
        }
      }
      r
  }

  /** `server[:server.rindex(ACR_IMAGE_SUFFIX)]`, with Python's ValueError
      when the suffix is absent. */
  function NameBeforeSuffix(server: string): (r: Result<string>)
    ensures r.Ok? <==> RIndex(server, AcrSuffix).Some?
    ensures r.Ok? ==> IsPrefix(r.value + AcrSuffix, server)
    ensures r.Ok? ==> forall j | |r.value| < j :: !OccursAt(server, AcrSuffix, j)
  {
    match RIndex(server, AcrSuffix)
    case None => Err(RuntimeFault("ValueError: substring not found"))
    case Some(i) => Ok(server[..i])
  }

  /** Appending the suffix to a registry name and cutting it off again gives
      the name back, whatever the name holds. */
  lemma NameBeforeSuffixRoundTrip(name: string)
    ensures NameBeforeSuffix(name + AcrSuffix) == Ok(name)
  {
    var s := name + AcrSuffix;
    assert s[|s| - |AcrSuffix|..] == AcrSuffix;
    assert s[..|name|] == name;
  }

  // ---------------------------------------------------------------- default name

  predicate IsHexChar(c: char) {
    IsDigit(c) || 'a' <= c <= 'f'
  }

  /** A sha256 `hexdigest()`: 64 lower-case hex characters. */
  type HexDigest = s: string | |s| == 64 && forall i | 0 <= i < |s| :: IsHexChar(s[i])
    witness seq(64, _ => '0')

  /** `_get_default_registry_name`: `sha256` is the parameter `hash`; the
      hashed text is `{subscription}/{env group}/{env name}`. */
  function DefaultRegistryName(subscription: string, envGroup: Option<string>, envName: Option<string>, hash: string -> HexDigest): (name: string)
    ensures |name| == 15
    ensures name[..2] == "ca" && name[12..] == "acr"
    ensures name[2..12] == hash(subscription + "/" + PyStr(envGroup) + "/" + PyStr(envName))[..10]
    ensures forall i | 0 <= i < |name| :: IsLower(name[i]) || IsDigit(name[i])
  {
    var digest := hash(subscription + "/" + PyStr(envGroup) + "/" + PyStr(envName));
    var name := "ca" + digest[..10] + "acr";
    assert forall i | 2 <= i < 12 :: name[i] == digest[i - 2];
    name
  }

  function DefaultRegistryNameOf(cloud: Cloud, app: ContainerApp, env: Environment, rg: ResourceGroup, hash: string -> HexDigest): string {
    DefaultRegistryName(cloud.subscription, GroupOf(env, rg).name, env.name, hash)
  }

  // ---------------------------------------------------------------- lookups

  const MissingCredentials: string :=
    "Failed to retrieve credentials for container registry. Please provide the registry username and password"

  /** `_get_acr_cred`: user, password and resource group of a registry. */
  function AcrCredentials(cloud: Cloud, registryName: string): (r: Result<(string, string, string)>)
    ensures r.Ok? <==> GetRegistry(cloud, registryName).Some? && GetRegistry(cloud, registryName).value.credentials.Some?
    ensures r.Err? ==> r.error.RequiredArgumentMissing?
  {
    match GetRegistry(cloud, registryName)
    case Some(reg) =>
      if reg.credentials.Some? then Ok((reg.credentials.value.0, reg.credentials.value.1, reg.resourceGroup))
      else Err(RequiredArgumentMissing(MissingCredentials))
    case None => Err(RequiredArgumentMissing(MissingCredentials))
  }

  /** `_get_acr_rg`: the resource group of the registry named by the server. */
  function AcrGroup(cloud: Cloud, server: string): (r: Result<string>)
    ensures r.Ok? ==>
      && NameBeforeSuffix(server).Ok? && GetRegistry(cloud, NameBeforeSuffix(server).value).Some?
      && r.value == GetRegistry(cloud, NameBeforeSuffix(server).value).value.resourceGroup
    ensures NameBeforeSuffix(server).Ok? && GetRegistry(cloud, NameBeforeSuffix(server).value).Some? ==> r.Ok?
  {
    var name :- NameBeforeSuffix(server);
    match GetRegistry(cloud, name)
    case Some(reg) => Ok(reg.resourceGroup)
    case None => Err(ResourceNotFound("The resource with name '" + name + "' could not be found"))
  }

  /** `find_existing_acr`: the default-named registry, if it exists; finding
      it clears `should_create_acr`. */
  function FindExistingAcr(cloud: Cloud, app: ContainerApp, env: Environment, rg: ResourceGroup, hash: string -> HexDigest): (r: (ContainerApp, Option<(string, string)>))
    ensures var reg := GetRegistry(cloud, DefaultRegistryNameOf(cloud, app, env, rg, hash));
      && (r.1.Some? <==> reg.Some?)
      && (r.1.Some? ==> r.1.value == (reg.value.name, reg.value.resourceGroup) && r.0 == app.(shouldCreateAcr := false))
      && (r.1.None? ==> r.0 == app)
  {
    match GetRegistry(cloud, DefaultRegistryNameOf(cloud, app, env, rg, hash))
    case Some(reg) => (app.(shouldCreateAcr := false), Some((reg.name, reg.resourceGroup)))
    case None => (app, None)
  }

  /** `_set_acr_creds`: fill in the credentials and return the registry's group. */
  function SetAcrCreds(cloud: Cloud, app: ContainerApp, registryName: string): (r: Result<(ContainerApp, string)>)
    ensures r.Ok? <==> AcrCredentials(cloud, registryName).Ok?
    ensures r.Ok? ==> var (user, pass, group) := AcrCredentials(cloud, registryName).value;
      r.value == (app.(registryUser := Some(user), registryPass := Some(pass)), group)
  {
    var (user, pass, group) :- AcrCredentials(cloud, registryName);
    Ok((app.(registryUser := Some(user), registryPass := Some(pass)), group))
  }

  /** `_get_registry_details` for an app with a registry server: the server
      must be an Azure registry when building from source; the registry is
      named from the server, and the credentials are looked up unless both
      were given. */
  function RegistryDetailsGiven(cloud: Cloud, app: ContainerApp, source: Option<string>): (r: Result<ContainerApp>)
    requires Truthy(app.registryServer)
    ensures !Contains(app.registryServer.value, AcrDomain) && Truthy(source) ==> r.Err? && r.error.ValidationError?
    ensures !(!Contains(app.registryServer.value, AcrDomain) && Truthy(source)) && RegistryNameOf(app.registryServer.value).Err? ==>
      r == Err(RuntimeFault("ValueError: Invalid IPv6 URL"))
    ensures r.Ok? ==>
      && RegistryNameOf(app.registryServer.value).Ok?
      && r.value.registryServer == app.registryServer
      && r.value.shouldCreateAcr == app.shouldCreateAcr
      && r.value.acr.Some? && r.value.acr.value.name == RegistryNameOf(app.registryServer.value).value
      && r.value.registryUser.Some? == (app.registryUser.Some? || AcrCredentials(cloud, r.value.acr.value.name).Ok?)
    ensures (app.registryUser.None? || app.registryPass.None?) && !(!Contains(app.registryServer.value, AcrDomain) && Truthy(source))
            && RegistryNameOf(app.registryServer.value).Ok? ==>
      var name := RegistryNameOf(app.registryServer.value).value;
      var creds := AcrCredentials(cloud, name);
      && (r.Ok? <==> creds.Ok?)
      && (r.Ok? ==> r.value == app.(registryUser := Some(creds.value.0), registryPass := Some(creds.value.1),
                                    acr := Some(Acr(name, NewResourceGroup(cloud, Some(creds.value.2), None)))))
    ensures app.registryUser.Some? && app.registryPass.Some? && !(!Contains(app.registryServer.value, AcrDomain) && Truthy(source))
            && RegistryNameOf(app.registryServer.value).Ok? ==>
      var server := app.registryServer.value;
      && (r.Ok? <==> AcrGroup(cloud, server).Ok?)
      && (r.Ok? ==> r.value == app.(acr := Some(Acr(RegistryNameOf(server).value, NewResourceGroup(cloud, Some(AcrGroup(cloud, server).value), None)))))
  {
    var server := app.registryServer.value;
    if !Contains(server, AcrDomain) && Truthy(source) then
      Err(ValidationError("Cannot supply non-Azure registry when using --source."))
    else
      var name :- RegistryNameOf(server);
      if app.registryUser.None? || app.registryPass.None? then
        var (app', group) :- SetAcrCreds(cloud, app, name);
        Ok(app'.(acr := Some(Acr(name, NewResourceGroup(cloud, Some(group), None)))))
      else
        var group :- AcrGroup(cloud, server);
        Ok(app.(acr := Some(Acr(name, NewResourceGroup(cloud, Some(group), None)))))
  }

  /** `_get_registry_details` for an app without a registry server: an
      existing default-named registry is reused, otherwise a new one is
      planned in the app's resource group. */
  function RegistryDetailsDefault(
    cloud: Cloud, app: ContainerApp, env: Environment, rg: ResourceGroup, hash: string -> HexDigest): (r: Result<ContainerApp>)
    ensures var name := DefaultRegistryNameOf(cloud, app, env, rg, hash);
      var reg := GetRegistry(cloud, name);
      && (reg.None? || reg.value.resourceGroup == "" ==>
            r == Ok(app.(registryServer := Some(name + AcrSuffix), shouldCreateAcr := true,
                         acr := Some(Acr(name, NewResourceGroup(cloud, rg.name, None))))))
      && (reg.Some? && reg.value.resourceGroup != "" ==>
            (r.Ok? <==> reg.value.credentials.Some?)
            && (r.Ok? ==>
                  && r.value.registryServer == Some(name + AcrSuffix)
                  && !r.value.shouldCreateAcr
                  && r.value.registryUser == Some(reg.value.credentials.value.0)
                  && r.value.registryPass == Some(reg.value.credentials.value.1)
                  && r.value.acr == Some(Acr(name, NewResourceGroup(cloud, Some(reg.value.resourceGroup), None)))))
  {
    var (app1, found) := FindExistingAcr(cloud, app, env, rg, hash);
    if found.Some? && found.value.0 != "" && found.value.1 != "" then
      var (name, group) := found.value;
      var (app2, _) :- SetAcrCreds(cloud, app1, name);
      Ok(app2.(registryServer := Some(name + AcrSuffix), acr := Some(Acr(name, NewResourceGroup(cloud, Some(group), None)))))
    else
      var name := DefaultRegistryNameOf(cloud, app1, env, rg, hash);
      Ok(app1.(registryServer := Some(name + AcrSuffix), shouldCreateAcr := true,
               acr := Some(Acr(name, NewResourceGroup(cloud, rg.name, None)))))
  }

  /** `_get_registry_details`: on success the app always has a registry
      server and a planned registry; a given server is kept, and a new
      registry is planned only when no server was given. */
  function GetRegistryDetails(
    cloud: Cloud, app: ContainerApp, env: Environment, rg: ResourceGroup,
    source: Option<string>, hash: string -> HexDigest): (r: Result<ContainerApp>)
    ensures r.Ok? ==> r.value.registryServer.Some? && r.value.acr.Some?
    ensures r.Ok? && Truthy(app.registryServer) ==>
      r.value.registryServer == app.registryServer && r.value.shouldCreateAcr == app.shouldCreateAcr
      && RegistryNameOf(app.registryServer.value) == Ok(r.value.acr.value.name)
    ensures r.Ok? && !Truthy(app.registryServer) ==>
      && r.value.registryServer == Some(DefaultRegistryNameOf(cloud, app, env, rg, hash) + AcrSuffix)
      && r.value.acr.value.name == DefaultRegistryNameOf(cloud, app, env, rg, hash)
    ensures r.Err? ==> Truthy(app.registryServer) || GetRegistry(cloud, DefaultRegistryNameOf(cloud, app, env, rg, hash)).Some?
    ensures Truthy(app.registryServer) && Contains(app.registryServer.value, AcrDomain) && RegistryNameOf(app.registryServer.value).Err? ==>
      r == Err(RuntimeFault("ValueError: Invalid IPv6 URL"))
  {
    if Truthy(app.registryServer) then RegistryDetailsGiven(cloud, app, source)
    else RegistryDetailsDefault(cloud, app, env, rg, hash)
  }

  /** A planned registry is found again by the name creation will give it:
      `create_acr` cuts the suffix off the planned server and gets the
      default name back. */
  lemma PlannedRegistryNameRecovered(
    cloud: Cloud, app: ContainerApp, env: Environment, rg: ResourceGroup,
    source: Option<string>, hash: string -> HexDigest)
    requires !Truthy(app.registryServer)
    requires GetRegistry(cloud, DefaultRegistryNameOf(cloud, app, env, rg, hash)).None?
    ensures var r := GetRegistryDetails(cloud, app, env, rg, source, hash);
      r.Ok? && r.value.shouldCreateAcr && r.value.registryServer.Some?
      && NameBeforeSuffix(r.value.registryServer.value) == Ok(r.value.acr.value.name)
  {
    NameBeforeSuffixRoundTrip(DefaultRegistryNameOf(cloud, app, env, rg, hash));
  }

  /** `_get_acr_from_image`: an image on an Azure registry names the
      registry server (its first path segment) and the registry. */
  function AcrFromImage(cloud: Cloud, app: ContainerApp): (r: Result<ContainerApp>)
    ensures !(app.image.Some? && Contains(app.image.value, AcrDomain)) ==> r == Ok(app)
    ensures app.image.Some? && Contains(app.image.value, AcrDomain) && RegistryNameOf(app.image.value).Err? ==>
      r == Err(RuntimeFault("ValueError: Invalid IPv6 URL"))
    ensures app.image.Some? && Contains(app.image.value, AcrDomain) && r.Ok? ==>
      && RegistryNameOf(app.image.value).Ok?
      && r.value.registryServer == Some(BeforeFirst(app.image.value, '/'))
      && r.value.acr.Some? && r.value.acr.value.name == RegistryNameOf(app.image.value).value
      && r.value.registryUser.Some? && r.value.registryPass.Some?
    ensures app.image.Some? && Contains(app.image.value, AcrDomain) && (app.registryUser.None? || app.registryPass.None?)
            && RegistryNameOf(app.image.value).Ok? ==>
      var name := RegistryNameOf(app.image.value).value;
      && (r.Ok? <==> AcrCredentials(cloud, name).Ok?)
      && (r.Ok? ==> var (user, pass, group) := AcrCredentials(cloud, name).value;
            r.value == app.(registryServer := Some(BeforeFirst(app.image.value, '/')),
                            registryUser := Some(user), registryPass := Some(pass),
                            acr := Some(Acr(name, NewResourceGroup(cloud, Some(group), None)))))
    ensures app.image.Some? && Contains(app.image.value, AcrDomain) && app.registryUser.Some? && app.registryPass.Some?
            && RegistryNameOf(app.image.value).Ok? ==>
      var server := BeforeFirst(app.image.value, '/');
      && (r.Ok? <==> AcrGroup(cloud, server).Ok?)
      && (r.Ok? ==> r.value == app.(registryServer := Some(server),
                                    acr := Some(Acr(RegistryNameOf(app.image.value).value, NewResourceGroup(cloud, Some(AcrGroup(cloud, server).value), None)))))
  {
    if app.image.Some? && Contains(app.image.value, AcrDomain) then
      var app1 := app.(registryServer := Some(BeforeFirst(app.image.value, '/')));
      var name :- RegistryNameOf(app.image.value);
      if app1.registryUser.None? || app1.registryPass.None? then
        var (user, pass, group) :- AcrCredentials(cloud, name);
        Ok(app1.(registryUser := Some(user), registryPass := Some(pass),
                 acr := Some(Acr(name, NewResourceGroup(cloud, Some(group), None)))))
      else
        var group :- AcrGroup(cloud, app1.registryServer.value);
        Ok(app1.(acr := Some(Acr(name, NewResourceGroup(cloud, Some(group), None)))))
    else Ok(app)
  }

  /** The server of the app's registry `next(...)` finds, or `None` where
      `next` raises StopIteration because no container has the app's name. */
  function ImageServer(containers: seq<Container>, appName: string): (r: Option<string>)
    ensures r.Some? <==> exists i | 0 <= i < |containers| :: Lower(containers[i].name) == Lower(appName)
    ensures r.Some? ==> exists i | 0 <= i < |containers| ::
      && Lower(containers[i].name) == Lower(appName)
      && r.value == BeforeFirst(containers[i].image, '/')
      && forall j | 0 <= j < i :: Lower(containers[j].name) != Lower(appName)
  {
    match FirstWhere(containers, (c: Container) => Lower(c.name) == Lower(appName))
    case None => None
    case Some(c) => Some(BeforeFirst(c.image, '/'))
  }

  /** `_get_registry_from_app`: a single existing registry (an Azure one when
      building from source) is reused; among several, the one serving the
      app's own container image is taken if there is one. */
  function RegistryFromApp(cloud: Cloud, app: ContainerApp, rg: ResourceGroup, source: Option<string>): (r: Result<ContainerApp>)
    ensures var found := if rg.name.Some? then GetApp(cloud, rg.name.value, app.name) else None;
      && (found.None? ==> r == Ok(app))
      && (found.Some? ==>
            var servers := if Truthy(source) then Filter(found.value.registryServers, IsAcrServer) else found.value.registryServers;
            && (|servers| == 0 ==> r == Ok(app))
            && (|servers| == 1 ==> r == Ok(app.(registryServer := Some(servers[0]))))
            && (|servers| > 1 ==>
                  (r.Ok? <==> ImageServer(found.value.containers, app.name).Some?)
                  && (r.Ok? ==> var img := ImageServer(found.value.containers, app.name).value;
                        r.value == (if img in servers then app.(registryServer := Some(img)) else app))))
  {
    var found := if rg.name.Some? then GetApp(cloud, rg.name.value, app.name) else None;
    match found
    case None => Ok(app)
    case Some(def) =>
      var servers := if Truthy(source) then Filter(def.registryServers, IsAcrServer) else def.registryServers;
      if |servers| == 1 then Ok(app.(registryServer := Some(servers[0])))
      else if |servers| > 1 then
        match ImageServer(def.containers, app.name)
        case None => Err(RuntimeFault("StopIteration"))
        case Some(img) => Ok(if img in servers then app.(registryServer := Some(img)) else app)
      else Ok(app)
  }

  predicate IsAcrServer(server: string) {
    Contains(server, AcrSuffix)
  }

  // ---------------------------------------------------------------- ACR creation and build

  /** The location `create_acr` picks: the environment's, unless absent or the
      staging region. */
  function AcrLocation(env: Environment): (loc: string)
    ensures Lower(loc) != StagingRegion
    ensures Truthy(env.location) && Lower(env.location.value) != StagingRegion ==> loc == env.location.value
  {
    if Truthy(env.location) && Lower(env.location.value) != StagingRegion then env.location.value
    else FallbackRegion
  }

  /** What `create_acr` asks the registry service for. */
  datatype AcrCreation = AcrCreation(name: string, group: Option<string>, location: string)

  /** `create_acr_if_needed` up to the create call: the registry name comes
      from the planned server and the group is the app's. */
  function AcrCreateRequest(app: ContainerApp, env: Environment, rg: ResourceGroup): (r: Result<Option<AcrCreation>>)
    ensures !app.shouldCreateAcr ==> r == Ok(None)
    ensures app.shouldCreateAcr && app.registryServer.Some? ==>
      (r.Ok? <==> NameBeforeSuffix(app.registryServer.value).Ok?)
      && (r.Ok? ==> r.value == Some(AcrCreation(NameBeforeSuffix(app.registryServer.value).value, rg.name, AcrLocation(env))))
  {
    if !app.shouldCreateAcr then Ok(None)
    else if app.registryServer.None? then Err(RuntimeFault("AttributeError: 'NoneType' object has no attribute 'rindex'"))
    else
      var name :- NameBeforeSuffix(app.registryServer.value);
      Ok(Some(AcrCreation(name, rg.name, AcrLocation(env))))
  }

  /** The characters `run_acr_build` drops from `str(datetime.now())`. */
  predicate TimestampDropped(c: char) {
    c == ' ' || c == '-' || c == '.' || c == ':'
  }

  /** `run_acr_build`'s image name: the registry server, a slash, the image
      (or the app name) and a tag made of the timestamp with its separators
      removed; `now` stands for `str(datetime.now())`. */
  function BuildImageName(app: ContainerApp, now: string): (r: Result<string>)
    ensures r.Ok? <==> app.registryServer.Some?
    ensures r.Ok? ==>
      var base := if app.image.Some? then app.image.value else app.name;
      r.value == app.registryServer.value + "/" + base + ":" + BuildTag(now)
  {
    if app.registryServer.None? then Err(RuntimeFault("TypeError: unsupported operand type(s) for +"))
    else
      var base := if app.image.Some? then app.image.value else app.name;
      Ok(app.registryServer.value + "/" + base + ":" + BuildTag(now))
  }

  /** The tag: `now` with spaces, dashes, dots and colons removed. */
  function BuildTag(now: string): (tag: string)
    ensures forall i | 0 <= i < |tag| :: !TimestampDropped(tag[i])
    ensures forall c | c in now && !TimestampDropped(c) :: c in tag
    ensures forall c | c in tag :: c in now
    ensures tag == Filter(now, (c: char) => !TimestampDropped(c))
  {
    var tag := RemoveChar(RemoveChar(RemoveChar(RemoveChar(now, ' '), '-'), '.'), ':');
    assert forall c | c in now && !TimestampDropped(c) :: c in tag by {
      forall c | c in now && !TimestampDropped(c) ensures c in tag {
        RemoveCharKeeps(now, ' ', c);
        RemoveCharKeeps(RemoveChar(now, ' '), '-', c);
        RemoveCharKeeps(RemoveChar(RemoveChar(now, ' '), '-'), '.', c);
        RemoveCharKeeps(RemoveChar(RemoveChar(RemoveChar(now, ' '), '-'), '.'), ':', c);
      }
    }
    BuildTagIsFilter(now);
    tag
  }

  /** The four removals together keep exactly the characters that are not
      separators, in order. */
  lemma BuildTagIsFilter(now: string)
    ensures RemoveChar(RemoveChar(RemoveChar(RemoveChar(now, ' '), '-'), '.'), ':')
      == Filter(now, (c: char) => !TimestampDropped(c))
  {
    var s1 := RemoveChar(now, ' ');
    var s2 := RemoveChar(s1, '-');
    var s3 := RemoveChar(s2, '.');
    RemoveCharIsFilter(now, ' ');
    RemoveCharIsFilter(s1, '-');
    RemoveCharIsFilter(s2, '.');
    RemoveCharIsFilter(s3, ':');
    FilterConj(now, (x: char) => x != ' ', (x: char) => x != '-', (x: char) => x != ' ' && x != '-');
    FilterConj(now, (x: char) => x != ' ' && x != '-', (x: char) => x != '.', (x: char) => x != ' ' && x != '-' && x != '.');
    FilterConj(now, (x: char) => x != ' ' && x != '-' && x != '.', (x: char) => x != ':', (c: char) => !TimestampDropped(c));
  }

  /** Removing one character keeps every other character present. */
  lemma RemoveCharKeeps(s: string, c: char, d: char)
    requires d in s && d != c
    ensures d in RemoveChar(s, c)
  {
    RemoveCharIsFilter(s, c);
  }

  /** The tag has no separators left, so it is a fixed point of the removal. */
  lemma BuildTagIdempotent(now: string)
    ensures BuildTag(BuildTag(now)) == BuildTag(now)
  {
    var t := BuildTag(now);
    RemoveCharAbsent(t, ' ');
    RemoveCharAbsent(t, '-');
    RemoveCharAbsent(t, '.');
    RemoveCharAbsent(t, ':');
  }
}

=== FILE: resolver.dfy ===
/** Locating an existing app, environment or custom location from partial
    arguments: `_get_app_env_and_group`, `_get_env_and_group_from_log_analytics`,
    `_get_custom_location_and_extension_id_and_location_from_cluster` and
    `check_env_name_on_rg` of `_up_utils.py`.

    Each Python function mutates the descriptors it is handed; here each
    returns the updated descriptors.
 */
module Resolver {

  import opened Common
  import opened Text
  import opened Seqs
  import opened ResourceIds
  import opened Inventory
  import opened Locations
  import opened Descriptors

  /** `CONTAINER_APP_EXTENSION_TYPE` (`_constants.py` is not part of this model). */
  const ContainerAppExtensionType: string := "microsoft.app.environment"

  const NoneSubscriptMessage: string := "TypeError: 'NoneType' object is not subscriptable"

  // ---------------------------------------------------------------- _get_app_env_and_group

  /** What the user has said about the app being looked for. */
  datatype AppQuery = AppQuery(
    name: string,
    envName: Option<string>,
    customLocationId: Option<string>,
    resourceType: Option<string>,
    clusterId: Option<string>,
    location: Option<string>)

  function QueryOf(name: string, env: Environment, location: Option<string>, cl: CustomLocation): AppQuery {
    AppQuery(name, env.name, env.customLocationId, env.resourceType, cl.connectedClusterId, location)
  }

  predicate NameTest(q: AppQuery, c: AppRecord) {
    Lower(c.name) == Lower(q.name)
  }

  predicate EnvNameTest(q: AppQuery, c: AppRecord) {
    Lower(c.environmentId.name) == Lower(q.envName.GetOr(""))
  }

  predicate CustomLocationTest(q: AppQuery, c: AppRecord) {
    c.extendedLocation.Some? && Lower(c.extendedLocation.value) == Lower(q.customLocationId.GetOr(""))
  }

  predicate TypeTest(q: AppQuery, c: AppRecord) {
    Lower(c.environmentId.resourceType) == Lower(q.resourceType.GetOr(""))
  }

  /** `_filter_containerapps_by_connected_cluster_id` for one app that has a
      custom location: it exists and is hosted on the cluster. */
  predicate ClusterTest(cloud: Cloud, q: AppQuery, c: AppRecord) {
    && c.extendedLocation.Some?
    && HostOf(cloud, c.extendedLocation.value).Some?
    && Lower(q.clusterId.GetOr("")) == Lower(HostOf(cloud, c.extendedLocation.value).value)
  }

  predicate LocationTest(q: AppQuery, c: AppRecord) {
    FormatLocation(Some(c.location)) == FormatLocation(q.location)
  }

  /** The tests before the cluster filter. */
  predicate PreClusterMatch(q: AppQuery, c: AppRecord) {
    && NameTest(q, c)
    && (Truthy(q.envName) ==> EnvNameTest(q, c))
    && (if Truthy(q.customLocationId) then CustomLocationTest(q, c)
        else Truthy(q.resourceType) ==> TypeTest(q, c))
  }

  /** Every test an app must pass to be the one the user means, all at once. */
  predicate AppMatches(cloud: Cloud, q: AppQuery, c: AppRecord) {
    && PreClusterMatch(q, c)
    && (Truthy(q.clusterId) ==> ClusterTest(cloud, q, c))
    && (Truthy(q.location) ==> LocationTest(q, c))
  }

  function NameSel(q: AppQuery): AppRecord -> bool { c => NameTest(q, c) }
  function EnvNameSel(q: AppQuery): AppRecord -> bool { c => EnvNameTest(q, c) }
  function CustomLocationSel(q: AppQuery): AppRecord -> bool { c => CustomLocationTest(q, c) }
  function TypeSel(q: AppQuery): AppRecord -> bool { c => TypeTest(q, c) }
  function ClusterSel(cloud: Cloud, q: AppQuery): AppRecord -> bool { c => ClusterTest(cloud, q, c) }
  function LocationSel(q: AppQuery): AppRecord -> bool { c => LocationTest(q, c) }
  function NameAndEnvSel(q: AppQuery): AppRecord -> bool {
    c => NameTest(q, c) && (Truthy(q.envName) ==> EnvNameTest(q, c))
  }
  function PreClusterSel(q: AppQuery): AppRecord -> bool { c => PreClusterMatch(q, c) }
  function UpToClusterSel(cloud: Cloud, q: AppQuery): AppRecord -> bool {
    c => PreClusterMatch(q, c) && (Truthy(q.clusterId) ==> ClusterTest(cloud, q, c))
  }
  function MatchSel(cloud: Cloud, q: AppQuery): AppRecord -> bool { c => AppMatches(cloud, q, c) }

  /** The filters before the cluster filter, applied one after the other. */
  function PreClusterApps(cloud: Cloud, q: AppQuery): seq<AppRecord> {
    var byEnv := FilterWhen(Filter(cloud.apps, NameSel(q)), Truthy(q.envName), EnvNameSel(q));
    if Truthy(q.customLocationId) then Filter(byEnv, CustomLocationSel(q))
    else FilterWhen(byEnv, Truthy(q.resourceType), TypeSel(q))
  }

  /** The chain of filters of `_get_app_env_and_group`. The cluster filter
      reads `extendedLocation` of every app left, so an app in a managed
      environment still in the list at that point makes it fail. */
  function MatchedApps(cloud: Cloud, q: AppQuery): (r: Result<seq<AppRecord>>)
    ensures r.Err? <==>
      Truthy(q.clusterId) && exists i | 0 <= i < |cloud.apps| :: PreClusterMatch(q, cloud.apps[i]) && cloud.apps[i].extendedLocation.None?
    ensures r.Err? ==> r.error.RuntimeFault?
    ensures r.Ok? ==> r.value == Filter(cloud.apps, MatchSel(cloud, q))
  {
    var pre := PreClusterApps(cloud, q);
    PreClusterAppsOneFilter(cloud, q);
    if Truthy(q.clusterId) && exists c | c in pre :: c.extendedLocation.None? then
      Err(RuntimeFault(NoneSubscriptMessage))
    else
      MatchedAppsOneFilter(cloud, q);
      Ok(FilterWhen(FilterWhen(pre, Truthy(q.clusterId), ClusterSel(cloud, q)), Truthy(q.location), LocationSel(q)))
  }

  /** The filters before the cluster filter select what `PreClusterMatch` selects, in order. */
  lemma PreClusterAppsOneFilter(cloud: Cloud, q: AppQuery)
    ensures PreClusterApps(cloud, q) == Filter(cloud.apps, PreClusterSel(q))
  {
    FilterWhenConj(cloud.apps, NameSel(q), Truthy(q.envName), EnvNameSel(q), NameAndEnvSel(q));
    if Truthy(q.customLocationId) {
      FilterConj(cloud.apps, NameAndEnvSel(q), CustomLocationSel(q), PreClusterSel(q));
    } else {
      FilterWhenConj(cloud.apps, NameAndEnvSel(q), Truthy(q.resourceType), TypeSel(q), PreClusterSel(q));
    }
  }

  /** The two filters after the cluster filter complete `AppMatches`. */
  lemma MatchedAppsOneFilter(cloud: Cloud, q: AppQuery)
    ensures
      var byCluster := FilterWhen(Filter(cloud.apps, PreClusterSel(q)), Truthy(q.clusterId), ClusterSel(cloud, q));
      FilterWhen(byCluster, Truthy(q.location), LocationSel(q)) == Filter(cloud.apps, MatchSel(cloud, q))
  {
    FilterWhenConj(cloud.apps, PreClusterSel(q), Truthy(q.clusterId), ClusterSel(cloud, q), UpToClusterSel(cloud, q));
    FilterWhenConj(cloud.apps, UpToClusterSel(cloud, q), Truthy(q.location), LocationSel(q), MatchSel(cloud, q));
  }

  /** The single matching app names the planner's resource group and the
      environment; a connected environment also takes the app's custom
      location, which the app must then have. */
  function AdoptApp(cloud: Cloud, rg: ResourceGroup, env: Environment, app: AppRecord): (r: Result<(ResourceGroup, Environment)>)
    ensures r.Ok? ==>
      && r.value.0 == rg.(name := Some(app.id.resourceGroup))
      && (WellFormed(app.environmentId) ==>
            && r.value.1.name == Some(app.environmentId.name)
            && GroupOf(r.value.1, r.value.0).name == Some(app.environmentId.resourceGroup)
            && r.value.1.resourceType == Some(app.environmentId.resourceType))
      && (IsConnected(r.value.1) ==> r.value.1.customLocationId == app.extendedLocation && app.extendedLocation.Some?)
      && (!IsConnected(r.value.1) ==> r.value.1.customLocationId == env.customLocationId)
    ensures r.Err? ==> r.error.RuntimeFault? && app.extendedLocation.None?
    ensures WellFormed(app.environmentId) ==>
      (r.Err? <==> app.environmentId.resourceType == ConnectedEnvironmentType && app.extendedLocation.None?)
  {
    var rg' := rg.(name := Some(app.id.resourceGroup));
    var env' := EnvSetName(cloud, env, rg', FormatId(app.environmentId));
    assert WellFormed(app.environmentId) ==> ParseId(FormatId(app.environmentId)) == Some(app.environmentId) by {
      if WellFormed(app.environmentId) {
        ParseFormat(app.environmentId);
      }
    }
    if IsConnected(env') then
      if app.extendedLocation.None? then Err(RuntimeFault(NoneSubscriptMessage))
      else Ok((rg', env'.(customLocationId := app.extendedLocation)))
    else Ok((rg', env'))
  }

  const MultipleAppsMessage: string :=
    " on the subscription. Please specify which resource group your Containerapp is in."

  /** `_get_app_env_and_group`: with neither a group name nor an existing
      group, the apps named `name` across the subscription are narrowed by
      the other arguments. One match fixes the group and the environment, two
      or more are an error, none leaves everything as it was. */
  function AppEnvAndGroup(cloud: Cloud, name: string, rg: ResourceGroup, env: Environment,
                          location: Option<string>, cl: CustomLocation): (r: Result<(ResourceGroup, Environment)>)
    ensures Truthy(rg.name) || rg.existing ==> r == Ok((rg, env))
    ensures !Truthy(rg.name) && !rg.existing ==>
      var q := QueryOf(name, env, location, cl);
      var matched := MatchedApps(cloud, q);
      && (matched.Err? ==> r.Err?)
      && (matched.Ok? && |matched.value| == 0 ==> r == Ok((rg, env)))
      && (matched.Ok? && |matched.value| > 1 ==> r.Err? && r.error.ValidationError?)
      && (matched.Ok? && |matched.value| == 1 ==>
            && matched.value[0] in cloud.apps && AppMatches(cloud, q, matched.value[0])
            && r == AdoptApp(cloud, rg, env, matched.value[0]))
  {
    if Truthy(rg.name) || rg.existing then Ok((rg, env))
    else
      var matched :- MatchedApps(cloud, QueryOf(name, env, location, cl));
      if |matched| == 1 then
        assert matched[0] in matched;
        AdoptApp(cloud, rg, env, matched[0])
      else if |matched| > 1 then
        Err(ValidationError("There are multiple containerapps with name " + name + MultipleAppsMessage))
      else Ok((rg, env))
  }

  // ---------------------------------------------------------------- _get_env_and_group_from_log_analytics

  /** A managed environment whose logs go to the given workspace and that is
      in the given location, each test applying only when its argument is given. */
  predicate LogsEnvMatches(logsCustomerId: Option<string>, location: Option<string>, e: ManagedEnvRecord) {
    && (Truthy(logsCustomerId) ==> e.logsCustomerId == logsCustomerId)
    && (Truthy(location) ==> Some(e.location) == location)
  }

  function LogsSel(logsCustomerId: Option<string>): ManagedEnvRecord -> bool {
    (e: ManagedEnvRecord) => e.logsCustomerId == logsCustomerId
  }
  function EnvLocationSel(location: Option<string>): ManagedEnvRecord -> bool {
    (e: ManagedEnvRecord) => Some(e.location) == location
  }
  function LogsEnvSel(logsCustomerId: Option<string>, location: Option<string>): ManagedEnvRecord -> bool {
    (e: ManagedEnvRecord) => LogsEnvMatches(logsCustomerId, location, e)
  }
  function LogsOnlySel(logsCustomerId: Option<string>): ManagedEnvRecord -> bool {
    (e: ManagedEnvRecord) => Truthy(logsCustomerId) ==> e.logsCustomerId == logsCustomerId
  }

  /** The two filters of the lookup are one filter by `LogsEnvMatches`. */
  lemma LogsFiltersOneFilter(envs: seq<ManagedEnvRecord>, logsCustomerId: Option<string>, location: Option<string>)
    ensures FilterWhen(FilterWhen(envs, Truthy(logsCustomerId), LogsSel(logsCustomerId)), Truthy(location), EnvLocationSel(location))
      == Filter(envs, LogsEnvSel(logsCustomerId, location))
  {
    FilterAll(envs, (e: ManagedEnvRecord) => true);
    FilterWhenConj(envs, (e: ManagedEnvRecord) => true, Truthy(logsCustomerId), LogsSel(logsCustomerId), LogsOnlySel(logsCustomerId));
    FilterWhenConj(envs, LogsOnlySel(logsCustomerId), Truthy(location), EnvLocationSel(location), LogsEnvSel(logsCustomerId, location));
  }

  /** Adopting the managed environment `e`: the environment takes its name,
      group and type, and the planner's group takes the environment's group name. */
  function AdoptManagedEnv(cloud: Cloud, env: Environment, rg: ResourceGroup, e: ManagedEnvRecord): (r: (Environment, ResourceGroup))
    ensures WellFormed(e.id) ==>
      && r.0.name == Some(e.id.name)
      && r.1.name == Some(e.id.resourceGroup)
      && GroupOf(r.0, r.1).name == r.1.name
      && r.0.resourceType == Some(e.id.resourceType)
    ensures r.1 == rg.(name := r.1.name)
  {
    assert WellFormed(e.id) ==> ParseId(FormatId(e.id)) == Some(e.id) by {
      if WellFormed(e.id) {
        ParseFormat(e.id);
      }
    }
    var env' := EnvSetName(cloud, env, rg, FormatId(e.id));
    (env', rg.(name := GroupOf(env', rg).name))
  }

  /** `_get_env_and_group_from_log_analytics`: with no environment name, and
      either no group argument or the argument naming the existing planner
      group, the first managed environment (in listing order) that uses the
      given workspace and location is adopted, together with its group. */
  function EnvFromLogAnalytics(cloud: Cloud, groupArg: Option<string>, env: Environment, rg: ResourceGroup,
                               logsCustomerId: Option<string>, location: Option<string>): (r: (Environment, ResourceGroup))
    ensures var searched := !Truthy(env.name) && ((groupArg == rg.name && rg.existing) || !Truthy(groupArg));
      var first: Option<ManagedEnvRecord> := FirstWhere(ListManagedEnvironments(cloud, groupArg), LogsEnvSel(logsCustomerId, location));
      && (!searched || first.None? ==> r == (env, rg))
      && (searched && first.Some? ==>
            && first.value in cloud.managedEnvironments
            && LogsEnvMatches(logsCustomerId, location, first.value)
            && r == AdoptManagedEnv(cloud, env, rg, first.value))
  {
    if !Truthy(env.name) && ((groupArg == rg.name && rg.existing) || !Truthy(groupArg)) then
      var listed := ListManagedEnvironments(cloud, groupArg);
      var envs := FilterWhen(FilterWhen(listed, Truthy(logsCustomerId), LogsSel(logsCustomerId)), Truthy(location), EnvLocationSel(location));
      LogsFiltersOneFilter(listed, logsCustomerId, location);
      FilterFirst(listed, LogsEnvSel(logsCustomerId, location));
      if envs != [] then AdoptManagedEnv(cloud, env, rg, envs[0])
      else (env, rg)
    else (env, rg)
  }

  // ---------------------------------------------------------------- custom location from cluster

  predicate IsAppExtension(e: ExtensionRecord) {
    Lower(e.extensionType) == ContainerAppExtensionType
  }

  /** A custom location bound to the extension `e` in its release namespace. */
  predicate BoundTo(e: ExtensionRecord, c: CustomLocationRecord) {
    e.id in c.clusterExtensionIds && e.releaseNamespace == c.namespace
  }

  /** The Container Apps extension `e` found on the cluster is adopted, and
      so is the first custom location of the cluster bound to it. */
  function AdoptExtension(cloud: Cloud, clusterId: string, cl: CustomLocation, ext: Extension, e: ExtensionRecord): (r: (CustomLocation, Extension))
    ensures r.1 == ext.(existing := true, name := Some(e.name), namespace := Some(e.releaseNamespace))
    ensures r.0.clusterExtensionId == Some(e.id) && r.0.namespace == Some(e.releaseNamespace)
    ensures r.0.connectedClusterId == cl.connectedClusterId
    ensures var bound := FirstWhere(ListCustomLocations(cloud, clusterId), (c: CustomLocationRecord) => BoundTo(e, c));
      && (bound.None? ==> r.0 == cl.(clusterExtensionId := Some(e.id), namespace := Some(e.releaseNamespace)))
      && (bound.Some? ==>
            && BoundTo(e, bound.value)
            && Lower(bound.value.hostResourceId) == Lower(clusterId)
            && r.0.existing && r.0.location == Some(bound.value.location)
            && (WellFormed(bound.value.id) ==>
                  && r.0.name == Some(bound.value.id.name)
                  && r.0.resourceGroupName == Some(bound.value.id.resourceGroup)))
  {
    var ext' := ext.(existing := true, name := Some(e.name), namespace := Some(e.releaseNamespace));
    var withExt := cl.(clusterExtensionId := Some(e.id), namespace := Some(e.releaseNamespace));
    match FirstWhere(ListCustomLocations(cloud, clusterId), (c: CustomLocationRecord) => BoundTo(e, c))
    case None => (withExt, ext')
    case Some(c) =>
      assert c in ListCustomLocations(cloud, clusterId);
      assert WellFormed(c.id) ==> ParseId(FormatId(c.id)) == Some(c.id) by {
        if WellFormed(c.id) {
          ParseFormat(c.id);
        }
      }
      var named := CustomLocationSetName(withExt.(namespace := Some(c.namespace)), FormatId(c.id));
      (named.(location := Some(c.location), existing := true), ext')
  }

  const NoClusterMessage: string :=
    "please specify one of connected-cluster-id or custom location you want to create the Connected environment."

  /** `_get_custom_location_and_extension_id_and_location_from_cluster`: with
      no custom location named, the cluster must be given; it supplies the
      location, and its first Container Apps extension is adopted. */
  function CustomLocationFromCluster(cloud: Cloud, cl: CustomLocation, ext: Extension): (r: Result<(CustomLocation, Extension)>)
    ensures cl.name.Some? ==> r == Ok((cl, ext))
    ensures cl.name.None? && cl.connectedClusterId.None? ==> r.Err? && r.error.ValidationError?
    ensures cl.name.None? && cl.connectedClusterId.Some? ==>
      var cluster := GetCluster(cloud, cl.connectedClusterId.value);
      && (r.Err? <==> cluster.None?)
      && (r.Ok? ==>
            var located := cl.(location := Some(cluster.value.location));
            var found := FirstWhere(cluster.value.extensions, IsAppExtension);
            && (found.None? ==> r.value == (located, ext))
            && (found.Some? ==>
                  && IsAppExtension(found.value)
                  && r.value == AdoptExtension(cloud, cl.connectedClusterId.value, located, ext, found.value)))
  {
    if cl.name.Some? then Ok((cl, ext))
    else if cl.connectedClusterId.None? then
      Err(ValidationError(NoClusterMessage))
    else
      var clusterId := cl.connectedClusterId.value;
      match GetCluster(cloud, clusterId)
      case None => Err(ResourceNotFound("The connected cluster " + clusterId + " was not found."))
      case Some(k) =>
        var located := cl.(location := Some(k.location));
        match FirstWhere(k.extensions, IsAppExtension)
        case None => Ok((located, ext))
        case Some(e) => Ok(AdoptExtension(cloud, clusterId, located, ext, e))
  }

  // ---------------------------------------------------------------- check_env_name_on_rg

  /** The environment `check_env_name_on_rg` looks for: its name, its group
      and whether it is a connected environment. */
  datatype EnvTarget = EnvTarget(name: Option<string>, group: Option<string>, connected: bool)

  /** A resource id names the environment and its group and says its type;
      otherwise a custom location or a cluster makes it connected. */
  function TargetOf(env: Option<string>, groupArg: Option<string>, customLocationId: Option<string>, clusterId: Option<string>): (t: EnvTarget)
    ensures IsIdName(env) ==>
      var id := ParseId(env.value).value;
      t == EnvTarget(Some(id.name), Some(id.resourceGroup), Lower(id.resourceType) == Lower(ConnectedEnvironmentType))
    ensures !IsIdName(env) ==>
      t == EnvTarget(env, groupArg, Truthy(customLocationId) || Truthy(clusterId))
  {
    var (name, group, resourceType) :=
      if IsIdName(env) then
        var id := ParseId(env.value).value;
        (Some(id.name), Some(id.resourceGroup), Some(id.resourceType))
      else (env, groupArg, None);
    var resourceType := if resourceType.None? && (Truthy(customLocationId) || Truthy(clusterId)) then Some(ConnectedEnvironmentType) else resourceType;
    EnvTarget(name, group, Truthy(resourceType) && Lower(ConnectedEnvironmentType) == Lower(resourceType.value))
  }

  /** The check and the descriptor built from the same arguments agree on the
      environment's name and on whether it is connected. */
  lemma TargetAgreesWithDescriptor(cloud: Cloud, env: Option<string>, rg: ResourceGroup, location: Option<string>,
                                   customLocationId: Option<string>, clusterId: Option<string>)
    ensures var t := TargetOf(env, rg.name, customLocationId, clusterId);
      var d := NewEnvironment(cloud, env, rg, location, None, customLocationId, clusterId);
      && t.name == d.name
      && (t.connected <==> IsConnected(d))
      && (t.group.Some? ==> t.group == GroupOf(d, rg).name)
  {
  }

  /** What the check reads of an existing environment. */
  datatype EnvDef = EnvDef(location: string, customLocationId: Option<string>)

  /** `ConnectedEnvironmentClient.show` or `ManagedEnvironmentClient.show`,
      with any failure read as "no environment". */
  function ExistingEnv(cloud: Cloud, t: EnvTarget): (d: Option<EnvDef>)
    requires t.name.Some? && t.group.Some?
    ensures t.connected ==> (d.Some? <==> ConnectedEnvExists(cloud, t.group.value, t.name.value))
    ensures !t.connected ==> (d.Some? <==> ManagedEnvExists(cloud, t.group.value, t.name.value))
    ensures d.Some? && !t.connected ==> d.value.customLocationId.None?
  {
    if t.connected then
      match GetConnectedEnv(cloud, t.group.value, t.name.value)
      case None => None
      case Some(e) => Some(EnvDef(e.location, Some(e.extendedLocation)))
    else
      match GetManagedEnv(cloud, t.group.value, t.name.value)
      case None => None
      case Some(e) => Some(EnvDef(e.location, None))
  }

  /** The arguments agree with the existing environment: the same location
      (compared against its normal form), and for a connected environment
      the same custom location and a custom location hosted on the same cluster. */
  predicate Consistent(cloud: Cloud, t: EnvTarget, d: EnvDef, location: Option<string>,
                       customLocationId: Option<string>, clusterId: Option<string>) {
    && (Truthy(location) ==> location.value == FormatText(d.location))
    && (t.connected && Truthy(customLocationId) ==>
          Lower(d.customLocationId.GetOr("")) == Lower(customLocationId.value))
    && (t.connected && Truthy(clusterId) ==>
          var host := HostOf(cloud, d.customLocationId.GetOr(""));
          host.Some? && Lower(clusterId.value) == Lower(host.value))
  }

  const NoHostMessage: string := "AttributeError: 'NoneType' object has no attribute 'host_resource_id'"
  const LocationChangeMessage: string := ", cannot change location of existing environment."
  const CustomLocationChangeMessage: string := ", cannot change custom location of existing environment."
  const ClusterChangeMessage: string := ", cannot change connected cluster of existing environment."

  /** The checks on an existing environment, in the code's order. */
  function CheckExisting(cloud: Cloud, t: EnvTarget, d: EnvDef, location: Option<string>,
                         customLocationId: Option<string>, clusterId: Option<string>): (r: Outcome)
    ensures r.Pass? <==> Consistent(cloud, t, d, location, customLocationId, clusterId)
    ensures r.Fail? ==> r.error.ValidationError? || r.error.RuntimeFault?
    ensures r.Fail? && r.error.RuntimeFault? ==>
      t.connected && Truthy(clusterId) && HostOf(cloud, d.customLocationId.GetOr("")).None?
  {
    if Truthy(location) && location.value != FormatText(d.location) then
      Fail(ValidationError("Environment already exists on location " + d.location + LocationChangeMessage))
    else if t.connected && Truthy(customLocationId) && Lower(d.customLocationId.GetOr("")) != Lower(customLocationId.value) then
      Fail(ValidationError("Environment already exists with custom location " + d.customLocationId.GetOr("") + CustomLocationChangeMessage))
    else if t.connected && Truthy(clusterId) then
      match HostOf(cloud, d.customLocationId.GetOr(""))
      case None => Fail(RuntimeFault(NoHostMessage))
      case Some(host) =>
        if Lower(clusterId.value) != Lower(host) then
          Fail(ValidationError("Environment already exists on connected cluster " + host + ClusterChangeMessage))
        else Pass
    else Pass
  }

  /** `check_env_name_on_rg`: a given location must be allowed for managed
      environments, and an environment that already exists under the given
      name and group must agree with the location, custom location and
      cluster the user asked for. */
  function CheckEnvNameOnRg(cloud: Cloud, env: Option<string>, groupArg: Option<string>, location: Option<string>,
                            customLocationId: Option<string>, clusterId: Option<string>): (r: Outcome)
    ensures var t := TargetOf(env, groupArg, customLocationId, clusterId);
      r.Pass? <==>
        && (Truthy(location) ==> LocationAllowed(cloud, location.value, Some(ManagedEnvironmentType)))
        && (Truthy(env) && Truthy(t.group) && t.name.Some? && ExistingEnv(cloud, t).Some? ==>
              Consistent(cloud, t, ExistingEnv(cloud, t).value, location, customLocationId, clusterId))
    ensures Truthy(location) && !LocationAllowed(cloud, location.value, Some(ManagedEnvironmentType)) ==>
      r.Fail? && r.error.ValidationError?
  {
    var t := TargetOf(env, groupArg, customLocationId, clusterId);
    if Truthy(location) && !LocationAllowed(cloud, location.value, Some(ManagedEnvironmentType)) then
      Fail(ValidationError("You cannot create a Containerapp environment in location " + location.value))
    else if Truthy(env) && Truthy(t.group) && t.name.Some? then
      match ExistingEnv(cloud, t)
      case None => Pass
      case Some(d) => CheckExisting(cloud, t, d, location, customLocationId, clusterId)
    else Pass
  }
}

=== FILE: resource_ids.dfy ===
/** Azure Resource Manager resource ids.

    The code calls `msrestazure.tools.parse_resource_id`, `is_valid_resource_id`
    and `resource_id`, an external library. This module stands in for it with
    the one id shape the code produces and consumes,
    `/subscriptions/{sub}/resourceGroups/{rg}/providers/{ns}/{type}/{name}`,
    keywords matched case-insensitively as the library does, and proves the
    parse/format round trip the code silently relies on.
 */
module ResourceIds {

  import opened Common
  import opened Text

  datatype ResourceId = ResourceId(
    subscription: string,
    resourceGroup: string,
    namespace: string,
    resourceType: string,
    name: string)

  /** A non-empty id segment without a separator. */
  predicate Segment(s: string) {
    s != "" && '/' !in s
  }

  predicate WellFormed(id: ResourceId) {
    && Segment(id.subscription)
    && Segment(id.resourceGroup)
    && Segment(id.namespace)
    && Segment(id.resourceType)
    && Segment(id.name)
  }

  function Pieces(id: ResourceId): seq<string> {
    ["", "subscriptions", id.subscription, "resourceGroups", id.resourceGroup,
     "providers", id.namespace, id.resourceType, id.name]
  }

  /** The canonical string form of an id. */
  function FormatId(id: ResourceId): string {
    Join(Pieces(id), '/')
  }

  /** `parse_resource_id` restricted to the shape above; `None` for any other string. */
  function ParseId(s: string): (r: Option<ResourceId>)
    ensures r.Some? ==> WellFormed(r.value)
  {
    var p := Split(s, '/');
    if && |p| == 9 && p[0] == ""
       && Lower(p[1]) == "subscriptions"
       && Lower(p[3]) == "resourcegroups"
       && Lower(p[5]) == "providers"
       && p[2] != "" && p[4] != "" && p[6] != "" && p[7] != "" && p[8] != ""
    then Some(ResourceId(p[2], p[4], p[6], p[7], p[8]))
    else None
  }

  /** `is_valid_resource_id`. */
  predicate IsValidId(s: string) {
    ParseId(s).Some?
  }

  lemma KeywordsLower()
    ensures Lower("subscriptions") == "subscriptions"
    ensures Lower("resourceGroups") == "resourcegroups"
    ensures Lower("providers") == "providers"
  {
    assert Lower("resourceGroups")[8] == 'g';
  }

  /** Parsing the formatted form of a well-formed id gives the id back. */
  lemma ParseFormat(id: ResourceId)
    requires WellFormed(id)
    ensures ParseId(FormatId(id)) == Some(id)
  {
    SplitJoin(Pieces(id), '/');
    KeywordsLower();
  }

  /** Formatting a parsed id reproduces the input when its keywords were
      written in the canonical case. */
  lemma FormatParse(s: string)
    requires IsValidId(s)
    requires Split(s, '/')[1] == "subscriptions"
    requires Split(s, '/')[3] == "resourceGroups"
    requires Split(s, '/')[5] == "providers"
    ensures FormatId(ParseId(s).value) == s
  {
    var p := Split(s, '/');
    assert Pieces(ParseId(s).value) == p;
    JoinSplit(s, '/');
  }

  /** `resource_id(subscription=, resource_group=, namespace=, type=, name=)`;
      the library drops arguments that are `None`, so an absent group leaves
      the group segment out. */
  function BuildId(subscription: string, group: Option<string>, namespace: string, resourceType: string, name: string): string {
    if group.Some? then FormatId(ResourceId(subscription, group.value, namespace, resourceType, name))
    else Join(["", "subscriptions", subscription, "providers", namespace, resourceType, name], '/')
  }

  /** `resource_id` called with `name=None`: the library stops after the
      provider namespace, since the type-and-name segment cannot be formed. */
  function ProviderPrefix(subscription: string, group: Option<string>, namespace: string): string {
    if group.Some? then Join(["", "subscriptions", subscription, "resourceGroups", group.value, "providers", namespace], '/')
    else Join(["", "subscriptions", subscription, "providers", namespace], '/')
  }

  /** An id built from separator-free parts names those parts, and without a
      group it is not a valid id. */
  lemma BuildIdParses(subscription: string, group: Option<string>, namespace: string, resourceType: string, name: string)
    requires Segment(subscription) && Segment(namespace) && Segment(resourceType) && Segment(name)
    requires group.Some? ==> Segment(group.value)
    ensures group.Some? ==>
      ParseId(BuildId(subscription, group, namespace, resourceType, name))
        == Some(ResourceId(subscription, group.value, namespace, resourceType, name))
    ensures group.None? ==> !IsValidId(BuildId(subscription, group, namespace, resourceType, name))
  {
    if group.Some? {
      ParseFormat(ResourceId(subscription, group.value, namespace, resourceType, name));
    } else {
      SplitJoin(["", "subscriptions", subscription, "providers", namespace, resourceType, name], '/');
    }
  }
}

=== FILE: seqs.dfy ===
/** List comprehensions and first-match searches over sequences. */
module Seqs {

  import opened Common

  /** `[x for x in s if p(x)]`. */
  function Filter<T>(s: seq<T>, p: T -> bool): (r: seq<T>)
    ensures |r| <= |s|
    ensures forall x | x in r :: x in s && p(x)
    ensures forall x | x in s && p(x) :: x in r
    decreases |s|
  {
    if s == [] then []
    else if p(s[0]) then [s[0]] + Filter(s[1..], p)
    else Filter(s[1..], p)
  }

  /** Filtering twice in a row is filtering once by the conjunction. */
  lemma {:induction false} FilterFilter<T>(s: seq<T>, p: T -> bool, q: T -> bool)
    ensures Filter(Filter(s, p), q) == Filter(s, x => p(x) && q(x))
    decreases |s|
  {
    if s != [] {
      FilterFilter(s[1..], p, q);
      if p(s[0]) {
        assert Filter(s, p) == [s[0]] + Filter(s[1..], p);
        assert Filter(s, p)[1..] == Filter(s[1..], p);
      }
    }
  }

  /** Filtering by pointwise-equivalent predicates gives the same list. */
  lemma {:induction false} FilterCongruent<T>(s: seq<T>, p: T -> bool, q: T -> bool)
    requires forall x | x in s :: p(x) == q(x)
    ensures Filter(s, p) == Filter(s, q)
    decreases |s|
  {
    if s != [] {
      FilterCongruent(s[1..], p, q);
    }
  }

  /** A filter that every element passes keeps the whole list. */
  lemma {:induction false} FilterAll<T>(s: seq<T>, p: T -> bool)
    requires forall i | 0 <= i < |s| :: p(s[i])
    ensures Filter(s, p) == s
    decreases |s|
  {
    if s != [] {
      FilterAll(s[1..], p);
      assert s == [s[0]] + s[1..];
    }
  }

  /** A filter keeps the list in order: the first survivor is the first
      element satisfying the predicate. */
  lemma {:induction false} FilterHead<T>(s: seq<T>, p: T -> bool)
    requires Filter(s, p) != []
    ensures exists i | 0 <= i < |s| :: s[i] == Filter(s, p)[0] && p(s[i]) && forall j | 0 <= j < i :: !p(s[j])
    decreases |s|
  {
    if p(s[0]) {
    } else {
      FilterHead(s[1..], p);
      var i :| 0 <= i < |s[1..]| && s[1..][i] == Filter(s[1..], p)[0] && p(s[1..][i])
        && forall j | 0 <= j < i :: !p(s[1..][j]);
      assert s[i + 1] == Filter(s, p)[0];
      assert forall j | 0 <= j < i + 1 :: !p(s[j]) by {
        forall j | 0 <= j < i + 1
          ensures !p(s[j])
        {
          if j > 0 {
            assert s[j] == s[1..][j - 1];
          }
        }
      }
    }
  }

  /** The index of the first element satisfying `p`, if any. */
  function FirstIndexWhere<T>(s: seq<T>, p: T -> bool): (r: Option<nat>)
    ensures r.Some? ==> r.value < |s| && p(s[r.value])
    ensures r.Some? ==> forall j | 0 <= j < r.value :: !p(s[j])
    ensures r.None? ==> forall j | 0 <= j < |s| :: !p(s[j])
    decreases |s|
  {
    if s == [] then None
    else if p(s[0]) then Some(0)
    else
      match FirstIndexWhere(s[1..], p)
      case None => None
      case Some(i) => Some(i + 1)
  }

  /** The first element satisfying `p`, if any. */
  function FirstWhere<T>(s: seq<T>, p: T -> bool): (r: Option<T>)
    ensures r.Some? <==> exists i | 0 <= i < |s| :: p(s[i])
    ensures r.Some? ==> exists i | 0 <= i < |s| :: s[i] == r.value && p(s[i]) && forall j | 0 <= j < i :: !p(s[j])
  {
    match FirstIndexWhere(s, p)
    case None => None
    case Some(i) => Some(s[i])
  }

  /** `[f(x) for x in s]`. */
  function Map<T, U>(s: seq<T>, f: T -> U): (r: seq<U>)
    ensures |r| == |s|
    ensures forall i | 0 <= i < |s| :: r[i] == f(s[i])
  {
    seq(|s|, i requires 0 <= i < |s| => f(s[i]))
  }

  /** The head of a filtered list is the first element satisfying the filter. */
  lemma FilterFirst<T>(s: seq<T>, p: T -> bool)
    ensures Filter(s, p) != [] <==> FirstWhere(s, p).Some?
    ensures Filter(s, p) != [] ==> Filter(s, p)[0] == FirstWhere(s, p).value
  {
    if Filter(s, p) != [] {
      FilterHead(s, p);
      var i :| 0 <= i < |s| && s[i] == Filter(s, p)[0] && p(s[i]) && forall j | 0 <= j < i :: !p(s[j]);
      var k :| 0 <= k < |s| && s[k] == FirstWhere(s, p).value && p(s[k]) && forall j | 0 <= j < k :: !p(s[j]);
      assert !(i < k) && !(k < i);
    }
  }

  /** Filtering by `p` and then by `q` is filtering once by any predicate
      that is their conjunction on the list. */
  lemma {:induction false} FilterConj<T>(s: seq<T>, p: T -> bool, q: T -> bool, pq: T -> bool)
    requires forall x | x in s :: pq(x) == (p(x) && q(x))
    ensures Filter(Filter(s, p), q) == Filter(s, pq)
    decreases |s|
  {
    if s != [] {
      FilterConj(s[1..], p, q, pq);
      if p(s[0]) {
        assert Filter(s, p) == [s[0]] + Filter(s[1..], p);
        assert Filter(s, p)[1..] == Filter(s[1..], p);
      }
    }
  }

  /** `s` filtered by `p` when `on` holds and left as it is otherwise: the
      `if flag: xs = [x for x in xs if ...]` step of a chain of filters. */
  function FilterWhen<T>(s: seq<T>, on: bool, p: T -> bool): (r: seq<T>)
    ensures on ==> r == Filter(s, p)
    ensures !on ==> r == s
  {
    if on then Filter(s, p) else s
  }

  /** A conditional filter after a filter is one filter by the conjunction. */
  lemma FilterWhenConj<T>(s: seq<T>, p: T -> bool, on: bool, q: T -> bool, pq: T -> bool)
    requires forall x | x in s :: pq(x) == (p(x) && (on ==> q(x)))
    ensures FilterWhen(Filter(s, p), on, q) == Filter(s, pq)
  {
    if on {
      FilterConj(s, p, q, pq);
    } else {
      FilterCongruent(s, p, pq);
    }
  }

  /** Filtering a list extended by one element. */
  lemma {:induction false} FilterSnoc<T>(s: seq<T>, x: T, p: T -> bool)
    ensures Filter(s + [x], p) == Filter(s, p) + (if p(x) then [x] else [])
    decreases |s|
  {
    if s == [] {
      assert s + [x] == [x];
    } else {
      assert (s + [x])[1..] == s[1..] + [x];
      FilterSnoc(s[1..], x, p);
    }
  }

  /** Nothing survives a filter no element satisfies. */
  lemma {:induction false} FilterNone<T>(s: seq<T>, p: T -> bool)
    requires forall j | 0 <= j < |s| :: !p(s[j])
    ensures Filter(s, p) == []
    decreases |s|
  {
    if s != [] {
      FilterNone(s[1..], p);
    }
  }

  /** A list with exactly one element satisfying `p` filters to that element. */
  lemma {:induction false} FilterSingle<T>(s: seq<T>, p: T -> bool, i: nat)
    requires i < |s| && p(s[i])
    requires forall j | 0 <= j < |s| && j != i :: !p(s[j])
    ensures Filter(s, p) == [s[i]]
    decreases |s|
  {
    if i == 0 {
      forall k | 0 <= k < |s[1..]| ensures !p(s[1..][k]) {
        assert s[1..][k] == s[k + 1];
      }
      FilterNone(s[1..], p);
    } else {
      FilterSingle(s[1..], p, i - 1);
    }
  }

  /** Two elements satisfying `p` survive the filter side by side. */
  lemma {:induction false} FilterTwo<T>(s: seq<T>, p: T -> bool, i: nat, j: nat)
    requires i < j < |s| && p(s[i]) && p(s[j])
    ensures |Filter(s, p)| >= 2
    decreases |s|
  {
    if i == 0 {
      assert s[j] == s[1..][j - 1];
      assert s[j] in Filter(s[1..], p);
    } else {
      FilterTwo(s[1..], p, i - 1, j - 1);
    }
  }

  /** One step of a loop that builds `Filter(s, p)` from left to right. */
  lemma FilterPrefixStep<T>(s: seq<T>, i: nat, p: T -> bool, acc: seq<T>, keep: bool)
    requires i < |s| && acc == Filter(s[..i], p) && keep == p(s[i])
    ensures (if keep then acc + [s[i]] else acc) == Filter(s[..i + 1], p)
  {
    FilterSnoc(s[..i], s[i], p);
    assert s[..i + 1] == s[..i] + [s[i]];
  }
}

=== FILE: text.dfy ===
/** String operations of Python's `str` that the modelled code relies on.

    Character classes, `lower()` and `upper()` are modelled on ASCII only;
    `split`, `replace`, `strip`, `in` and slicing follow Python's semantics
    for the single-character and literal patterns the code uses.
 */
module Text {

  import opened Common
  import opened Seqs

  /** The ASCII characters `str.isspace()` accepts, which `str.strip()` and
      `str.rstrip()` remove: space, tab, line feed, vertical tab, form feed,
      carriage return, and the separators U+001C to U+001F. */
  predicate IsSpace(c: char) {
    || c == ' ' || c == '\t' || c == '\n' || c == '\r' || c == '\U{000B}' || c == '\U{000C}'
    || c == '\U{001C}' || c == '\U{001D}' || c == '\U{001E}' || c == '\U{001F}'
  }

  predicate IsUpper(c: char) { 'A' <= c <= 'Z' }
  predicate IsLower(c: char) { 'a' <= c <= 'z' }
  predicate IsDigit(c: char) { '0' <= c <= '9' }
  predicate IsAlpha(c: char) { IsUpper(c) || IsLower(c) }
  predicate IsAlnumChar(c: char) { IsAlpha(c) || IsDigit(c) }

  /** `str.isalnum()`: non-empty and every character a letter or digit. */
  predicate IsAlnum(s: string) {
    |s| > 0 && forall i | 0 <= i < |s| :: IsAlnumChar(s[i])
  }

  function LowerChar(c: char): (r: char)
    ensures !IsUpper(r)
    ensures IsAlpha(c) <==> IsAlpha(r)
    ensures IsDigit(c) <==> IsDigit(r)
    ensures !IsUpper(c) ==> r == c
  {
    if IsUpper(c) then (c as int + 32) as char else c
  }

  function UpperChar(c: char): (r: char)
    ensures !IsLower(r)
    ensures !IsLower(c) ==> r == c
  {
    if IsLower(c) then (c as int - 32) as char else c
  }

  function Lower(s: string): (r: string)
    ensures |r| == |s|
    ensures forall i | 0 <= i < |s| :: r[i] == LowerChar(s[i])
  {
    seq(|s|, i requires 0 <= i < |s| => LowerChar(s[i]))
  }

  function Upper(s: string): (r: string)
    ensures |r| == |s|
    ensures forall i | 0 <= i < |s| :: r[i] == UpperChar(s[i])
  {
    seq(|s|, i requires 0 <= i < |s| => UpperChar(s[i]))
  }

  /** A string is its own lower-case form exactly when it holds no upper-case letter. */
  lemma LowerFixedIff(s: string)
    ensures Lower(s) == s <==> forall i | 0 <= i < |s| :: !IsUpper(s[i])
  {
    if Lower(s) == s {
      forall i | 0 <= i < |s|
        ensures !IsUpper(s[i])
      {
        assert s[i] == LowerChar(s[i]);
      }
    }
  }

  predicate IsPrefix(p: string, s: string) {
    |p| <= |s| && s[..|p|] == p
  }

  predicate EndsWith(s: string, suffix: string) {
    |suffix| <= |s| && s[|s| - |suffix|..] == suffix
  }

  /** Python's `sub in s` for a string `sub`. */
  predicate Contains(s: string, sub: string)
    decreases |s|
  {
    IsPrefix(sub, s) || (|s| > 0 && Contains(s[1..], sub))
  }

  /** `sub in s` holds exactly when `sub` starts at some position of `s`. */
  lemma {:induction false} ContainsIff(s: string, sub: string)
    ensures Contains(s, sub) <==> exists i | 0 <= i <= |s| :: IsPrefix(sub, s[i..])
    decreases |s|
  {
    assert s[0..] == s;
    if |s| > 0 {
      ContainsIff(s[1..], sub);
      if Contains(s, sub) && !IsPrefix(sub, s) {
        var j :| 0 <= j <= |s[1..]| && IsPrefix(sub, s[1..][j..]);
        assert s[1..][j..] == s[j + 1..];
      }
      if exists i | 0 <= i <= |s| :: IsPrefix(sub, s[i..]) {
        var i :| 0 <= i <= |s| && IsPrefix(sub, s[i..]);
        if i > 0 {
          assert s[1..][i - 1..] == s[i..];
          assert 0 <= i - 1 <= |s[1..]| && IsPrefix(sub, s[1..][i - 1..]);
          assert Contains(s[1..], sub);
        }
      }
    }
  }

  /** A string contains a two-character pattern exactly when the pattern
      occurs at two adjacent positions. */
  lemma ContainsPairIff(s: string, a: char, b: char)
    ensures Contains(s, [a, b]) <==> exists i | 0 <= i < |s| - 1 :: s[i] == a && s[i + 1] == b
  {
    ContainsIff(s, [a, b]);
    if Contains(s, [a, b]) {
      var i :| 0 <= i <= |s| && IsPrefix([a, b], s[i..]);
      PairAt(s, a, b, i);
    }
    if exists i | 0 <= i < |s| - 1 :: s[i] == a && s[i + 1] == b {
      var i :| 0 <= i < |s| - 1 && s[i] == a && s[i + 1] == b;
      PairAt(s, a, b, i);
    }
  }

  /** The two-character pattern starts at `i` exactly when `s[i]` and
      `s[i + 1]` are its characters. */
  lemma PairAt(s: string, a: char, b: char, i: nat)
    requires i <= |s|
    ensures IsPrefix([a, b], s[i..]) <==> i < |s| - 1 && s[i] == a && s[i + 1] == b
  {
    if i < |s| - 1 && s[i] == a && s[i + 1] == b {
      assert s[i..][..2] == [a, b];
    }
    if IsPrefix([a, b], s[i..]) {
      assert s[i..][0] == a && s[i..][1] == b;
    }
  }

  /** `s.replace(c, "")` for a one-character pattern `c`. */
  function RemoveChar(s: string, c: char): (r: string)
    ensures c !in r
    ensures |r| <= |s|
    ensures forall d | d in r :: d in s
    decreases |s|
  {
    if s == [] then []
    else if s[0] == c then RemoveChar(s[1..], c)
    else [s[0]] + RemoveChar(s[1..], c)
  }

  /** `s.replace(c, "")` keeps exactly the characters other than `c`, in order. */
  lemma {:induction false} RemoveCharIsFilter(s: string, c: char)
    ensures RemoveChar(s, c) == Filter(s, (x: char) => x != c)
    decreases |s|
  {
    if s != [] {
      RemoveCharIsFilter(s[1..], c);
    }
  }

  /** Removing a character that does not occur changes nothing. */
  lemma {:induction false} RemoveCharAbsent(s: string, c: char)
    requires c !in s
    ensures RemoveChar(s, c) == s
    decreases |s|
  {
    if s != [] {
      RemoveCharAbsent(s[1..], c);
      assert s == [s[0]] + s[1..];
    }
  }

  /** `s.replace(a, b)` for one-character patterns. */
  function ReplaceChar(s: string, a: char, b: char): (r: string)
    ensures |r| == |s|
    ensures a != b ==> a !in r
    ensures forall i | 0 <= i < |s| :: r[i] == (if s[i] == a then b else s[i])
  {
    seq(|s|, i requires 0 <= i < |s| => if s[i] == a then b else s[i])
  }

  /** `s.replace(pat, "")` for a non-empty literal pattern: a left-to-right
      scan that drops non-overlapping occurrences. */
  function RemoveAll(s: string, pat: string): string
    requires |pat| > 0
    decreases |s|
  {
    if IsPrefix(pat, s) then RemoveAll(s[|pat|..], pat)
    else if s == [] then []
    else [s[0]] + RemoveAll(s[1..], pat)
  }

  /** A pattern whose first character does not occur is never removed. */
  lemma {:induction false} RemoveAllAbsent(s: string, pat: string)
    requires |pat| > 0 && pat[0] !in s
    ensures RemoveAll(s, pat) == s
    decreases |s|
  {
    if s != [] {
      assert s[0] != pat[0];
      RemoveAllAbsent(s[1..], pat);
      assert s == [s[0]] + s[1..];
    }
  }

  /** `s.rstrip()`. */
  function RStrip(s: string): (r: string)
    ensures IsPrefix(r, s)
    ensures r == [] || !IsSpace(r[|r| - 1])
    ensures forall i | |r| <= i < |s| :: IsSpace(s[i])
    decreases |s|
  {
    if |s| > 0 && IsSpace(s[|s| - 1]) then RStrip(s[..|s| - 1]) else s
  }

  /** `s.lstrip()`. */
  function LStrip(s: string): (r: string)
    ensures EndsWith(s, r)
    ensures r == [] || !IsSpace(r[0])
    ensures forall i | 0 <= i < |s| - |r| :: IsSpace(s[i])
    decreases |s|
  {
    if |s| > 0 && IsSpace(s[0]) then LStrip(s[1..]) else s
  }

  /** `s.strip()`. */
  function Strip(s: string): string {
    LStrip(RStrip(s))
  }

  /** The position of the first `c` in `s`. */
  function FirstIndex(s: string, c: char): (i: nat)
    requires c in s
    ensures i < |s| && s[i] == c
    ensures c !in s[..i]
    decreases |s|
  {
    if s[0] == c then 0
    else
      var j := FirstIndex(s[1..], c);
      assert s[..1 + j] == [s[0]] + s[1..][..j];
      1 + j
  }

  lemma {:induction false} FirstIndexAfter(a: string, c: char, b: string)
    requires c !in a
    ensures c in a + [c] + b
    ensures FirstIndex(a + [c] + b, c) == |a|
    decreases |a|
  {
    var s := a + [c] + b;
    assert s[|a|] == c;
    if a != [] {
      assert s[1..] == a[1..] + [c] + b;
      FirstIndexAfter(a[1..], c, b);
    }
  }

  /** `s.split(c)`: the pieces between occurrences of `c`, empty pieces kept. */
  function Split(s: string, c: char): (parts: seq<string>)
    ensures |parts| >= 1
    ensures forall k | 0 <= k < |parts| :: c !in parts[k]
    decreases |s|
  {
    if c !in s then [s]
    else
      var i := FirstIndex(s, c);
      [s[..i]] + Split(s[i + 1..], c)
  }

  /** `c.join(parts)`. */
  function Join(parts: seq<string>, c: char): string
    requires |parts| >= 1
    decreases |parts|
  {
    if |parts| == 1 then parts[0] else parts[0] + [c] + Join(parts[1..], c)
  }

  /** Joining the pieces of a split restores the string. */
  lemma {:induction false} JoinSplit(s: string, c: char)
    ensures Join(Split(s, c), c) == s
    decreases |s|
  {
    if c in s {
      var i := FirstIndex(s, c);
      JoinSplit(s[i + 1..], c);
      assert Split(s, c)[1..] == Split(s[i + 1..], c);
      assert s == s[..i] + [c] + s[i + 1..];
    }
  }

  /** Splitting a join of separator-free pieces gives the pieces back. */
  lemma {:induction false} SplitJoin(parts: seq<string>, c: char)
    requires |parts| >= 1
    requires forall k | 0 <= k < |parts| :: c !in parts[k]
    ensures Split(Join(parts, c), c) == parts
    decreases |parts|
  {
    if |parts| > 1 {
      var rest := Join(parts[1..], c);
      var s := Join(parts, c);
      assert s == parts[0] + [c] + rest;
      FirstIndexAfter(parts[0], c, rest);
      assert s[..|parts[0]|] == parts[0];
      assert s[|parts[0]| + 1..] == rest;
      assert Split(s, c) == [parts[0]] + Split(rest, c);
      SplitJoin(parts[1..], c);
      assert parts == [parts[0]] + parts[1..];
    }
  }

  /** `s.split(c)[0]`: everything before the first `c`. */
  function BeforeFirst(s: string, c: char): (r: string)
    ensures IsPrefix(r, s)
    ensures c !in r
    ensures c !in s ==> r == s
    ensures c in s ==> s[|r|] == c
  {
    if c in s then s[..FirstIndex(s, c)] else s
  }

  /** The position of the last `c` in `s`. */
  function LastIndex(s: string, c: char): (i: nat)
    requires c in s
    ensures i < |s| && s[i] == c
    ensures c !in s[i + 1..]
    decreases |s|
  {
    if s[|s| - 1] == c then |s| - 1
    else
      var init := s[..|s| - 1];
      assert s == init + [s[|s| - 1]];
      assert c in init;
      var j := LastIndex(init, c);
      assert s[j + 1..] == init[j + 1..] + [s[|s| - 1]];
      j
  }

  /** `s.split(c)[-1]`: everything after the last `c`. */
  function AfterLast(s: string, c: char): (r: string)
    ensures EndsWith(s, r)
    ensures c !in r
    ensures c !in s ==> r == s
    ensures c in s ==> |r| < |s| && s[|s| - |r| - 1] == c
  {
    if c in s then s[LastIndex(s, c) + 1..] else s
  }

  /** The text after the last `c` of `s + [c] + t` is `t` when `t` has no `c`. */
  lemma AfterLastAppend(s: string, c: char, t: string)
    requires c !in t
    ensures AfterLast(s + [c] + t, c) == t
  {
    var u := s + [c] + t;
    assert u[|s|] == c;
    assert u[|u| - |t|..] == t;
  }

  /** Lower-casing a concatenation lower-cases each part. */
  lemma LowerAppend(a: string, b: string)
    ensures Lower(a + b) == Lower(a) + Lower(b)
  {
  }

  /** Joins of piecewise case-insensitively equal parts are case-insensitively
      equal. */
  lemma {:induction false} JoinLowerCongruent(a: seq<string>, b: seq<string>, c: char)
    requires |a| == |b| >= 1
    requires forall i | 0 <= i < |a| :: Lower(a[i]) == Lower(b[i])
    ensures Lower(Join(a, c)) == Lower(Join(b, c))
    decreases |a|
  {
    if |a| > 1 {
      JoinLowerCongruent(a[1..], b[1..], c);
      LowerAppend(a[0] + [c], Join(a[1..], c));
      LowerAppend(b[0] + [c], Join(b[1..], c));
      LowerAppend(a[0], [c]);
      LowerAppend(b[0], [c]);
    }
  }

  /** `s.split(c, 1)` on a string holding `c`: the text before the first `c`
      and everything after it, later occurrences of `c` included. */
  function SplitOnce(s: string, c: char): (kv: (string, string))
    requires c in s
    ensures s == kv.0 + [c] + kv.1
    ensures c !in kv.0
  {
    var i := FirstIndex(s, c);
    assert s == s[..i] + [c] + s[i + 1..];
    (s[..i], s[i + 1..])
  }

  predicate AllDigits(s: string) {
    forall i | 0 <= i < |s| :: IsDigit(s[i])
  }

  /** What the code's `is_int` and `int()` accept: an optional sign followed by
      one or more ASCII digits. */
  predicate IsInt(s: string) {
    if |s| > 0 && (s[0] == '+' || s[0] == '-') then |s| > 1 && AllDigits(s[1..])
    else |s| > 0 && AllDigits(s)
  }

  function DigitsValue(s: string): nat
    requires AllDigits(s)
    decreases |s|
  {
    if s == [] then 0
    else DigitsValue(s[..|s| - 1]) * 10 + (s[|s| - 1] as int - '0' as int)
  }

  /** `int(s)`, or `None` where Python raises ValueError. */
  function ParseInt(s: string): (r: Option<int>)
    ensures r.Some? <==> IsInt(s)
  {
    if !IsInt(s) then None
    else if s[0] == '-' then Some(0 - DigitsValue(s[1..]))
    else if s[0] == '+' then Some(DigitsValue(s[1..]))
    else Some(DigitsValue(s))
  }
}

=== FILE: up_helpers.dfy ===
/** The small pure helpers of `az containerapp up` in `_up_utils.py`: app-name
    validation, Dockerfile `EXPOSE` inference, image reformatting, the
    argument checks, service-principal scopes, the app URL and the GitHub
    token choice.
 */
module UpHelpers {

  import opened Common
  import opened Text
  import opened Seqs
  import opened Inventory
  import opened Descriptors
  import opened Registry

  /** `MAXIMUM_CONTAINER_APP_NAME_LENGTH` (`_constants.py` is not part of this model). */
  const MaxAppNameLength: nat := 32
  /** `MAXIMUM_SECRET_LENGTH`, the longest registry name `--repo` accepts. */
  const MaxSecretLength: nat := 20

  // ---------------------------------------------------------------- app names

  /** What `_validate_containerapp_name` accepts, character by character:
      at most 32 characters from `[a-z0-9-]`, no two dashes in a row, and a
      letter as the first character that is not a dash. Leading and trailing
      dashes pass. */
  predicate ValidAppName(name: string) {
    && |name| <= MaxAppNameLength
    && (forall i | 0 <= i < |name| :: IsLower(name[i]) || IsDigit(name[i]) || name[i] == '-')
    && (forall i | 0 <= i < |name| - 1 :: !(name[i] == '-' && name[i + 1] == '-'))
    && (exists i | 0 <= i < |name| :: IsLower(name[i]) && forall j | 0 <= j < i :: name[j] == '-')
  }

  const AppNameRules: string :=
    ". A name must consist of lower case alphanumeric characters or '-', start with a letter, end with an alphanumeric character, cannot have '--', and must be less than 32 characters."

  /** `_validate_containerapp_name`. The error message shows the name with its
      dashes removed, as the code formats it after the removal. */
  function ValidateContainerAppName(name: string): (r: Outcome)
    ensures r.Pass? <==> ValidAppName(name)
    ensures r.Fail? ==> r.error.ValidationError?
  {
    AppNameCheckIff(name);
    if AppNameChecks(name) then Pass
    else Fail(ValidationError("Invalid Container App name " + RemoveChar(name, '-') + AppNameRules))
  }

  /** The code's sequence of string tests, as written. */
  predicate AppNameChecks(name: string) {
    && Lower(name) == name && |name| <= MaxAppNameLength && !Contains(name, "--")
    && IsAlnum(RemoveChar(name, '-')) && IsAlpha(RemoveChar(name, '-')[0])
  }

  /** The code's tests decide exactly `ValidAppName`. */
  lemma AppNameCheckIff(name: string)
    ensures AppNameChecks(name) <==> ValidAppName(name)
  {
    LowerFixedIff(name);
    ContainsPairIff(name, '-', '-');
    assert "--" == ['-', '-'];
    RemoveCharIsFilter(name, '-');
    if AppNameChecks(name) {
      AppNameChecksSound(name);
    }
    if ValidAppName(name) {
      AppNameChecksComplete(name);
    }
  }

  /** A name passing the tests has only `[a-z0-9-]` and a letter first after
      the leading dashes. */
  lemma AppNameChecksSound(name: string)
    requires forall i | 0 <= i < |name| :: !IsUpper(name[i])
    requires IsAlnum(RemoveChar(name, '-')) && IsAlpha(RemoveChar(name, '-')[0])
    ensures forall i | 0 <= i < |name| :: IsLower(name[i]) || IsDigit(name[i]) || name[i] == '-'
    ensures exists i | 0 <= i < |name| :: IsLower(name[i]) && forall j | 0 <= j < i :: name[j] == '-'
  {
    var core := RemoveChar(name, '-');
    var notDash := (x: char) => x != '-';
    RemoveCharIsFilter(name, '-');
    assert core == Filter(name, notDash);
    forall i | 0 <= i < |name| ensures IsLower(name[i]) || IsDigit(name[i]) || name[i] == '-' {
      if name[i] != '-' {
        assert name[i] in core;
        var k :| 0 <= k < |core| && core[k] == name[i];
        assert IsAlnumChar(core[k]);
      }
    }
    FilterHead(name, notDash);
    var i :| 0 <= i < |name| && name[i] == core[0] && notDash(name[i]) && forall j | 0 <= j < i :: !notDash(name[j]);
    assert IsLower(name[i]);
    assert forall j | 0 <= j < i :: name[j] == '-';
  }

  /** A name in `[a-z0-9-]` with a letter first after the leading dashes
      passes the alphanumeric and letter tests. */
  lemma AppNameChecksComplete(name: string)
    requires forall i | 0 <= i < |name| :: IsLower(name[i]) || IsDigit(name[i]) || name[i] == '-'
    requires exists i | 0 <= i < |name| :: IsLower(name[i]) && forall j | 0 <= j < i :: name[j] == '-'
    ensures IsAlnum(RemoveChar(name, '-')) && IsAlpha(RemoveChar(name, '-')[0])
  {
    var core := RemoveChar(name, '-');
    var notDash := (x: char) => x != '-';
    RemoveCharIsFilter(name, '-');
    assert core == Filter(name, notDash);
    var i :| 0 <= i < |name| && IsLower(name[i]) && forall j | 0 <= j < i :: name[j] == '-';
    assert name[i] in core;
    forall k | 0 <= k < |core| ensures IsAlnumChar(core[k]) {
      assert core[k] in name;
    }
    FilterHead(name, notDash);
    var i0 :| 0 <= i0 < |name| && name[i0] == core[0] && notDash(name[i0]) && forall j | 0 <= j < i0 :: !notDash(name[j]);
    assert notDash(name[i]) && name[i0] != '-';
  }

  lemma AppNameUpperRejected()
    ensures ValidateContainerAppName("My-App").Fail?
  {
    var name := "My-App";
    assert !(IsLower(name[0]) || IsDigit(name[0]) || name[0] == '-');
  }

  lemma AppNameDoubleDashRejected()
    ensures ValidateContainerAppName("a--b").Fail?
  {
    var name := "a--b";
    assert name[1] == '-' && name[2] == '-';
  }

  lemma AppNameDigitFirstRejected()
    ensures ValidateContainerAppName("1abc").Fail?
  {
    var name := "1abc";
    forall i | 0 <= i < |name|
      ensures !(IsLower(name[i]) && forall j | 0 <= j < i :: name[j] == '-')
    {
      if i > 0 { assert name[0] != '-'; }
    }
  }

  lemma AppNameTooLongRejected()
    ensures ValidateContainerAppName("abcdefghijklmnopqrstuvwxyzabcdefg").Fail?
  {
    assert |"abcdefghijklmnopqrstuvwxyzabcdefg"| == 33;
  }

  /** A trailing dash is not rejected, although the error message
      claims a name must end with an alphanumeric character. */
  lemma AppNameTrailingDash()
    ensures ValidateContainerAppName("a-").Pass?
  {
    var name := "a-";
    assert IsLower(name[0]);
  }

  /** Nor is a leading dash: the letter test looks past it. */
  lemma AppNameLeadingDash()
    ensures ValidateContainerAppName("-a").Pass?
  {
    var name := "-a";
    assert IsLower(name[1]) && name[0] == '-';
  }

  // ---------------------------------------------------------------- Dockerfile EXPOSE

  /** A target port: the command line gives a number, the Dockerfile a token. */
  datatype Port = PortNumber(n: int) | PortToken(s: string)

  /** Python truthiness of a target port: `None`, `0` and `""` are false. */
  predicate PortGiven(p: Option<Port>) {
    match p
    case None => false
    case Some(PortNumber(n)) => n != 0
    case Some(PortToken(s)) => s != ""
  }

  const ExternalIngress: string := "external"

  /** A Dockerfile line upper-cased, stripped, and without "/TCP", "/UDP" and
      newlines. */
  function NormalizeLine(line: string): string {
    RemoveChar(RemoveAll(RemoveAll(Strip(Upper(line)), "/TCP"), "/UDP"), '\n')
  }

  /** A line the scan looks into: not blank, not a comment, mentioning EXPOSE. */
  predicate Scanned(line: string) {
    var n := NormalizeLine(line);
    line != "" && n != "" && n[0] != '#' && Contains(n, "EXPOSE")
  }

  /** Position `j` of a token list is a hit: a token mentioning EXPOSE followed
      by an integer token. The last token is never looked at. */
  predicate ExposeAt(ts: seq<string>, j: int) {
    0 <= j < |ts| - 1 && Contains(ts[j], "EXPOSE") && IsInt(ts[j + 1])
  }

  /** The port following the last hit at a position below `j`. */
  function LastHitBelow(ts: seq<string>, j: nat): (r: Option<string>)
    requires j < |ts|
    ensures r.None? <==> forall k | 0 <= k < j :: !ExposeAt(ts, k)
    ensures r.Some? ==>
      exists k | 0 <= k < j :: ExposeAt(ts, k) && r.value == ts[k + 1] && forall k' | k < k' < j :: !ExposeAt(ts, k')
  {
    if j == 0 then None
    else if ExposeAt(ts, j - 1) then Some(ts[j])
    else LastHitBelow(ts, j - 1)
  }

  /** The port a single line sets, if any. */
  function LinePort(line: string): Option<string> {
    if Scanned(line) then
      var ts := Split(NormalizeLine(line), ' ');
      LastHitBelow(ts, |ts| - 1)
    else None
  }

  /** The result of the last element for which `f` yields one. */
  function LastFound<T>(xs: seq<T>, f: T -> Option<string>): (r: Option<string>)
    ensures r.None? <==> forall i | 0 <= i < |xs| :: f(xs[i]).None?
    ensures r.Some? ==> exists i | 0 <= i < |xs| :: f(xs[i]) == r && forall k | i < k < |xs| :: f(xs[k]).None?
  {
    if xs == [] then None
    else
      var last := |xs| - 1;
      if f(xs[last]).Some? then f(xs[last])
      else
        var r := LastFound(xs[..last], f);
        LastFoundExtend(xs, xs[..last], f, r);
        r
  }

  /** What the last element's lack of a result leaves of the prefix's
      result, seen in the whole list. */
  lemma LastFoundExtend<T>(xs: seq<T>, prefix: seq<T>, f: T -> Option<string>, r: Option<string>)
    requires xs != [] && prefix == xs[..|xs| - 1] && f(xs[|xs| - 1]).None?
    requires r.None? <==> forall i | 0 <= i < |prefix| :: f(prefix[i]).None?
    requires r.Some? ==> exists i | 0 <= i < |prefix| :: f(prefix[i]) == r && forall k | i < k < |prefix| :: f(prefix[k]).None?
    ensures r.None? <==> forall i | 0 <= i < |xs| :: f(xs[i]).None?
    ensures r.Some? ==> exists i | 0 <= i < |xs| :: f(xs[i]) == r && forall k | i < k < |xs| :: f(xs[k]).None?
  {
    var last := |xs| - 1;
    assert forall i | 0 <= i < last :: prefix[i] == xs[i];
    if r.Some? {
      var i :| 0 <= i < last && f(prefix[i]) == r && forall k | i < k < last :: f(prefix[k]).None?;
      assert f(xs[i]) == r;
    }
  }

  /** The port the whole Dockerfile sets: the one of the last line that sets one. */
  function FilePort(lines: seq<string>): Option<string> {
    LastFound(lines, LinePort)
  }

  /** Extending the list by one element: that element's result, if any, wins. */
  lemma LastFoundStep<T>(xs: seq<T>, i: nat, f: T -> Option<string>)
    requires i < |xs|
    ensures LastFound(xs[..i + 1], f) == if f(xs[i]).Some? then f(xs[i]) else LastFound(xs[..i], f)
  {
    assert xs[..i + 1][..i] == xs[..i];
  }

  /** One step of the outer loop keeps the ghost accumulator equal to the
      port of the lines scanned so far. */
  lemma FilePortStep(lines: seq<string>, i: nat, found: Option<string>, hit: Option<string>)
    requires i < |lines|
    requires found == LastFound(lines[..i], LinePort)
    requires hit == LinePort(lines[i])
    ensures (if hit.Some? then hit else found) == LastFound(lines[..i + 1], LinePort)
  {
    LastFoundStep(lines, i, LinePort);
  }

  /** The inner loop of `_get_ingress_and_target_port` over one line's tokens:
      every hit overwrites the port, so the last one is kept. */
  method ScanTokens(parts: seq<string>) returns (port: Option<string>)
    requires |parts| >= 1
    ensures port == LastHitBelow(parts, |parts| - 1)
  {
    port := None;
    var j := 0;
    while j < |parts| - 1
      invariant 0 <= j <= |parts| - 1
      invariant port == LastHitBelow(parts, j)
    {
      if Contains(parts[j], "EXPOSE") && IsInt(parts[j + 1]) {
        port := Some(parts[j + 1]);
      }
      j := j + 1;
    }
  }

  /** One line of the outer loop: blank lines, comments and lines without
      EXPOSE are skipped, the others are split on spaces and scanned. */
  method ScanLine(line: string) returns (hit: Option<string>)
    ensures hit == LinePort(line)
  {
    hit := None;
    if line != "" {
      var n := NormalizeLine(line);
      if n != "" && n[0] != '#' && Contains(n, "EXPOSE") {
        hit := ScanTokens(Split(n, ' '));
      }
    }
  }

  /** The outer loop of `_get_ingress_and_target_port`: each line's last hit
      overwrites the port found so far. */
  method ScanFile(lines: seq<string>) returns (found: Option<string>)
    ensures found == FilePort(lines)
  {
    found := None;
    var i := 0;
    while i < |lines|
      invariant 0 <= i <= |lines|
      invariant found == FilePort(lines[..i])
    {
      found := ScanNext(lines, i, found);
      i := i + 1;
    }
    assert lines[..|lines|] == lines;
  }

  /** One iteration of the outer loop: the line's hit, if any, replaces the
      port found in the lines before it. */
  method ScanNext(lines: seq<string>, i: nat, found: Option<string>) returns (found': Option<string>)
    requires i < |lines|
    requires found == FilePort(lines[..i])
    ensures found' == FilePort(lines[..i + 1])
  {
    var hit := ScanLine(lines[i]);
    FilePortStep(lines, i, found, hit);
    found' := if hit.Some? then hit else found;
  }

  /** `_get_ingress_and_target_port`: only when neither a port nor an ingress
      was given is the Dockerfile scanned; the last EXPOSE hit sets the port
      and external ingress. A port without an ingress gets external ingress. */
  method IngressAndTargetPort(ingress: Option<string>, targetPort: Option<Port>, dockerfile: Option<seq<string>>)
    returns (ingressOut: Option<string>, portOut: Option<Port>)
    ensures var found := if !PortGiven(targetPort) && !Truthy(ingress) && dockerfile.Some?
                         then FilePort(dockerfile.value) else None;
      && (found.Some? ==> portOut == Some(PortToken(found.value)) && ingressOut == Some(ExternalIngress))
      && (found.None? ==>
            portOut == targetPort
            && ingressOut == (if PortGiven(targetPort) && !Truthy(ingress) then Some(ExternalIngress) else ingress))
  {
    ingressOut, portOut := ingress, targetPort;
    if !PortGiven(targetPort) && !Truthy(ingress) && dockerfile.Some? {
      var found := ScanFile(dockerfile.value);
      if found.Some? {
        portOut := Some(PortToken(found.value));
        ingressOut := Some(ExternalIngress);
      }
    }
    if PortGiven(portOut) && !Truthy(ingressOut) {
      ingressOut := Some(ExternalIngress);
    }
  }

  /** A lower-case EXPOSE line sets the port. */
  lemma ExposeLineExample()
    ensures LinePort("expose 8080") == Some("8080")
  {
    ScannedExample();
    NormalizeExample();
    SplitExample();
    LastHitExample();
  }

  lemma ScannedExample()
    ensures Scanned("expose 8080")
  {
    NormalizeExample();
    assert IsPrefix("EXPOSE", "EXPOSE 8080");
  }

  lemma LastHitExample()
    ensures LastHitBelow(["EXPOSE", "8080"], 1) == Some("8080")
  {
    ExposeAtExample();
  }

  lemma NormalizeExample()
    ensures NormalizeLine("expose 8080") == "EXPOSE 8080"
  {
    var line := "EXPOSE 8080";
    UpperExample();
    StripExample(line);
    NoSlashExample(line);
    RemoveAllAbsent(line, "/TCP");
    RemoveAllAbsent(line, "/UDP");
    RemoveCharAbsent(line, '\n');
  }

  lemma UpperExample()
    ensures Upper("expose 8080") == "EXPOSE 8080"
  {
  }

  lemma StripExample(line: string)
    requires line == "EXPOSE 8080"
    ensures Strip(line) == line
  {
    assert !IsSpace(line[|line| - 1]) && !IsSpace(line[0]);
  }

  lemma NoSlashExample(line: string)
    requires line == "EXPOSE 8080"
    ensures '/' !in line && '\n' !in line
  {
  }

  lemma SplitExample()
    ensures Split("EXPOSE 8080", ' ') == ["EXPOSE", "8080"]
  {
    assert "EXPOSE 8080" == "EXPOSE" + [' '] + "8080";
    SplitJoin(["EXPOSE", "8080"], ' ');
  }

  lemma ExposeAtExample()
    ensures ExposeAt(["EXPOSE", "8080"], 0)
  {
    assert IsPrefix("EXPOSE", "EXPOSE");
    assert IsInt("8080");
  }

  /** A concrete Dockerfile: the later of two EXPOSE lines wins. */
  lemma ExposeExample()
    ensures FilePort(["# EXPOSE 1", "EXPOSE 80", "expose 8080"]) == Some("8080")
  {
    ExposeLineExample();
  }

  // ---------------------------------------------------------------- images

  /** `_reformat_image`: with a source and an image or repo, the image is cut
      to its last path segment and its colons are dropped; without an image
      that is an AttributeError on `None`. */
  function ReformatImage(source: Option<string>, repo: Option<string>, image: Option<string>): (r: Result<Option<string>>)
    ensures !(Truthy(source) && (Truthy(image) || Truthy(repo))) ==> r == Ok(image)
    ensures Truthy(source) && (Truthy(image) || Truthy(repo)) ==>
      && (r.Ok? <==> image.Some?)
      && (r.Ok? ==> r.value.Some? && '/' !in r.value.value && ':' !in r.value.value)
      && (r.Ok? && '/' !in image.value && ':' !in image.value ==> r.value == image)
      && (r.Ok? ==> forall c | c in r.value.value :: c in AfterLast(image.value, '/'))
      && (r.Ok? ==> r.value == Some(Filter(AfterLast(image.value, '/'), (x: char) => x != ':')))
  {
    if Truthy(source) && (Truthy(image) || Truthy(repo)) then
      if image.None? then Err(RuntimeFault("AttributeError: 'NoneType' object has no attribute 'split'"))
      else
        var last := AfterLast(image.value, '/');
        assert '/' !in image.value && ':' !in image.value ==> RemoveChar(last, ':') == image.value by {
          if '/' !in image.value && ':' !in image.value {
            RemoveCharAbsent(image.value, ':');
          }
        }
        RemoveCharIsFilter(last, ':');
        Ok(Some(RemoveChar(last, ':')))
    else Ok(image)
  }

  /** Reformatting an already reformatted image changes nothing. */
  lemma ReformatImageIdempotent(source: Option<string>, repo: Option<string>, image: Option<string>)
    requires ReformatImage(source, repo, image).Ok?
    ensures ReformatImage(source, repo, ReformatImage(source, repo, image).value) == ReformatImage(source, repo, image)
  {
  }

  // ---------------------------------------------------------------- argument checks

  /** A global flag `az containerapp up` refuses, among the command's parameters. */
  predicate HasDisallowedParam(safeParams: seq<string>) {
    "--only-show-errors" in safeParams || "--output" in safeParams || "-o" in safeParams
  }

  /** A `--repo` deployment to an Azure registry, whose name is checked. */
  predicate RepoRegistryChecked(repo: Option<string>, registryServer: Option<string>) {
    && Truthy(repo) && Truthy(registryServer)
    && Contains(registryServer.value, AcrDomain)
  }

  /** The ACR name a `--repo` deployment must keep short. */
  predicate RepoRegistryNameTooLong(repo: Option<string>, registryServer: Option<string>) {
    && RepoRegistryChecked(repo, registryServer)
    && RegistryNameOf(registryServer.value).Ok?
    && |RegistryNameOf(registryServer.value).value| > MaxSecretLength
  }

  const NoSourceMessage: string := "You must specify either --source, --repo, or --image"
  const SourceAndRepoMessage: string :=
    "Cannot use --source and --repo togther. Can either deploy from a local directory or a Github repo"
  const RepoRegistryNameMessage: string := "--registry-server ACR name must be less than 20 characters when using --repo"

  /** `_validate_up_args`, the checks on the arguments themselves: no
      disallowed global flag, some source of code, not both a source and a
      repo, and a short enough registry name for GitHub secrets. */
  function ValidateUpArgs(
    safeParams: seq<string>, source: Option<string>, image: Option<string>,
    repo: Option<string>, registryServer: Option<string>): (r: Outcome)
    ensures r.Pass? <==>
      && !HasDisallowedParam(safeParams)
      && (Truthy(source) || Truthy(image) || Truthy(repo))
      && !(Truthy(source) && Truthy(repo))
      && (RepoRegistryChecked(repo, registryServer) ==>
            RegistryNameOf(registryServer.value).Ok? && |RegistryNameOf(registryServer.value).value| <= MaxSecretLength)
    ensures HasDisallowedParam(safeParams) ==> r.Fail? && r.error.ValidationError?
    ensures !HasDisallowedParam(safeParams) && !Truthy(source) && !Truthy(image) && !Truthy(repo) ==>
      r.Fail? && r.error.RequiredArgumentMissing?
    ensures !HasDisallowedParam(safeParams) && Truthy(source) && Truthy(repo) ==>
      r.Fail? && r.error.MutuallyExclusiveArguments?
    ensures RepoRegistryNameTooLong(repo, registryServer) ==> r.Fail?
    ensures && !HasDisallowedParam(safeParams)
            && (Truthy(source) || Truthy(image) || Truthy(repo))
            && !(Truthy(source) && Truthy(repo))
            && RepoRegistryChecked(repo, registryServer) && RegistryNameOf(registryServer.value).Err? ==>
      r == Fail(RuntimeFault("ValueError: Invalid IPv6 URL"))
  {
    if "--only-show-errors" in safeParams then Fail(ValidationError("Argument --only-show-errors is not allowed for 'az containerapp up'"))
    else if "--output" in safeParams then Fail(ValidationError("Argument --output is not allowed for 'az containerapp up'"))
    else if "-o" in safeParams then Fail(ValidationError("Argument -o is not allowed for 'az containerapp up'"))
    else if !Truthy(source) && !Truthy(image) && !Truthy(repo) then
      Fail(RequiredArgumentMissing(NoSourceMessage))
    else if Truthy(source) && Truthy(repo) then
      Fail(MutuallyExclusiveArguments(SourceAndRepoMessage))
    else if RepoRegistryChecked(repo, registryServer) then
      match RegistryNameOf(registryServer.value)
      case Err(e) => Fail(e)
      case Ok(name) =>
        if |name| > MaxSecretLength then Fail(ValidationError(RepoRegistryNameMessage)) else Pass
    else Pass
  }

  /** A `--repo` deployment to `//NAME.azurecr.io` passes whatever the length
      of NAME: without a scheme `urlparse` reads `NAME.azurecr.io` as the
      network location, leaves the path empty, and the empty name is never
      too long. */
  lemma RepoNetlocServerPasses(name: string)
    requires forall i | 0 <= i < |name| :: IsAlnumChar(name[i])
    ensures ValidateUpArgs([], None, None, Some("r"), Some("//" + name + AcrSuffix)) == Pass
  {
    RegistryNameOfNetlocOnly(name);
    ServerIsAzure(name);
  }

  /** A `--repo` deployment whose Azure registry name is too long fails with
      the registry-name error once the other checks pass. */
  lemma RepoNameTooLongFails(
    safeParams: seq<string>, source: Option<string>, image: Option<string>,
    repo: Option<string>, registryServer: Option<string>)
    requires !HasDisallowedParam(safeParams) && !Truthy(source)
    requires RepoRegistryNameTooLong(repo, registryServer)
    ensures ValidateUpArgs(safeParams, source, image, repo, registryServer) == Fail(ValidationError(RepoRegistryNameMessage))
  {
  }

  /** A `--repo` deployment to a bare server whose name is longer than the
      secret limit fails with the registry-name error. */
  lemma RepoLongServerFails(name: string)
    requires forall i | 0 <= i < |name| :: IsAlnumChar(name[i])
    requires |name| > MaxSecretLength
    ensures ValidateUpArgs([], None, None, Some("r"), Some(name + AcrSuffix)) == Fail(ValidationError(RepoRegistryNameMessage))
  {
    var server := name + AcrSuffix;
    assert RepoRegistryNameTooLong(Some("r"), Some(server)) by {
      RegistryNameOfServer(name);
      ServerIsAzure(name);
    }
    RepoNameTooLongFails([], None, None, Some("r"), Some(server));
  }

  // ---------------------------------------------------------------- service principals

  /** The scope of a resource group, as `_create_service_principal` writes it. */
  function GroupScope(subscription: string, group: string): string {
    "/subscriptions/" + subscription + "/resourceGroups/" + group
  }

  /** Scopes of distinct groups are distinct. */
  lemma GroupScopeInjective(subscription: string, a: string, b: string)
    requires GroupScope(subscription, a) == GroupScope(subscription, b)
    ensures a == b
  {
    var prefix := "/subscriptions/" + subscription + "/resourceGroups/";
    assert GroupScope(subscription, a) == prefix + a;
    assert GroupScope(subscription, b) == prefix + b;
    assert a == (prefix + a)[|prefix|..];
  }

  /** `_create_service_principal`'s scopes: the app's group, and the
      environment's group when it is known and different. */
  function ServicePrincipalScopes(subscription: string, group: Option<string>, envGroup: Option<string>): (scopes: seq<string>)
    ensures 1 <= |scopes| <= 2
    ensures scopes[0] == GroupScope(subscription, PyStr(group))
    ensures |scopes| == 2 <==> envGroup.Some? && envGroup != group
    ensures |scopes| == 2 ==> scopes[1] == GroupScope(subscription, envGroup.value)
  {
    var first := [GroupScope(subscription, PyStr(group))];
    if envGroup.Some? && envGroup != group then first + [GroupScope(subscription, envGroup.value)]
    else first
  }

  /** The scope list never repeats a scope when the app's group is named. */
  lemma ServicePrincipalScopesDistinct(subscription: string, group: Option<string>, envGroup: Option<string>)
    requires group.Some?
    ensures var scopes := ServicePrincipalScopes(subscription, group, envGroup);
      |scopes| == 2 ==> scopes[0] != scopes[1]
  {
    var scopes := ServicePrincipalScopes(subscription, group, envGroup);
    if |scopes| == 2 && scopes[0] == scopes[1] {
      GroupScopeInjective(subscription, group.value, envGroup.value);
    }
  }

  /** What `_get_or_create_sp` settles on. */
  datatype SpDecision =
    | UseGiven(clientId: Option<string>, secret: Option<string>, tenant: Option<string>)
    | CreateNew(scopes: seq<string>)

  /** `_get_or_create_sp`: complete credentials are used as given; an app that
      already has a GitHub Actions workflow keeps whatever was given;
      otherwise a new contributor principal is created on the scopes. */
  function GetOrCreateSp(
    cloud: Cloud, group: Option<string>, envGroup: Option<string>, name: string,
    clientId: Option<string>, secret: Option<string>, tenant: Option<string>): (d: SpDecision)
    ensures d.CreateNew? <==>
      !(Truthy(clientId) && Truthy(secret) && Truthy(tenant))
      && !(group.Some? && (group.value, name) in cloud.githubActions)
    ensures d.UseGiven? ==> d == UseGiven(clientId, secret, tenant)
    ensures d.CreateNew? ==> d.scopes == ServicePrincipalScopes(cloud.subscription, group, envGroup)
  {
    if Truthy(clientId) && Truthy(secret) && Truthy(tenant) then UseGiven(clientId, secret, tenant)
    else if group.Some? && (group.value, name) in cloud.githubActions then UseGiven(clientId, secret, tenant)
    else CreateNew(ServicePrincipalScopes(cloud.subscription, group, envGroup))
  }

  // ---------------------------------------------------------------- output and token

  /** The URL `up_output` prints for the app's FQDN: "http://" is prefixed
      unless it already starts with "http". */
  function UpOutputUrl(fqdn: Option<string>): (url: Option<string>)
    ensures Truthy(url) <==> Truthy(fqdn)
    ensures Truthy(url) ==> IsPrefix("http", url.value) && EndsWith(url.value, fqdn.value)
    ensures Truthy(fqdn) && IsPrefix("http", fqdn.value) ==> url == fqdn
    ensures Truthy(fqdn) && !IsPrefix("http", fqdn.value) ==> url == Some("http://" + fqdn.value)
    ensures !Truthy(fqdn) ==> url == fqdn
  {
    if Truthy(fqdn) && !IsPrefix("http", fqdn.value) then
      var u := "http://" + fqdn.value;
      assert u[..4] == "http";
      assert u[|u| - |fqdn.value|..] == fqdn.value;
      Some(u)
    else fqdn
  }

  /** Prefixing is idempotent. */
  lemma UpOutputUrlIdempotent(fqdn: Option<string>)
    ensures UpOutputUrl(UpOutputUrl(fqdn)) == UpOutputUrl(fqdn)
  {
  }

  /** `get_token`: no token without a repo; a given token wins; otherwise the
      cached one, and failing that a fresh OAuth token. `cached` and `oauth`
      stand for `load_github_token_from_cache` and `get_github_access_token`. */
  function GetToken(repo: Option<string>, token: Option<string>, cached: Option<string>, oauth: Option<string>): (r: Option<string>)
    ensures !Truthy(repo) ==> r.None?
    ensures Truthy(repo) && Truthy(token) ==> r == token
    ensures Truthy(repo) && !Truthy(token) ==> r == (if Truthy(cached) then cached else oauth)
  {
    if !Truthy(repo) then None
    else if Truthy(token) then token
    else if Truthy(cached) then cached
    else oauth
  }
}

=== FILE: urls.dfy ===
/** The parts of Python's `urllib.parse.urlparse` that the registry helpers
    read: the scheme, the network location and the path, as CPython 3.12
    computes them.

    `urlsplit` first strips leading C0 controls and spaces and deletes every
    tab, carriage return and line feed. It then takes a scheme when the text
    before the first ':' is a letter followed by scheme characters, and a
    network location when `//` follows. A network location holding only one
    of '[' and ']' raises ValueError. The path runs to the first '?' or '#'.
    `urlparse` then cuts `;` parameters off the path of a scheme-less URL.
 */
module Urls {

  import opened Common
  import opened Text
  import opened Seqs

  // ---------------------------------------------------------------- cleaning

  /** A C0 control character or a space, which `urlsplit` strips from the
      front of a URL. */
  predicate IsC0OrSpace(c: char) {
    c <= ' '
  }

  /** Tab, carriage return and line feed, which `urlsplit` deletes anywhere. */
  predicate IsUnsafeUrlChar(c: char) {
    c == '\t' || c == '\r' || c == '\n'
  }

  /** `s.lstrip(_WHATWG_C0_CONTROL_OR_SPACE)`. */
  function DropLeadingControls(s: string): (r: string)
    ensures EndsWith(s, r)
    ensures r == [] || !IsC0OrSpace(r[0])
    ensures forall i | 0 <= i < |s| - |r| :: IsC0OrSpace(s[i])
    decreases |s|
  {
    if |s| > 0 && IsC0OrSpace(s[0]) then DropLeadingControls(s[1..]) else s
  }

  /** The text `urlsplit` goes on to parse. */
  function CleanUrl(s: string): (r: string)
    ensures forall c | c in r :: c in s && !IsUnsafeUrlChar(c)
  {
    var t := DropLeadingControls(s);
    assert forall c | c in t :: c in s by {
      forall c | c in t ensures c in s {
        var i :| 0 <= i < |t| && t[i] == c;
        assert s[|s| - |t| + i] == c;
      }
    }
    Filter(t, (c: char) => !IsUnsafeUrlChar(c))
  }

  /** Text without control characters or spaces. */
  predicate PlainText(s: string) {
    forall i | 0 <= i < |s| :: !IsC0OrSpace(s[i])
  }

  /** Plain text is parsed as it stands. */
  lemma CleanUrlPlain(s: string)
    requires PlainText(s)
    ensures CleanUrl(s) == s
  {
    assert DropLeadingControls(s) == s;
    FilterAll(s, (c: char) => !IsUnsafeUrlChar(c));
  }

  // ---------------------------------------------------------------- splitting

  /** Characters `urlsplit` accepts in a scheme. */
  predicate IsSchemeChar(c: char) {
    IsAlnumChar(c) || c == '+' || c == '-' || c == '.'
  }

  /** The longest prefix of `s` holding none of `stops`. */
  function TakeUntil(s: string, stops: set<char>): (r: string)
    ensures IsPrefix(r, s)
    ensures forall i | 0 <= i < |r| :: r[i] !in stops
    ensures |r| < |s| ==> s[|r|] in stops
    decreases |s|
  {
    if s == [] || s[0] in stops then []
    else [s[0]] + TakeUntil(s[1..], stops)
  }

  /** The lower-cased scheme of a cleaned URL, if it has one, and the rest
      of the URL after the ':'. */
  function SplitScheme(s: string): (r: (Option<string>, string))
    ensures r.0.None? ==> r.1 == s
    ensures r.0.Some? ==> |r.0.value| + 1 + |r.1| == |s| && EndsWith(s, r.1) && s[|r.0.value|] == ':'
  {
    if ':' in s then
      var i := FirstIndex(s, ':');
      if i > 0 && IsAlpha(s[0]) && forall k | 0 <= k < i :: IsSchemeChar(s[k])
      then (Some(Lower(s[..i])), s[i + 1..])
      else (None, s)
    else (None, s)
  }

  /** The parts of `urlsplit(s)` that the registry helpers read. */
  datatype UrlParts = UrlParts(scheme: string, netloc: string, path: string)

  /** A network location with an opening bracket but no closing one, or the
      other way round. */
  predicate UnmatchedBracket(netloc: string) {
    ('[' in netloc) != (']' in netloc)
  }

  /** The network location and path of the text after the scheme: a `//`
      starts a network location that runs to the first '/', '?' or '#', and
      the path then runs to the first '?' or '#'. */
  function SplitNetloc(rest: string): (r: Result<(string, string)>)
    ensures r.Err? ==> r.error == RuntimeFault("ValueError: Invalid IPv6 URL")
  {
    if IsPrefix("//", rest) then
      var netloc := TakeUntil(rest[2..], {'/', '?', '#'});
      if UnmatchedBracket(netloc) then Err(RuntimeFault("ValueError: Invalid IPv6 URL"))
      else Ok((netloc, TakeUntil(rest[2 + |netloc|..], {'?', '#'})))
    else Ok(("", TakeUntil(rest, {'?', '#'})))
  }

  /** `urlsplit(s)`. */
  function UrlSplit(s: string): (r: Result<UrlParts>)
    ensures r.Err? ==> r.error == RuntimeFault("ValueError: Invalid IPv6 URL")
    ensures r.Ok? ==> r.value.scheme == SplitScheme(CleanUrl(s)).0.GetOr("")
  {
    var (scheme, rest) := SplitScheme(CleanUrl(s));
    var (netloc, path) :- SplitNetloc(rest);
    Ok(UrlParts(scheme.GetOr(""), netloc, path))
  }

  /** What the network location and path are: the network location holds no
      '/', '?' or '#' and is present only after `//`; the path holds no '?'
      or '#' and starts with '/' after a network location; together they are
      the longest such prefix of the text after the scheme. */
  predicate NetlocAndPath(rest: string, netloc: string, path: string) {
    var whole := (if IsPrefix("//", rest) then "//" + netloc else "") + path;
    && (forall i | 0 <= i < |netloc| :: netloc[i] !in {'/', '?', '#'})
    && (forall i | 0 <= i < |path| :: path[i] !in {'?', '#'})
    && (!IsPrefix("//", rest) ==> netloc == "")
    && (IsPrefix("//", rest) ==> path == [] || path[0] == '/')
    && IsPrefix(whole, rest)
    && (|whole| == |rest| || rest[|whole|] in {'?', '#'})
  }

  /** The network location of `//...`: text up to the first '/', '?' or
      '#', found again in the text. */
  lemma NetlocTaken(rest: string)
    requires IsPrefix("//", rest)
    ensures var netloc := TakeUntil(rest[2..], {'/', '?', '#'});
      && (forall c | c in netloc :: c in rest)
      && rest[..2 + |netloc|] == "//" + netloc
      && (2 + |netloc| == |rest| || rest[2 + |netloc|] in {'/', '?', '#'})
  {
    var netloc := TakeUntil(rest[2..], {'/', '?', '#'});
    forall c | c in netloc ensures c in rest {
      var i :| 0 <= i < |netloc| && netloc[i] == c;
      assert rest[2 + i] == c;
    }
  }

  /** The split fails exactly on an unmatched bracket in the network
      location, and otherwise gives the parts `NetlocAndPath` describes. */
  lemma SplitNetlocShape(rest: string)
    ensures SplitNetloc(rest).Err? ==> '[' in rest || ']' in rest
    ensures '[' !in rest && ']' !in rest ==> SplitNetloc(rest).Ok?
    ensures SplitNetloc(rest).Ok? ==> NetlocAndPath(rest, SplitNetloc(rest).value.0, SplitNetloc(rest).value.1)
  {
    if IsPrefix("//", rest) {
      NetlocTaken(rest);
      var netloc := TakeUntil(rest[2..], {'/', '?', '#'});
      var after := rest[2 + |netloc|..];
      var path := TakeUntil(after, {'?', '#'});
      assert path != [] ==> path[0] == after[0] == rest[2 + |netloc|];
      var whole := "//" + netloc + path;
      assert rest[..|whole|] == rest[..2 + |netloc|] + after[..|path|];
      assert |whole| < |rest| ==> rest[|whole|] == after[|path|];
    } else {
      var path := TakeUntil(rest, {'?', '#'});
      assert "" + path == path;
    }
  }

  /** Every character of the text after the scheme comes from the URL. */
  lemma SuffixChars(s: string, r: string)
    requires EndsWith(s, r)
    ensures forall c | c in r :: c in s
  {
    forall c | c in r ensures c in s {
      var i :| 0 <= i < |r| && r[i] == c;
      assert s[|s| - |r| + i] == c;
    }
  }

  lemma RestFromUrl(s: string)
    ensures forall c | c in SplitScheme(CleanUrl(s)).1 :: c in s
  {
    var u := CleanUrl(s);
    var rest := SplitScheme(u).1;
    if SplitScheme(u).0.Some? {
      SuffixChars(u, rest);
    }
  }

  /** `urlsplit` fails only on a bracket, and never when there is none. */
  lemma UrlSplitFaults(s: string)
    ensures UrlSplit(s).Err? ==> '[' in s || ']' in s
    ensures '[' !in s && ']' !in s ==> UrlSplit(s).Ok?
  {
    RestFromUrl(s);
    SplitNetlocShape(SplitScheme(CleanUrl(s)).1);
  }

  /** The parts of a successful `urlsplit`. */
  lemma UrlSplitShape(s: string)
    requires UrlSplit(s).Ok?
    ensures NetlocAndPath(SplitScheme(CleanUrl(s)).1, UrlSplit(s).value.netloc, UrlSplit(s).value.path)
  {
    SplitNetlocShape(SplitScheme(CleanUrl(s)).1);
  }

  /** The path `urlparse` reports for a scheme-less URL: its `;` parameters,
      which start at the first ';' after the last '/', are cut off. */
  function PathBeforeParams(path: string): (r: string)
    ensures IsPrefix(r, path)
    ensures r == path <==> ';' !in AfterLast(path, '/')
    ensures r != path ==>
      && path[|r|] == ';' && |path| - |AfterLast(path, '/')| <= |r|
      && forall i | |path| - |AfterLast(path, '/')| <= i < |r| :: path[i] != ';'
  {
    var last := AfterLast(path, '/');
    if ';' in last then
      var k := FirstIndex(last, ';');
      ParamsStart(path, last, k);
      path[..|path| - |last| + k]
    else path
  }

  /** The first ';' of a suffix, seen in the whole text. */
  lemma ParamsStart(path: string, last: string, k: nat)
    requires EndsWith(path, last)
    requires k < |last| && last[k] == ';' && ';' !in last[..k]
    ensures path[|path| - |last| + k] == ';'
    ensures forall i | |path| - |last| <= i < |path| - |last| + k :: path[i] != ';'
  {
    var d := |path| - |last|;
    assert forall i | 0 <= i < |last| :: path[d + i] == last[i];
    forall i | d <= i < d + k ensures path[i] != ';' {
      assert path[i] == last[i - d] == last[..k][i - d];
    }
  }

  /** `parsed.netloc if parsed.scheme else parsed.path` of `urlparse(s)`. */
  function UrlHost(s: string): (r: Result<string>)
    ensures r.Err? <==> UrlSplit(s).Err?
    ensures r.Ok? && UrlSplit(s).value.scheme != "" ==> r.value == UrlSplit(s).value.netloc
    ensures r.Ok? && UrlSplit(s).value.scheme == "" ==> r.value == PathBeforeParams(UrlSplit(s).value.path)
  {
    var parts :- UrlSplit(s);
    if parts.scheme != "" then Ok(parts.netloc) else Ok(PathBeforeParams(parts.path))
  }

  // ---------------------------------------------------------------- lemmas

  lemma {:induction false} TakeUntilNone(s: string, stops: set<char>)
    requires forall i | 0 <= i < |s| :: s[i] !in stops
    ensures TakeUntil(s, stops) == s
    decreases |s|
  {
    if s != [] {
      TakeUntilNone(s[1..], stops);
    }
  }

  lemma {:induction false} TakeUntilAppend(a: string, b: string, stops: set<char>)
    requires forall i | 0 <= i < |a| :: a[i] !in stops
    requires b != [] && b[0] in stops
    ensures TakeUntil(a + b, stops) == a
    decreases |a|
  {
    if a == [] {
      assert a + b == b;
    } else {
      assert (a + b)[1..] == a[1..] + b;
      TakeUntilAppend(a[1..], b, stops);
    }
  }

  /** `https:` is read as the scheme. */
  lemma HttpsScheme(rest: string)
    ensures SplitScheme("https:" + rest) == (Some("https"), rest)
  {
    var s := "https:" + rest;
    assert s == "https" + [':'] + rest;
    FirstIndexAfter("https", ':', rest);
    assert FirstIndex(s, ':') == 5 && IsAlpha(s[0]);
    assert forall k | 0 <= k < 5 :: IsSchemeChar(s[k]);
    assert s[..5] == "https";
    assert Lower("https") == "https" by { LowerFixedIff("https"); }
    assert s[6..] == rest;
  }

  /** Characters of registry host names and image paths: ASCII letters,
      digits, '.', '-' and '_'. */
  predicate IsNameChar(c: char) {
    IsAlnumChar(c) || c == '.' || c == '-' || c == '_'
  }

  /** Text of name characters and '/'. */
  predicate PathText(s: string) {
    forall i | 0 <= i < |s| :: IsNameChar(s[i]) || s[i] == '/'
  }

  lemma PathConcat(a: string, b: string)
    requires PathText(a) && PathText(b)
    ensures PathText(a + b)
  {
    forall i | 0 <= i < |a + b| ensures IsNameChar((a + b)[i]) || (a + b)[i] == '/' {
      if i < |a| {
        assert (a + b)[i] == a[i];
      } else {
        assert (a + b)[i] == b[i - |a|];
      }
    }
  }

  lemma PlainConcat(a: string, b: string)
    requires PlainText(a) && PlainText(b)
    ensures PlainText(a + b)
  {
    forall i | 0 <= i < |a + b| ensures !IsC0OrSpace((a + b)[i]) {
      if i < |a| {
        assert (a + b)[i] == a[i];
      } else {
        assert (a + b)[i] == b[i - |a|];
      }
    }
  }

  /** Path text holds no control, space, scheme separator, query, fragment,
      bracket or parameter mark. */
  lemma PathTextPlain(s: string)
    requires PathText(s)
    ensures PlainText(s) && CleanUrl(s) == s
    ensures ':' !in s && '?' !in s && '#' !in s && '[' !in s && ']' !in s && ';' !in s
  {
    CleanUrlPlain(s);
  }

  /** `urlparse` of a URL with a scheme reports its network location. */
  lemma UrlHostWithScheme(s: string, scheme: string, rest: string, netloc: string, path: string)
    requires SplitScheme(CleanUrl(s)) == (Some(scheme), rest) && scheme != ""
    requires SplitNetloc(rest) == Ok((netloc, path))
    ensures UrlHost(s) == Ok(netloc)
  {
    assert UrlSplit(s) == Ok(UrlParts(scheme, netloc, path));
  }

  /** `urlparse` of a URL without a scheme reports its path, less parameters. */
  lemma UrlHostWithoutScheme(s: string, rest: string, netloc: string, path: string)
    requires SplitScheme(CleanUrl(s)) == (None, rest)
    requires SplitNetloc(rest) == Ok((netloc, path))
    ensures UrlHost(s) == Ok(PathBeforeParams(path))
  {
    assert UrlSplit(s) == Ok(UrlParts("", netloc, path));
  }

  /** A failing netloc split fails `urlparse` with it. */
  lemma UrlHostFails(s: string, scheme: Option<string>, rest: string)
    requires SplitScheme(CleanUrl(s)) == (scheme, rest)
    requires SplitNetloc(rest).Err?
    ensures UrlHost(s) == Err(SplitNetloc(rest).error)
  {
  }

  /** A URL without ':' has no scheme. */
  lemma NoScheme(s: string)
    requires ':' !in s
    ensures SplitScheme(s) == (None, s)
  {
  }

  /** `//<host><path>` splits into that network location and path. */
  lemma SplitNetlocOf(host: string, path: string)
    requires forall i | 0 <= i < |host| :: IsNameChar(host[i])
    requires forall i | 0 <= i < |path| :: path[i] !in {'?', '#'}
    requires path == [] || path[0] == '/'
    ensures SplitNetloc("//" + host + path) == Ok((host, path))
  {
    var rest := "//" + host + path;
    assert IsPrefix("//", rest);
    assert rest[2..] == host + path;
    if path == [] {
      assert host + path == host;
      TakeUntilNone(host, {'/', '?', '#'});
    } else {
      TakeUntilAppend(host, path, {'/', '?', '#'});
    }
    assert rest[2 + |host|..] == path;
    TakeUntilNone(path, {'?', '#'});
    assert !UnmatchedBracket(host);
  }

  /** A scheme-less URL without `//`, '?' or '#' is all path. */
  lemma SplitNetlocPlain(s: string)
    requires !IsPrefix("//", s) && '?' !in s && '#' !in s
    ensures SplitNetloc(s) == Ok(("", s))
  {
    TakeUntilNone(s, {'?', '#'});
  }

  /** A path with no ';' keeps all of itself. */
  lemma NoParams(path: string)
    requires ';' !in path
    ensures PathBeforeParams(path) == path
  {
    SuffixChars(path, AfterLast(path, '/'));
  }

  /** A plain login server is all path, and `urlparse` reports it whole. */
  lemma PlainPath(s: string)
    requires forall i | 0 <= i < |s| :: IsNameChar(s[i])
    ensures UrlHost(s) == Ok(s)
  {
    PathTextPlain(s);
    NoScheme(s);
    assert !IsPrefix("//", s) by {
      if |s| > 0 { assert IsNameChar(s[0]); }
    }
    SplitNetlocPlain(s);
    NoParams(s);
    UrlHostWithoutScheme(s, s, "", s);
  }

  lemma HttpsRegroup(host: string)
    ensures "https://" + host + "/" == "https:" + ("//" + host + "/")
  {
  }

  /** `https://<host>/` is parsed as it stands. */
  lemma HttpsClean(host: string)
    requires forall i | 0 <= i < |host| :: IsNameChar(host[i])
    ensures CleanUrl("https:" + ("//" + host + "/")) == "https:" + ("//" + host + "/")
  {
    var rest := "//" + host + "/";
    assert PathText("//") && PathText("/") && PathText(host);
    PathConcat("//", host);
    PathConcat("//" + host, "/");
    PathTextPlain(rest);
    assert PlainText("https:");
    PlainConcat("https:", rest);
    CleanUrlPlain("https:" + rest);
  }

  /** How `urlsplit` cuts `https://<host>/`. */
  lemma HttpsParts(host: string)
    requires forall i | 0 <= i < |host| :: IsNameChar(host[i])
    ensures var s := "https:" + ("//" + host + "/");
      && SplitScheme(CleanUrl(s)) == (Some("https"), "//" + host + "/")
      && SplitNetloc("//" + host + "/") == Ok((host, "/"))
  {
    var rest := "//" + host + "/";
    assert SplitScheme(CleanUrl("https:" + rest)) == (Some("https"), rest) by {
      HttpsClean(host);
      HttpsScheme(rest);
    }
    assert SplitNetloc(rest) == Ok((host, "/")) by {
      SplitNetlocOf(host, "/");
    }
  }

  /** `https://<host>/` has the network location `host`. */
  lemma HttpsHost(host: string)
    requires forall i | 0 <= i < |host| :: IsNameChar(host[i])
    ensures UrlHost("https://" + host + "/") == Ok(host)
  {
    HttpsParts(host);
    UrlHostWithScheme("https:" + ("//" + host + "/"), "https", "//" + host + "/", host, "/");
    HttpsRegroup(host);
  }

  /** A scheme-less `//<host><path>` has the network location `host`, but
      `urlparse` reports its path, not its host. */
  lemma NetlocWithoutScheme(host: string, path: string)
    requires forall i | 0 <= i < |host| :: IsNameChar(host[i])
    requires PathText(path)
    requires path == [] || path[0] == '/'
    ensures UrlHost("//" + host + path) == Ok(path)
  {
    var s := "//" + host + path;
    assert PathText("//") && PathText(host);
    PathConcat("//", host);
    PathConcat("//" + host, path);
    PathTextPlain(s);
    PathTextPlain(path);
    NoScheme(s);
    SplitNetlocOf(host, path);
    NoParams(path);
    UrlHostWithoutScheme(s, s, host, path);
  }

  /** Name text is path text without '/'. */
  lemma NameTextPlain(s: string)
    requires forall i | 0 <= i < |s| :: IsNameChar(s[i])
    ensures PathText(s) && PlainText(s)
    ensures ':' !in s && '/' !in s && '?' !in s && '#' !in s && ']' !in s && ';' !in s
  {
    assert PathText(s);
    PathTextPlain(s);
    NoSlash(s);
  }

  lemma NoSlash(s: string)
    requires forall i | 0 <= i < |s| :: IsNameChar(s[i])
    ensures '/' !in s
  {
    forall i | 0 <= i < |s| ensures s[i] != '/' {
      assert IsNameChar(s[i]);
    }
  }

  lemma BracketRegroup(host: string)
    ensures "//[" + host == "//" + ("[" + host)
    ensures ("//[" + host)[2..] == "[" + host
  {
  }

  /** A network location with an unmatched '[' raises ValueError. */
  lemma UnmatchedBracketFaults(host: string)
    requires forall i | 0 <= i < |host| :: IsNameChar(host[i])
    ensures UrlHost("//[" + host) == Err(RuntimeFault("ValueError: Invalid IPv6 URL"))
  {
    var s := "//[" + host;
    var tail := "[" + host;
    BracketRegroup(host);
    NameTextPlain(host);
    assert SplitScheme(CleanUrl(s)) == (None, s) by {
      assert PlainText("//[");
      PlainConcat("//[", host);
      CleanUrlPlain(s);
      assert ':' !in "//[";
      NoScheme(s);
    }
    assert SplitNetloc(s).Err? by {
      assert IsPrefix("//", s);
      assert '/' !in tail && '?' !in tail && '#' !in tail;
      TakeUntilNone(tail, {'/', '?', '#'});
      assert UnmatchedBracket(tail) by {
        assert tail[0] == '[';
        assert ']' !in tail;
      }
    }
    UrlHostFails(s, None, s);
  }

  /** `<name>;<params>` is plain text with one mark, ';', after `name`. */
  lemma ParamsText(name: string, params: string)
    requires forall i | 0 <= i < |name| :: IsNameChar(name[i])
    requires forall i | 0 <= i < |params| :: IsNameChar(params[i])
    ensures var s := name + ";" + params;
      && PlainText(s) && s == name + [';'] + params && s[..|name|] == name
      && ':' !in s && '/' !in s && '?' !in s && '#' !in s && !IsPrefix("//", s)
  {
    var s := name + ";" + params;
    NameTextPlain(name);
    NameTextPlain(params);
    assert PlainText(";");
    PlainConcat(name, ";");
    PlainConcat(name + ";", params);
    assert !IsPrefix("//", s) by {
      if |name| > 0 { assert s[0] == name[0]; }
    }
  }

  /** Parameters after a '/'-free name are cut off. */
  lemma ParamsAfterName(name: string, params: string)
    requires '/' !in name && '/' !in params && ';' !in name
    ensures PathBeforeParams(name + ";" + params) == name
  {
    var s := name + ";" + params;
    assert s == name + [';'] + params;
    assert '/' !in s;
    assert AfterLast(s, '/') == s;
    FirstIndexAfter(name, ';', params);
    assert s[..|name|] == name;
  }

  /** Parameters after the last '/' are cut off a scheme-less path. */
  lemma ParamsCut(name: string, params: string)
    requires forall i | 0 <= i < |name| :: IsNameChar(name[i])
    requires forall i | 0 <= i < |params| :: IsNameChar(params[i])
    ensures UrlHost(name + ";" + params) == Ok(name)
  {
    var s := name + ";" + params;
    assert SplitScheme(CleanUrl(s)) == (None, s) && SplitNetloc(s) == Ok(("", s)) by {
      ParamsText(name, params);
      CleanUrlPlain(s);
      NoScheme(s);
      SplitNetlocPlain(s);
    }
    UrlHostWithoutScheme(s, s, "", s);
    assert PathBeforeParams(s) == name by {
      NameTextPlain(name);
      NameTextPlain(params);
      ParamsAfterName(name, params);
    }
  }
}

=== FILE: validators.dfy ===
/** The argument validators of `_validators.py`: memory, the registry
    credentials, target port and ingress, and the expansion of environment
    and custom-location names into resource ids.

    A validator that rewrites its argument returns the new value; one that
    only checks returns an `Outcome`. The float parser behind `_is_number` is
    a parameter, `isNumber`.
 */
module Validators {

  import opened Common
  import opened Text
  import opened ResourceIds
  import opened Registry

  const MemoryUnit: string := "Gi"
  const MemoryMessage: string := "Usage error: --memory must be a number ending with \"Gi\""
  const RegistryMessage: string :=
    "Usage error: --registry-server, --registry-password and --registry-username are required together if not using Azure Container Registry"
  const TargetPortMessage: string := "Usage error: must specify --ingress with --target-port"
  const IngressMessage: string := "Usage error: must specify --target-port with --ingress"

  // ---------------------------------------------------------------- memory

  /** The memory string after the unit is supplied: kept when it already ends
      in "Gi", otherwise right-stripped and suffixed with "Gi". */
  function WithMemoryUnit(memory: string): (m: string)
    ensures EndsWith(m, MemoryUnit)
    ensures EndsWith(memory, MemoryUnit) ==> m == memory
    ensures !EndsWith(memory, MemoryUnit) ==> m[..|m| - 2] == RStrip(memory)
  {
    if EndsWith(memory, MemoryUnit) then memory
    else
      var m := RStrip(memory) + MemoryUnit;
      assert m[|m| - 2..] == MemoryUnit;
      assert m[..|m| - 2] == RStrip(memory);
      m
  }

  /** `validate_memory`: `None` is left alone; otherwise the memory gets its
      unit and must be a number before it. */
  function ValidateMemory(memory: Option<string>, isNumber: string -> bool): (r: Result<Option<string>>)
    ensures memory.None? ==> r == Ok(None)
    ensures memory.Some? ==>
      var m := WithMemoryUnit(memory.value);
      && (r.Ok? <==> isNumber(m[..|m| - 2]))
      && (r.Ok? ==> r.value == Some(m))
      && (r.Err? ==> r.error.ValidationError?)
  {
    match memory
    case None => Ok(None)
    case Some(s) =>
      var m := WithMemoryUnit(s);
      if isNumber(m[..|m| - 2]) then Ok(Some(m)) else Err(ValidationError(MemoryMessage))
  }

  /** Every accepted memory ends in the unit, and validating it again accepts
      it unchanged. */
  lemma ValidateMemoryIdempotent(memory: Option<string>, isNumber: string -> bool)
    requires ValidateMemory(memory, isNumber).Ok?
    ensures var m := ValidateMemory(memory, isNumber).value;
      && (m.Some? ==> EndsWith(m.value, MemoryUnit))
      && ValidateMemory(m, isNumber) == Ok(m)
  {
  }

  /** A number without its unit is accepted with trailing blanks dropped. */
  lemma MemoryUnitAppended()
    ensures ValidateMemory(Some("0.5 "), s => s == "0.5") == Ok(Some("0.5Gi"))
  {
    assert !EndsWith("0.5 ", MemoryUnit);
    assert RStrip("0.5 ") == "0.5" by {
      assert "0.5 "[..3] == "0.5";
    }
    var m := WithMemoryUnit("0.5 ");
    assert m == "0.5Gi";
  }

  const CpuMessage: string := "Usage error: --cpu must be a number eg. \"0.5\""

  /** `validate_cpu`: a given cpu must be a number; it is never rewritten. */
  function ValidateCpu(cpu: Option<string>, isNumber: string -> bool): (r: Outcome)
    ensures r.Fail? <==> Truthy(cpu) && !isNumber(cpu.value)
    ensures r.Fail? ==> r.error == ValidationError(CpuMessage)
  {
    if Truthy(cpu) && !isNumber(cpu.value) then Fail(ValidationError(CpuMessage)) else Pass
  }

  // ---------------------------------------------------------------- registry and ingress

  /** The validators below act only on commands whose name contains "create". */
  predicate IsCreate(command: string) {
    Contains(Lower(command), "create")
  }

  predicate IsAcr(server: Option<string>) {
    server.Some? && Contains(server.value, AcrSuffix)
  }

  /** `validate_registry_server`. */
  function ValidateRegistryServer(command: string, server: Option<string>, user: Option<string>, pass: Option<string>): (r: Outcome)
    ensures r.Fail? <==> IsCreate(command) && Truthy(server) && (!Truthy(user) || !Truthy(pass)) && !IsAcr(server)
    ensures r.Fail? ==> r.error.ValidationError?
  {
    if IsCreate(command) && Truthy(server) && (!Truthy(user) || !Truthy(pass)) && !Contains(server.value, AcrSuffix) then
      Fail(ValidationError(RegistryMessage))
    else Pass
  }

  /** `validate_registry_user`. */
  function ValidateRegistryUser(command: string, server: Option<string>, user: Option<string>, pass: Option<string>): (r: Outcome)
    ensures r.Fail? <==> IsCreate(command) && Truthy(user) && (!Truthy(server) || (!Truthy(pass) && !IsAcr(server)))
    ensures r.Fail? ==> r.error.ValidationError?
  {
    if IsCreate(command) && Truthy(user) && (!Truthy(server) || (!Truthy(pass) && !Contains(server.value, AcrSuffix))) then
      Fail(ValidationError(RegistryMessage))
    else Pass
  }

  /** `validate_registry_pass`. */
  function ValidateRegistryPass(command: string, server: Option<string>, user: Option<string>, pass: Option<string>): (r: Outcome)
    ensures r.Fail? <==> IsCreate(command) && Truthy(pass) && (!Truthy(server) || (!Truthy(user) && !IsAcr(server)))
    ensures r.Fail? ==> r.error.ValidationError?
  {
    if IsCreate(command) && Truthy(pass) && (!Truthy(server) || (!Truthy(user) && !Contains(server.value, AcrSuffix))) then
      Fail(ValidationError(RegistryMessage))
    else Pass
  }

  /** Together the three registry validators accept a create command exactly
      when no registry argument is given, or a server is given with both
      credentials, or an Azure Container Registry server is given. */
  lemma RegistryValidatorsTogether(command: string, server: Option<string>, user: Option<string>, pass: Option<string>)
    requires IsCreate(command)
    ensures
      (&& ValidateRegistryServer(command, server, user, pass).Pass?
       && ValidateRegistryUser(command, server, user, pass).Pass?
       && ValidateRegistryPass(command, server, user, pass).Pass?)
      <==>
      || (!Truthy(server) && !Truthy(user) && !Truthy(pass))
      || (Truthy(server) && ((Truthy(user) && Truthy(pass)) || IsAcr(server)))
  {
  }

  /** A target port as the command line parses it: `None` or an integer, with
      `0` as false as in Python. */
  predicate PortGiven(port: Option<int>) {
    port.Some? && port.value != 0
  }

  /** `validate_target_port`. */
  function ValidateTargetPort(command: string, targetPort: Option<int>, ingress: Option<string>): (r: Outcome)
    ensures r.Fail? <==> IsCreate(command) && PortGiven(targetPort) && !Truthy(ingress)
    ensures r.Fail? ==> r.error.ValidationError?
  {
    if IsCreate(command) && PortGiven(targetPort) && !Truthy(ingress) then Fail(ValidationError(TargetPortMessage))
    else Pass
  }

  /** `validate_ingress`. */
  function ValidateIngress(command: string, targetPort: Option<int>, ingress: Option<string>): (r: Outcome)
    ensures r.Fail? <==> IsCreate(command) && Truthy(ingress) && !PortGiven(targetPort)
    ensures r.Fail? ==> r.error.ValidationError?
  {
    if IsCreate(command) && Truthy(ingress) && !PortGiven(targetPort) then Fail(ValidationError(IngressMessage))
    else Pass
  }

  /** On a create command, target port and ingress come together or not at all. */
  lemma PortAndIngressTogether(command: string, targetPort: Option<int>, ingress: Option<string>)
    requires IsCreate(command)
    ensures (ValidateTargetPort(command, targetPort, ingress).Pass? && ValidateIngress(command, targetPort, ingress).Pass?)
      <==> (PortGiven(targetPort) <==> Truthy(ingress))
  {
  }

  /** Commands other than create are never rejected by these validators. */
  lemma OnlyCreateValidated(command: string, server: Option<string>, user: Option<string>, pass: Option<string>,
                            targetPort: Option<int>, ingress: Option<string>)
    requires !IsCreate(command)
    ensures ValidateRegistryServer(command, server, user, pass).Pass?
    ensures ValidateRegistryUser(command, server, user, pass).Pass?
    ensures ValidateRegistryPass(command, server, user, pass).Pass?
    ensures ValidateTargetPort(command, targetPort, ingress).Pass?
    ensures ValidateIngress(command, targetPort, ingress).Pass?
  {
  }

  // ---------------------------------------------------------------- environment and custom-location names

  datatype EnvironmentType = Connected | Managed | Unknown(given: string) | Unset

  /** The environment type `validate_env_name_or_id` decides on, each rule
      overriding the one before: the explicit type, then a
      "connectedEnvironments" and a "managedEnvironments" substring of the
      name, then a custom location or a connected cluster. */
  function EnvironmentTypeOf(env: string, environmentType: Option<string>, customLocation: Option<string>,
                             connectedClusterId: Option<string>): (t: EnvironmentType)
    ensures Truthy(customLocation) || Truthy(connectedClusterId) ==> t == Connected
    ensures !(Truthy(customLocation) || Truthy(connectedClusterId)) && Contains(env, "managedEnvironments") ==> t == Managed
    ensures (!(Truthy(customLocation) || Truthy(connectedClusterId)) && !Contains(env, "managedEnvironments")
             && Contains(env, "connectedEnvironments")) ==> t == Connected
    ensures (!(Truthy(customLocation) || Truthy(connectedClusterId)) && !Contains(env, "managedEnvironments")
             && !Contains(env, "connectedEnvironments")) ==>
      t == (if !Truthy(environmentType) then Unset
            else if environmentType.value == "connected" then Connected
            else if environmentType.value == "managed" then Managed
            else Unknown(environmentType.value))
  {
    var given := if !Truthy(environmentType) then Unset
                 else if environmentType.value == "connected" then Connected
                 else if environmentType.value == "managed" then Managed
                 else Unknown(environmentType.value);
    var byConnected := if Contains(env, "connectedEnvironments") then Connected else given;
    var byManaged := if Contains(env, "managedEnvironments") then Managed else byConnected;
    if Truthy(customLocation) || Truthy(connectedClusterId) then Connected else byManaged
  }

  const AppRp: string := "Microsoft.App"
  const ExtendedLocationRp: string := "Microsoft.ExtendedLocation"

  /** `validate_env_name_or_id`: with an environment and a group given, a
      bare environment name of a decided type becomes the resource id of that
      type under Microsoft.App; a valid id is kept. */
  function ValidateEnvNameOrId(subscription: string, env: Option<string>, group: Option<string>, environmentType: Option<string>,
                               customLocation: Option<string>, connectedClusterId: Option<string>): (r: Option<string>)
    ensures !Truthy(env) || !Truthy(group) ==> r == env
    ensures Truthy(env) && IsValidId(env.value) ==> r == env
    ensures Truthy(env) && Truthy(group) && !IsValidId(env.value) ==>
      match EnvironmentTypeOf(env.value, environmentType, customLocation, connectedClusterId)
      case Connected => r == Some(BuildId(subscription, group, AppRp, "connectedEnvironments", env.value))
      case Managed => r == Some(BuildId(subscription, group, AppRp, "managedEnvironments", env.value))
      case _ => r == env
  {
    if !Truthy(env) || !Truthy(group) then env
    else
      match EnvironmentTypeOf(env.value, environmentType, customLocation, connectedClusterId)
      case Connected =>
        if !IsValidId(env.value) then Some(BuildId(subscription, group, AppRp, "connectedEnvironments", env.value)) else env
      case Managed =>
        if !IsValidId(env.value) then Some(BuildId(subscription, group, AppRp, "managedEnvironments", env.value)) else env
      case _ => env
  }

  /** A bare environment name expands to an id that names it, its group and
      the decided type, and expanding that id again changes nothing. */
  lemma EnvNameExpansion(subscription: string, env: string, group: string, environmentType: Option<string>,
                         customLocation: Option<string>, connectedClusterId: Option<string>)
    requires Segment(subscription) && Segment(group) && Segment(env)
    requires EnvironmentTypeOf(env, environmentType, customLocation, connectedClusterId) in {Connected, Managed}
    ensures var r := ValidateEnvNameOrId(subscription, Some(env), Some(group), environmentType, customLocation, connectedClusterId);
      var t := if EnvironmentTypeOf(env, environmentType, customLocation, connectedClusterId) == Connected
               then "connectedEnvironments" else "managedEnvironments";
      && r.Some?
      && ParseId(r.value) == Some(ResourceId(subscription, group, AppRp, t, env))
      && ValidateEnvNameOrId(subscription, r, Some(group), environmentType, customLocation, connectedClusterId) == r
  {
    assert !IsValidId(env) by { assert Split(env, '/') == [env]; }
    assert Segment(AppRp) && Segment("connectedEnvironments") && Segment("managedEnvironments");
    BuildIdParses(subscription, Some(group), AppRp, "connectedEnvironments", env);
    BuildIdParses(subscription, Some(group), AppRp, "managedEnvironments", env);
  }

  /** `validate_custom_location_name_or_id`: with a custom location and a
      group given, a bare name becomes a Microsoft.ExtendedLocation id. */
  function ValidateCustomLocationNameOrId(subscription: string, customLocation: Option<string>, group: Option<string>): (r: Option<string>)
    ensures !Truthy(customLocation) || !Truthy(group) ==> r == customLocation
    ensures Truthy(customLocation) && IsValidId(customLocation.value) ==> r == customLocation
    ensures Truthy(customLocation) && Truthy(group) && !IsValidId(customLocation.value) ==>
      r == Some(BuildId(subscription, group, ExtendedLocationRp, "customLocations", customLocation.value))
  {
    if !Truthy(customLocation) || !Truthy(group) then customLocation
    else if !IsValidId(customLocation.value) then
      Some(BuildId(subscription, group, ExtendedLocationRp, "customLocations", customLocation.value))
    else customLocation
  }

  /** A bare custom-location name expands to an id naming it and its group,
      and expanding that id again changes nothing. */
  lemma CustomLocationNameExpansion(subscription: string, name: string, group: string)
    requires Segment(subscription) && Segment(group) && Segment(name)
    ensures var r := ValidateCustomLocationNameOrId(subscription, Some(name), Some(group));
      && r.Some?
      && ParseId(r.value) == Some(ResourceId(subscription, group, ExtendedLocationRp, "customLocations", name))
      && ValidateCustomLocationNameOrId(subscription, r, Some(group)) == r
  {
    assert !IsValidId(name) by { assert Split(name, '/') == [name]; }
    assert Segment(ExtendedLocationRp) && Segment("customLocations");
    BuildIdParses(subscription, Some(group), ExtendedLocationRp, "customLocations", name);
  }
}
